=== FILE: README.md ===
# Capsul pipeline to soma-workflow conversion, modelled in Dafny

This project models `capsul/pipeline/pipeline_workflow.py`. That module turns a Capsul pipeline into a soma-workflow `Workflow`:

- **Temporaries.** Every empty path parameter receives a temporary token ("0", "1", …) that stands for a scheduler `TemporaryPath`.
- **Configuration.** The transfer roots and shared-path translations are read from the study configuration.
- **Transfers.** File transfers are detected on the pipeline's own parameters. They are then propagated through the link graph, across switches and sub-pipelines, down to the leaf processes.
- **Flattening.** The structural workflow graph is flattened recursively. Every leaf process becomes a job. The job's command line has tokens, shared paths and transferred paths replaced by scheduler objects. Every nested graph becomes a group of its own roots. Every `links_to` edge becomes a dependency between the jobs and groups standing for its ends.
- **Restore.** The parameters that received tokens are set back to `Undefined`.

The model is functional. The pipeline's live parameter values are a map from `(process, parameter)` to a `Value`. The foreign objects are plain records:

- traits;
- soma-workflow `Job`, `Group`, `TemporaryPath`, `SharedResourcePath`, `FileTransfer` and `Workflow`;
- the structural `Graph` and the link graph of nodes and plugs.

Object identities (a process, a nested graph) are numbers. The mutable accumulators (`shared_map`, the transfer dictionaries, `jobs`, `groups`, `dependencies`, the root dictionaries) are threaded through the recursion explicitly.

Modules, in dependency order:

- `Wrappers`: `Option` and `Result`.
- `Text`:
  - string prefixes;
  - `os.path.join(root, '')`;
  - Python's `s[n:]`;
  - `'%d' % n` and its inverse.
- `Model`: the shared data model.
- `Substitution`: `_replace_in_list`, both as intended and as written.
- `SharedPaths`: `_translated_path` and the `shared_map` memo.
- `Temporaries`: `assign_temporary_filenames` and `restore_empty_filenames`.
- `Config`: `_get_swf_paths`.
- `Transfers`: `_propagate_transfer` and `_get_transfers`.
- `Jobs`: `build_job`.
- `Sweeps`: the reference sweep. Items are built one after the other, each build handed the state the builds before it left, and each result is recorded under its item's key. With `build_job` as the step and `shared_map` as the state, this is how `workflow_from_graph` builds its jobs.
- `GraphConversion`: `workflow_from_graph`.
- `Closure`: every handle the conversion emits names a job or group it built.
- `PipelineWorkflow`: `workflow_from_pipeline`.

The model follows the code. There is one exception, the defect listed under "## Findings". Nested command-line arguments make `_replace_in_list` raise. `Jobs.SubstituteAsWritten` and `Jobs.BuildJobAsWritten` model that behaviour, and the rest of the model uses the corrected substitution. Some behaviours of the code worth knowing:

- **Restoring parameters on failure.** `workflow_from_pipeline` restores the parameters with a plain statement after the conversion (lines 364-377), with no `try`/`finally`. When a transfer walk or a graph lookup raises, the tokens stay in the parameters. `PipelineWorkflow.WorkflowFromPipeline` states exactly that.
- **Unknown switch plugs.** A switch plug that does not exist is looked up with `node.plugs[...]`, which raises `KeyError`. The model returns it as a `Failure`.
- **Stripping the switch prefix from an input name.** The code drops `len(<active>_switch_)` characters whatever they are (line 232). It does not check for the prefix, and the model does the same.
- **Nodes without a job or group.** The dependency loop looks up `jobs[...]` or `groups[node.meta]`. An empty list, or a list whose first process is not a job, makes that lookup raise: `IndexError`, or `TypeError` for a list used as a key. The model returns `Failure(UnresolvableNode)` in these cases. It does not exclude them by precondition.
- **Configuration keys set to None.** `resource_conf.get('transfer_paths', [])` gives the default only for a missing key; a key set to None yields None. `_get_transfers` then raises `TypeError` at line 268 on the first File or Directory parameter with a value. The model keeps this (`Transfers.ConfiguredTransfers`). A `path_translations` set to None is harmless: `_translated_path` gives up on a falsy `shared_paths` (line 87), so it reads as no roots.

## Model

| member | source | states |
|---|---|---|
| Text.DecimalText | capsul/pipeline/pipeline_workflow.py:188 | a token's text is a non-empty string of decimal digits, one digit long exactly for counters below ten |
| Text.DecimalRoundTrip | capsul/pipeline/pipeline_workflow.py:188 | reading a token's text back as a decimal number gives the counter it was minted from |
| Text.DecimalTextInjective | capsul/pipeline/pipeline_workflow.py:188-189 | distinct counters give distinct token texts |
| Text.JoinEmpty | capsul/pipeline/pipeline_workflow.py:270 | `os.path.join(root, '')` is empty only for an empty root; otherwise it ends with the separator; it is the root itself or the root followed by one separator, and a root already ending in the separator is returned unchanged |
| Text.DropChars | capsul/pipeline/pipeline_workflow.py:232 | slicing `s[n:]` keeps what follows the first n characters, and is empty when n runs past the end |
| Substitution.Replace | capsul/pipeline/pipeline_workflow.py:75-83 | the length is preserved; a key of the map becomes its value; a list or tuple that is not a key becomes a list with the substitution applied inside, of the same length; every other item is unchanged |
| Substitution.LeavesOfReplace | capsul/pipeline/pipeline_workflow.py:75-83 | substituting structurally and then flattening equals flattening and then substituting each scalar: nothing is lost, added or reordered at any depth |
| Substitution.ReplaceAsWritten | capsul/pipeline/pipeline_workflow.py:75-83 | as written, the pass succeeds exactly when every item is hashable, and then agrees with the intended substitution |
| Substitution.NestedArgumentFailsByPassTwo | capsul/pipeline/pipeline_workflow.py:130-132 | as written, a command line holding a list or tuple that is not a key fails on the first or the second of the job builder's passes |
| Substitution.TupleArgumentFailsPassTwo | capsul/pipeline/pipeline_workflow.py:80-83 | the one-tuple command line passes the first pass and fails the second |
| SharedPaths.MakeRef | capsul/pipeline/pipeline_workflow.py:99-103 | the reference's base directory, the separator and its relative path rebuild the path; its namespace is the root's and its uuid is the path |
| SharedPaths.MatchingRoot | capsul/pipeline/pipeline_workflow.py:98-99 | the root found is one of the roots and prefixes the path followed by the separator; none is found exactly when no root does |
| SharedPaths.TranslatedPath | capsul/pipeline/pipeline_workflow.py:85-106 | no reference and an unchanged memo for an undefined value, no roots, or a parameter that is neither File nor Directory; the memoised reference, with the memo unchanged, for a known path; otherwise a reference exactly when some root matches, stored under the path and rebuilding it from that root's base; existing entries are kept |
| SharedPaths.TranslationKeepsMemoSound | capsul/pipeline/pipeline_workflow.py:98-104 | every memo entry stays keyed by its own path and rebuildable from one of the roots |
| SharedPaths.TranslateTwice | capsul/pipeline/pipeline_workflow.py:91-95 | translating a path again, for any File or Directory parameter, returns the identical reference and memo |
| Temporaries.AssignTemporaryFilenames | capsul/pipeline/pipeline_workflow.py:170-193 | (through `AssignedFrom`) the tokens are the texts of 0..n-1, one per reported parameter, n of them; entry i records that parameter, its optional flag, a temporary that is a directory exactly for a Directory trait and is suffixed with the first allowed extension or nothing; every reported parameter holds the last token minted for it; every other parameter keeps its value |
| Temporaries.TokenTextsCount | capsul/pipeline/pipeline_workflow.py:174-189 | n reported parameters give n pairwise distinct tokens |
| Temporaries.TokenIsFresh | capsul/pipeline/pipeline_workflow.py:188-189 | a newly minted token differs from every earlier one |
| Temporaries.RestoreEmptyFilenames | capsul/pipeline/pipeline_workflow.py:195-205 | exactly the recorded parameters become Undefined; every other parameter keeps its value |
| Temporaries.RecordedAreReported | capsul/pipeline/pipeline_workflow.py:175-190 | the token map records exactly the reported parameters |
| Temporaries.RestoreUndoesAssign | capsul/pipeline/pipeline_workflow.py:170-205 | restoring after assigning gives back every parameter value, when the reported parameters were Undefined before |
| Temporaries.RestoreUndoes | capsul/pipeline/pipeline_workflow.py:170-205 | the same round trip for any token map and state that record the reported parameters as `AssignedFrom` describes |
| Temporaries.AssignedTokensAreMinted | capsul/pipeline/pipeline_workflow.py:188-192 | after assignment, every token a parameter holds is a key of the token map |
| Temporaries.TempPaths | capsul/pipeline/pipeline_workflow.py:365-366 | the substitution map has the tokens as keys and maps each to its entry's temporary path |
| Config.GetSwfPaths | capsul/pipeline/pipeline_workflow.py:207-221 | empty roots and translations when the resource name, the resources configuration or that resource's entry is missing; otherwise, for each of the two keys, its value when given, empty when the key is missing, and None exactly when the key is present with the value None |
| Transfers.Record | capsul/pipeline/pipeline_workflow.py:240-241 | the entry is set in the map of its own direction; the other direction is unchanged |
| Transfers.ForProcess | capsul/pipeline/pipeline_workflow.py:126-127 | a process's transfers are exactly the entries recorded for it, by path |
| Transfers.Gate | capsul/pipeline/pipeline_workflow.py:244-249 | propagation stops at a missing, disabled or deactivated plug; otherwise an output follows `links_from` and an input `links_to` |
| Transfers.SwitchPlugName | capsul/pipeline/pipeline_workflow.py:227-233 | an output goes to `<active>_switch_<param>`; an input carrying that prefix has it stripped |
| Transfers.ConsultedPlug | capsul/pipeline/pipeline_workflow.py:226-237 | a switch consults its plug named by SwitchPlugName, present exactly when the switch has it; a sub-pipeline consults its own node's plug of the same name, present exactly when that node has it; a leaf process consults none |
| Transfers.NextStep | capsul/pipeline/pipeline_workflow.py:225-249 | a leaf process, and only a leaf process, records at its process; a switch raises exactly when its renamed plug is missing, and otherwise follows that plug's links, `links_from` for an output and `links_to` for an input, exactly when it is enabled and activated; a sub-pipeline follows the same links of its own node's plug of the same name exactly when that plug exists, is enabled and activated; every other case stops; every link followed resolves |
| Transfers.PropagateNode | capsul/pipeline/pipeline_workflow.py:223-255 | only entries for this path and item at leaf processes are added or overwritten, in this direction only; a leaf process records it at once; a gate that stops leaves the transfers unchanged; the recursion limit aborts |
| Transfers.Stamp | capsul/pipeline/pipeline_workflow.py:240-241 | recording an item for a path at a set of processes adds or overwrites exactly their entries, in one direction, and keeps every other entry |
| Transfers.PropagateNodeReaches | capsul/pipeline/pipeline_workflow.py:223-255 | a walk that succeeds records the item for the path at exactly the leaf processes reached, and changes nothing else; a process is reached when it is the node's own, or when the plug consulted is enabled and activated and one of its links whose node and plug are both enabled and activated leads, one call deeper, to a node it is reached from |
| Transfers.PropagateLinksReaches | capsul/pipeline/pipeline_workflow.py:250-255 | the loop over a plug's links records at exactly the leaf processes reached along the links that are not skipped; a link into a disabled or deactivated node or plug contributes nothing |
| Transfers.SwitchedGraphReachesLeaf | capsul/pipeline/pipeline_workflow.py:223-255 | a pipeline input linked to the active input of a switch reaches, through the switch's output, the leaf process behind it and records the transfer there |
| Transfers.PropagateLinks | capsul/pipeline/pipeline_workflow.py:250-255 | following a plug's links only adds or overwrites entries for this path and item at leaf processes, in this direction only |
| Transfers.UnderJoinedRoot | capsul/pipeline/pipeline_workflow.py:270 | the spelled-out root test agrees with `path.startswith(os.path.join(tpath, ''))` for every path and root |
| Transfers.FirstTransferRoot | capsul/pipeline/pipeline_workflow.py:268-278 | the root chosen is the first in list order under which the path lies; there is none exactly when no root matches |
| Transfers.GetTransfers | capsul/pipeline/pipeline_workflow.py:257-279 | every transferable pipeline parameter is recorded for the pipeline in its direction; every entry is `FileTransfer(not output, path, [path])`; an entry is present exactly when some transferable parameter of that direction has its path and the entry is for the pipeline or for a leaf process the walk from the pipeline node reaches |
| Transfers.ConfiguredTransfers | capsul/pipeline/pipeline_workflow.py:257-279 | with a list of roots, the transfers `_get_transfers` finds; with roots set to None, a `TypeError` exactly when some File or Directory parameter has a value that is neither None nor Undefined, and otherwise no transfers |
| Transfers.NoneRootsVersusEmpty | capsul/pipeline/pipeline_workflow.py:266-268 | an empty list of roots records no transfer, and roots set to None give the same result exactly when no File or Directory parameter has a value |
| Transfers.TransfersFromExact | capsul/pipeline/pipeline_workflow.py:263-278 | the loop from a given parameter on adds to the transfers exactly the entries that parameter and the later ones are due |
| Transfers.TransferRootOrderIrrelevant | capsul/pipeline/pipeline_workflow.py:268-278 | two transfer root lists with the same members give the same transfers: only whether a path lies under some root matters, not which root matches first |
| Transfers.InactiveBranchNode | capsul/pipeline/pipeline_workflow.py:226-233 | changing, adding or removing a switch plug outside the active branch, one no link leads into, does not change what an output propagation records: inactive branches are never visited |
| Jobs.ScanParams | capsul/pipeline/pipeline_workflow.py:114-123 | the input and output temporaries are exactly those behind the token parameters of each direction, skipping `nodes_activation` and `selection_changed`; the memo keeps its entries, stays sound, gains only parameter paths and gains every shareable one |
| Jobs.ProcTransfers | capsul/pipeline/pipeline_workflow.py:126-129 | the process's transfer paths are its input and output ones; an output transfer wins over an input transfer of the same path |
| Jobs.Substitute | capsul/pipeline/pipeline_workflow.py:130-132 | with the corrected substitution: the length is preserved; each scalar becomes its temporary if it is a token, else its shared reference, else its transfer; no string left is a key of any of the three maps |
| Jobs.SubstituteAsWritten | capsul/pipeline/pipeline_workflow.py:130-132 | as written, the three passes fail exactly when the command line holds a list or a tuple, and otherwise give what Substitute gives |
| Jobs.BuildJob | capsul/pipeline/pipeline_workflow.py:108-140 | with the corrected substitution: the job bears the process's name and its substituted command line; its input and output temporaries are those of its token parameters of each direction; its input and output transfers are exactly the entries recorded for the process, path by path; the memo only grows, covers every shareable parameter path, and gains no entry that is not the path of one of the process's parameters; every shared reference put in for a string of the command line is the resulting memo's entry for that string |
| Jobs.SharedRefsAgree | capsul/pipeline/pipeline_workflow.py:91-95 | two command lines resolved against one sound memo that had the same string and both hold a shared reference for it hold equal references, whose uuid is that string |
| Jobs.BuildJobAsWritten | capsul/pipeline/pipeline_workflow.py:108-140 | as written, building the job raises exactly when the process's command line holds a list or a tuple, and otherwise gives the job BuildJob builds |
| GraphConversion.HandleOf | capsul/pipeline/pipeline_workflow.py:350-359 | a node has no job or group to stand for it exactly when it is an empty list or a list whose first process is not a leaf process |
| GraphConversion.LeafPass | capsul/pipeline/pipeline_workflow.py:314-330 | one job per leaf process of the level's lists, each built from that process, also recorded as a root job; nothing else changes and the memo only grows; the jobs and the memo are exactly those of the reference sweep over the level's leaf processes in list order, each `build_job` call handed the memo the previous calls left |
| GraphConversion.SubPass | capsul/pipeline/pipeline_workflow.py:333-345 | with the corrected substitution, succeeds exactly when every node inside the sub-graphs resolves; then each sub-graph adds its jobs, groups and dependencies, and one root group named after its node that holds exactly the sub-graph's roots, its groups before its jobs; the jobs and the memo are exactly those of the reference sweep over the processes of the sub-graphs in node order, each sub-graph's own order inside, from the jobs and memo found |
| GraphConversion.SubNodePass | capsul/pipeline/pipeline_workflow.py:333-344 | at a sub-graph node, with the corrected substitution, succeeds exactly when every node inside the remaining sub-graphs resolves, and then adds what SubPass states from that position, the jobs and memo again exactly those of the reference sweep from that node on |
| GraphConversion.OneReferencePerPath | capsul/pipeline/pipeline_workflow.py:62-64 | the jobs of one conversion all drew the shared references they put in for strings from the one memo the conversion ends with, so two jobs that replaced the same path carry equal references |
| GraphConversion.LevelDeps | capsul/pipeline/pipeline_workflow.py:347-360 | succeeds when every node of the level resolves, and then the dependencies are exactly the pairs of handles of the nodes and the nodes they link to |
| GraphConversion.ConvertGraph | capsul/pipeline/pipeline_workflow.py:281-362 | with the corrected substitution, succeeds exactly when every node at every depth resolves; the jobs are one per leaf process at any depth, and the jobs and the final memo are exactly those of the reference sweep over every leaf process in conversion order: the level's own lists first, then each sub-graph's processes in turn, each `build_job` call handed the memo all earlier calls left and its job stored under its process; the groups are one per sub-graph at any depth, each holding that sub-graph's roots, its groups before its jobs; the dependencies are every level's links; the roots are the top level's jobs and groups |
| Sweeps.RunAppend | capsul/pipeline/pipeline_workflow.py:314-344 | the reference sweep over two runs of processes one after the other is the sweep over the second started where the first stopped, so the leaf pass and the sub-graph pass compose |
| Sweeps.RunOver | capsul/pipeline/pipeline_workflow.py:334-343 | a sub-graph converted from no jobs and merged with `jobs.update` leaves the same jobs and memo as the sweep continued over the jobs already built: the memo never depends on the jobs |
| Sweeps.RunMade | capsul/pipeline/pipeline_workflow.py:325-330 | each entry of a sweep's result is the one it started with, when no item has its key, or otherwise what the step built for the last item with that key, from the state exactly as the items before it left it |
| GraphConversion.SweepJobs | capsul/pipeline/pipeline_workflow.py:325-343 | each job of a conversion is `build_job` of the last process with its id, handed the memo exactly as the processes before it in conversion order left it |
| GraphConversion.SweepGrows | capsul/pipeline/pipeline_workflow.py:123 | the memo keeps all its entries along a sweep |
| GraphConversion.EarlierPathsKnown | capsul/pipeline/pipeline_workflow.py:123-131 | a shareable path of a process is in the memo every later process of the sweep is built from, so line 131 of a later call replaces it by the same reference |
| GraphConversion.GroupHandles | capsul/pipeline/pipeline_workflow.py:340 | the group handles are exactly those of the root groups |
| GraphConversion.JobHandles | capsul/pipeline/pipeline_workflow.py:340 | the job handles are exactly those of the root jobs |
| Closure.DeepEdgesNamed | capsul/pipeline/pipeline_workflow.py:347-360 | both ends of every dependency, at any depth, are jobs or groups of the graph |
| Closure.NestedWithin | capsul/pipeline/pipeline_workflow.py:333-345 | a sub-graph met at any depth contributes no job or group its enclosing graph lacks |
| Closure.ConvertedResolves | capsul/pipeline/pipeline_workflow.py:306-362 | every dependency end, root and group member of a conversion names one of its jobs or groups |
| PipelineWorkflow.WorkflowFromPipeline | capsul/pipeline/pipeline_workflow.py:364-386 | with the corrected substitution, succeeds exactly when the transfers are found and every node resolves; the workflow bears the pipeline's name, flattens the graph with root groups before root jobs, resolves all its handles, and references only minted temporaries; one sound memo supplies every shared reference the jobs put in for a string; transfer roots configured as None fail with `TypeError` exactly when a File or Directory parameter has a value; on success the reported parameters are Undefined and the rest unchanged; on failure the tokens are left in place |
| PipelineWorkflow.ConversionLeavesStateAsFound | capsul/pipeline/pipeline_workflow.py:364-377 | when the reported parameters were Undefined before, a successful conversion leaves every parameter value as it found it |
| PipelineWorkflow.MintedReady | capsul/pipeline/pipeline_workflow.py:117-121 | once the tokens are assigned, the builder's lookup of every token held by a leaf process succeeds |
| GraphConversion.RootsOrdered | capsul/pipeline/pipeline_workflow.py:383 | in the workflow roots every group comes before every job |
| PipelineWorkflow.AssembledFlattens | capsul/pipeline/pipeline_workflow.py:373-384 | the assembled workflow is the flattening of the structural graph |
| PipelineWorkflow.AssembledTempsMinted | capsul/pipeline/pipeline_workflow.py:364-366 | every temporary a job references is the one minted for some reported parameter |

## Left out

- `local_workflow_run` (lines 389-402) submits the workflow to a controller and waits. It is pure I/O.
- `get_jobs` (lines 159-168) is defined but never called by the conversion. Its queue also has no bound when a group contains itself.
- `build_group` and `_files_group` are one-line constructors. They are inlined as `Group(name, members)` and `[path]`.
- The pipeline library's own functions are inputs of the model, not computations in it:
  - `find_empty_parameters()` is the `empties` sequence;
  - `workflow_graph()` is the structural graph;
  - `get_commandline()` is each process's command line;
  - `user_traits()` is each process's parameter list;
  - plugs and links are the link graph.
- Dictionary iteration orders are given, not derived:
  - `user_traits()`, `_nodes` and `path_translations` are sequences in an unspecified order;
  - the sub-graph loop (line 333) runs over the `group_nodes` dictionary; the model visits the sub-graphs in `_nodes` order, which is the dictionary's insertion order, not necessarily its iteration order;
  - the roots and group members are stated by membership, not order, except that root groups precede root jobs;
  - no topological ordering of the roots is claimed (the open item at line 379).
- Fuel: the transfer walk has no cycle guard. Its `fuel` stands for the interpreter's recursion limit, and exhausting it fails with `RecursionLimit`. The model does not say which pipelines fit within a given depth.
- Self-loops and cycles in the structural graph are not excluded. The dependencies are exactly the links, whatever they are.
- The substitution passes compare strings by value. Any command-line string equal to a token's text, a translated path or a transferred path is replaced, including literal arguments that only look like one. The model keeps this behaviour.
- A parameter value left as a token by an earlier, failed call is an instance of that call's own `TempFile` class, not of the new one. It is modelled as a plain string, which is why the top level requires that no parameter holds a token of its own call yet.
- Temporaries.AssignTemporaryFilenames: `setattr` at line 192 fires the pipeline's link callbacks, which copy the value to linked plugs; the model updates only the reported (process, parameter) key and does not propagate the token along links, since the pipeline's link mechanism is not part of this model.
- Jobs.BuildJob: the order of the referenced temporaries and transfers is not stated, only their membership, because it follows the order of `user_traits()` and of the transfer dictionaries.
- PipelineWorkflow.WorkflowFromPipeline: states of each job only its name and its referenced temporaries. The rest of what a job contains, and the exact memo each `build_job` call is handed, is stated by `GraphConversion.ConvertGraph` through the reference sweep; the workflow-level statement about the memo is that one sound memo supplies every shared reference of every job. The workflow uses the corrected substitution: as written, the conversion also raises `TypeError` whenever a leaf process's command line holds a list or a tuple (`Jobs.BuildJobAsWritten`), and its success condition does not include that.
- Jobs.Substitute: states the corrected `_replace_in_list`. As written, the three passes raise on any list or tuple in the command line, which `Jobs.SubstituteAsWritten` states.
- Jobs.BuildJob: states the job built with the corrected substitution. As written, `build_job` raises on a command line holding a list or a tuple, which `Jobs.BuildJobAsWritten` states.
- GraphConversion.SubPass: its success condition is stated with the corrected substitution, as for ConvertGraph below.
- GraphConversion.ConvertGraph: its success condition is stated with the corrected substitution, so it leaves out the failure `build_job` raises as written on a list or tuple in a command line.

## Findings

| source | as written | input that shows it | evidently intended | confidence | as-written member | corrected member |
|---|---|---|---|---|---|---|
| capsul/pipeline/pipeline_workflow.py:77-83 | `item in temp_map` is tested before the list/tuple check. A list item is unhashable and raises `TypeError`. A tuple item is turned into a list by the first pass, so the second pass raises. | a command line `[("a",)]`, that is, one tuple holding a string, given to the job builder's passes | nested lists and tuples are substituted recursively, as the `elif` branch shows | not executed | Substitution.ReplaceAsWritten, Substitution.TupleArgumentFailsPassTwo, Jobs.SubstituteAsWritten, Jobs.BuildJobAsWritten | Substitution.Replace, Substitution.LeavesOfReplace, Jobs.Substitute, Jobs.BuildJob |

=== FILE: closure.dfy ===
/** Every handle the conversion emits stands for something it built: each
    dependency end, each root and each group member is the id of a job or of
    a group of the result. */
module Closure {
  import opened Model
  import opened SharedPaths
  import opened GraphConversion

  /** `h` is one of the given jobs or groups. */
  predicate NamedBy(h: Handle, jobIds: set<ProcId>, groupIds: set<GraphId>) {
    (h.JobHandle? && h.proc in jobIds) || (h.GroupHandle? && h.graph in groupIds)
  }

  /** The deep contributions of the sub-graph at position `j`, if there is one. */
  function SubAt<T>(g: SGraph, j: nat, f: (SGraph, nat) -> set<T>): set<T> {
    if j < |g.nodes| && g.nodes[j].meta.Sub? then Deep(g.nodes[j].meta.graph, f) else {}
  }

  lemma {:induction false} LevelFromMembers<T>(g: SGraph, i: nat, f: (SGraph, nat) -> set<T>, x: T)
    ensures x in LevelFrom(g, i, f) <==> exists j :: i <= j < |g.nodes| && x in f(g, j)
    decreases |g.nodes| - i
  {
    if i < |g.nodes| {
      LevelFromMembers(g, i + 1, f, x);
    }
  }

  lemma {:induction false} SubDeepMembers<T>(g: SGraph, i: nat, f: (SGraph, nat) -> set<T>, x: T)
    ensures x in SubDeep(g, i, f) <==> exists j :: i <= j < |g.nodes| && x in SubAt(g, j, f)
    decreases |g.nodes| - i
  {
    if i < |g.nodes| {
      assert SubDeep(g, i, f) == SubAt(g, i, f) + SubDeep(g, i + 1, f);
      SubDeepMembers(g, i + 1, f, x);
    }
  }

  /** The handle of a node is a root of its own level. */
  lemma HandleInLevel(g: SGraph, j: nat)
    requires j < |g.nodes| && HandleOf(g.nodes[j]).Some?
    ensures InLevel(HandleOf(g.nodes[j]).value, g)
  {
    var n := g.nodes[j];
    match n.meta
    case Sub(gid, _) =>
      assert gid in GroupIdsAt(g, j);
      LevelFromMembers(g, 0, GroupIdsAt, gid);
    case Leaf(units) =>
      assert units[0].proc.id in UnitIds(units);
      assert units[0].proc.id in JobIdsAt(g, j);
      LevelFromMembers(g, 0, JobIdsAt, units[0].proc.id);
  }

  /** Both ends of a dependency of this level are nodes of this level. */
  lemma LevelEdgeEnds(g: SGraph, e: (Handle, Handle))
    requires e in LevelFrom(g, 0, EdgesAt)
    ensures InLevel(e.0, g) && InLevel(e.1, g)
  {
    LevelFromMembers(g, 0, EdgesAt, e);
    var j :| 0 <= j < |g.nodes| && e in EdgesAt(g, j);
    var links := g.nodes[j].linksTo;
    var k :| 0 <= k < |links| && links[k] < |g.nodes| && HandleOf(g.nodes[links[k]]).Some? &&
             e == (HandleOf(g.nodes[j]).value, HandleOf(g.nodes[links[k]]).value);
    HandleInLevel(g, j);
    HandleInLevel(g, links[k]);
  }

  lemma InLevelNamed(h: Handle, g: SGraph)
    requires InLevel(h, g)
    ensures NamedBy(h, Deep(g, JobIdsAt), Deep(g, GroupIdsAt))
  {
    DeepSplit(g, JobIdsAt);
    DeepSplit(g, GroupIdsAt);
  }

  /** Every dependency of the graph, at any depth, joins two jobs or groups
      of the graph. */
  lemma {:induction false} DeepEdgesNamed(g: SGraph)
    ensures forall e :: e in Deep(g, EdgesAt) ==>
              NamedBy(e.0, Deep(g, JobIdsAt), Deep(g, GroupIdsAt)) &&
              NamedBy(e.1, Deep(g, JobIdsAt), Deep(g, GroupIdsAt))
    decreases g, 1
  {
    DeepSplit(g, EdgesAt);
    DeepSplit(g, JobIdsAt);
    DeepSplit(g, GroupIdsAt);
    forall e | e in LevelFrom(g, 0, EdgesAt)
      ensures NamedBy(e.0, Deep(g, JobIdsAt), Deep(g, GroupIdsAt))
      ensures NamedBy(e.1, Deep(g, JobIdsAt), Deep(g, GroupIdsAt))
    {
      LevelEdgeEnds(g, e);
      InLevelNamed(e.0, g);
      InLevelNamed(e.1, g);
    }
    SubEdgesNamed(g, 0);
  }

  lemma {:induction false} SubEdgesNamed(g: SGraph, i: nat)
    ensures forall e :: e in SubDeep(g, i, EdgesAt) ==>
              NamedBy(e.0, SubDeep(g, i, JobIdsAt), SubDeep(g, i, GroupIdsAt)) &&
              NamedBy(e.1, SubDeep(g, i, JobIdsAt), SubDeep(g, i, GroupIdsAt))
    decreases g, 0, |g.nodes| - i
  {
    if i < |g.nodes| {
      SubEdgesNamed(g, i + 1);
      if g.nodes[i].meta.Sub? {
        DeepEdgesNamed(g.nodes[i].meta.graph);
      }
    }
  }

  /** A sub-graph met at any depth contributes only what its enclosing graph
      contributes. */
  lemma {:induction false} NestedWithin<T>(g: SGraph, n: SNode, f: (SGraph, nat) -> set<T>)
    requires n in Deep(g, SubNodesAt)
    ensures n.meta.Sub? && Deep(n.meta.graph, f) <= Deep(g, f)
    decreases g, 1
  {
    DeepSplit(g, SubNodesAt);
    DeepSplit(g, f);
    if n in LevelFrom(g, 0, SubNodesAt) {
      LevelFromMembers(g, 0, SubNodesAt, n);
      var j :| 0 <= j < |g.nodes| && n in SubNodesAt(g, j);
      SubAtWithin(g, 0, j, f);
    } else {
      NestedWithinSub(g, 0, n, f);
    }
  }

  lemma {:induction false} NestedWithinSub<T>(g: SGraph, i: nat, n: SNode, f: (SGraph, nat) -> set<T>)
    requires n in SubDeep(g, i, SubNodesAt)
    ensures n.meta.Sub? && Deep(n.meta.graph, f) <= SubDeep(g, i, f)
    decreases g, 0, |g.nodes| - i
  {
    assert i < |g.nodes|;
    var sub := SubAt(g, i, SubNodesAt);
    if n in sub {
      NestedWithin(g.nodes[i].meta.graph, n, f);
    } else {
      NestedWithinSub(g, i + 1, n, f);
    }
  }

  /** The sub-graph at position `j` contributes to the sub-graph part from `i`. */
  lemma SubAtWithin<T>(g: SGraph, i: nat, j: nat, f: (SGraph, nat) -> set<T>)
    requires i <= j < |g.nodes| && g.nodes[j].meta.Sub?
    ensures Deep(g.nodes[j].meta.graph, f) <= SubDeep(g, i, f)
  {
    forall x | x in Deep(g.nodes[j].meta.graph, f)
      ensures x in SubDeep(g, i, f)
    {
      assert x in SubAt(g, j, f);
      SubDeepMembers(g, i, f, x);
    }
  }

  /** Every handle a converted graph emits — dependency ends, roots and group
      members — names one of its jobs or groups. */
  ghost predicate HandlesResolve(c: Conversion) {
    (forall e :: e in c.deps ==> NamedBy(e.0, c.jobs.Keys, c.groups.Keys) && NamedBy(e.1, c.jobs.Keys, c.groups.Keys)) &&
    (forall x :: x in c.rootGroups ==> x in c.groups) &&
    (forall x :: x in c.rootJobs ==> x in c.jobs) &&
    (forall gid, h :: gid in c.groups && h in c.groups[gid].members ==> NamedBy(h, c.jobs.Keys, c.groups.Keys))
  }

  lemma ConvertedResolves(g: SGraph, ctx: Context, memo: Memo, c: Conversion)
    requires Converted(g, ctx, memo, c)
    ensures HandlesResolve(c)
  {
    DeepEdgesNamed(g);
    DeepSplit(g, JobIdsAt);
    DeepSplit(g, GroupIdsAt);
    forall gid, h | gid in c.groups && h in c.groups[gid].members
      ensures NamedBy(h, c.jobs.Keys, c.groups.Keys)
    {
      var n :| n in Deep(g, SubNodesAt) && n.meta.Sub? && n.meta.gid == gid && GroupOf(c.groups[gid], n);
      InLevelNamed(h, n.meta.graph);
      NestedWithin(g, n, JobIdsAt);
      NestedWithin(g, n, GroupIdsAt);
    }
  }
}

=== FILE: config.dfy ===
/** Extraction of the transfer roots and shared-path translations from the
    study configuration (`_get_swf_paths`). */
module Config {
  import opened Wrappers
  import opened SharedPaths

  /** A key of a configuration dictionary: missing, present with the value
      None, or present with a value. `dict.get(key, default)` gives the
      default only in the first case. */
  datatype Entry<T> = Missing | NoneEntry | Given(value: T)

  /** One entry of `somaworkflow_computing_resources_config`. */
  datatype ResourceConfig = ResourceConfig(transferPaths: Entry<seq<string>>, pathTranslations: Entry<SharedRoots>)

  /** The two attributes the conversion reads; an absent attribute, or one
      set to None, is None. The default configuration `{}` has neither. */
  datatype StudyConfig = StudyConfig(
    computingResource: Option<string>,
    resourcesConfig: Option<map<string, Option<ResourceConfig>>>)

  /** `(transfer_paths, path_translations)`; None where the configuration
      sets the key to None. */
  datatype SwfPaths = SwfPaths(transferPaths: Option<seq<string>>, translations: Option<SharedRoots>)

  /** The configuration entry of the selected resource, if all three lookups succeed. */
  function SelectedResource(c: StudyConfig): Option<ResourceConfig> {
    if c.computingResource.None? || c.resourcesConfig.None? then None
    else if c.computingResource.value !in c.resourcesConfig.value then None
    else c.resourcesConfig.value[c.computingResource.value]
  }

  /** `dict.get(key, default)`. */
  function Lookup<T>(e: Entry<T>, default: T): (r: Option<T>)
    ensures e.Missing? ==> r == Some(default)
    ensures e.NoneEntry? <==> r.None?
    ensures e.Given? ==> r == Some(e.value)
  {
    match e
    case Missing => Some(default)
    case NoneEntry => None
    case Given(v) => Some(v)
  }

  function GetSwfPaths(c: StudyConfig): (r: SwfPaths)
    ensures c.computingResource.None? ==> r == SwfPaths(Some([]), Some([]))
    ensures c.resourcesConfig.None? ==> r == SwfPaths(Some([]), Some([]))
    ensures SelectedResource(c).None? ==> r == SwfPaths(Some([]), Some([]))
    ensures r.transferPaths.None? <==> SelectedResource(c).Some? && SelectedResource(c).value.transferPaths.NoneEntry?
    ensures r.translations.None? <==> SelectedResource(c).Some? && SelectedResource(c).value.pathTranslations.NoneEntry?
    ensures r.transferPaths.Some? && r.transferPaths.value != [] ==>
              SelectedResource(c).Some? && SelectedResource(c).value.transferPaths == Given(r.transferPaths.value)
    ensures r.translations.Some? && r.translations.value != [] ==>
              SelectedResource(c).Some? && SelectedResource(c).value.pathTranslations == Given(r.translations.value)
    ensures SelectedResource(c).Some? ==>
              (SelectedResource(c).value.transferPaths.Given? ==>
                 r.transferPaths == Some(SelectedResource(c).value.transferPaths.value)) &&
              (SelectedResource(c).value.transferPaths.Missing? ==> r.transferPaths == Some([])) &&
              (SelectedResource(c).value.pathTranslations.Given? ==>
                 r.translations == Some(SelectedResource(c).value.pathTranslations.value)) &&
              (SelectedResource(c).value.pathTranslations.Missing? ==> r.translations == Some([]))
  {
    if c.computingResource.None? then SwfPaths(Some([]), Some([]))
    else if c.resourcesConfig.None? then SwfPaths(Some([]), Some([]))
    else
      var name := c.computingResource.value;
      var conf := c.resourcesConfig.value;
      if name !in conf || conf[name].None? then SwfPaths(Some([]), Some([]))
      else SwfPaths(Lookup(conf[name].value.transferPaths, []), Lookup(conf[name].value.pathTranslations, []))
  }

  /** The shared roots the job builder sees. `_translated_path` gives up
      on a falsy `shared_paths` (pipeline_workflow.py, line 87), so None reads as no roots. */
  function SharedRootsOf(c: StudyConfig): (r: SharedRoots)
    ensures GetSwfPaths(c).translations.None? ==> r == []
    ensures GetSwfPaths(c).translations.Some? ==> r == GetSwfPaths(c).translations.value
  {
    GetSwfPaths(c).translations.GetOr([])
  }
}

=== FILE: graph.dfy ===
/** Conversion of the pipeline's workflow graph into jobs, groups and
    dependencies (`workflow_from_graph`). */
module GraphConversion {
  import opened Wrappers
  import opened Model
  import opened SharedPaths
  import opened Transfers
  import opened Jobs
  import opened Sweeps

  /** One pipeline node of a leaf graph node: its process is a leaf
      process, or something else (a pipeline, a switch, a non-process). */
  datatype Unit = ProcUnit(proc: Process) | OtherUnit

  /** A graph node's `meta`: a list of pipeline nodes, or a sub-graph
      (identified by `gid`, the object's identity). */
  datatype Meta = Leaf(units: seq<Unit>) | Sub(gid: GraphId, graph: SGraph)

  /** A graph node: its name, its meta, and the positions of the nodes of
      the same graph it links to. */
  datatype SNode = SNode(name: string, meta: Meta, linksTo: seq<nat>)

  /** A workflow graph: its nodes in `_nodes` iteration order. */
  datatype SGraph = SGraph(nodes: seq<SNode>)

  /** The source or destination a node stands for in a dependency: the job
      of its first process, or the group of its sub-graph. None when the
      lookup raises: an empty list (no first element), or a list whose
      first process has no job (the list is then used as a dictionary key,
      which lists cannot be). */
  function HandleOf(n: SNode): (r: Option<Handle>)
    ensures r.None? <==> n.meta.Leaf? && (n.meta.units == [] || !n.meta.units[0].ProcUnit?)
  {
    match n.meta
    case Sub(gid, _) => Some(GroupHandle(gid))
    case Leaf(units) =>
      if |units| > 0 && units[0].ProcUnit? then Some(JobHandle(units[0].proc.id)) else None
  }

  /** The process ids of the leaf processes among `units`. */
  function UnitIds(units: seq<Unit>): set<ProcId> {
    set j | 0 <= j < |units| && units[j].ProcUnit? :: units[j].proc.id
  }

  function UnitProcs(units: seq<Unit>): set<Process> {
    set j | 0 <= j < |units| && units[j].ProcUnit? :: units[j].proc
  }

  // Per-node contributions, total in the position.

  function JobIdsAt(l: SGraph, i: nat): set<ProcId> {
    if i < |l.nodes| && l.nodes[i].meta.Leaf? then UnitIds(l.nodes[i].meta.units) else {}
  }

  function ProcsAt(l: SGraph, i: nat): set<Process> {
    if i < |l.nodes| && l.nodes[i].meta.Leaf? then UnitProcs(l.nodes[i].meta.units) else {}
  }

  function GroupIdsAt(l: SGraph, i: nat): set<GraphId> {
    if i < |l.nodes| && l.nodes[i].meta.Sub? then {l.nodes[i].meta.gid} else {}
  }

  function SubNodesAt(l: SGraph, i: nat): set<SNode> {
    if i < |l.nodes| && l.nodes[i].meta.Sub? then {l.nodes[i]} else {}
  }

  /** The dependencies from `src` to the nodes at positions `links`. */
  function EdgesTo(l: SGraph, src: Handle, links: seq<nat>): set<(Handle, Handle)> {
    set k | 0 <= k < |links| && links[k] < |l.nodes| && HandleOf(l.nodes[links[k]]).Some? ::
      (src, HandleOf(l.nodes[links[k]]).value)
  }

  /** The dependencies node `i` is the source of. */
  function EdgesAt(l: SGraph, i: nat): set<(Handle, Handle)> {
    if i < |l.nodes| && HandleOf(l.nodes[i]).Some? then EdgesTo(l, HandleOf(l.nodes[i]).value, l.nodes[i].linksTo)
    else {}
  }

  /** Every link of node `i` names a node of the same graph. */
  predicate LinkedAt(l: SGraph, i: nat) {
    i < |l.nodes| ==> forall k :: 0 <= k < |l.nodes[i].linksTo| ==> l.nodes[i].linksTo[k] < |l.nodes|
  }

  predicate ResolvableAt(l: SGraph, i: nat) {
    i < |l.nodes| ==> HandleOf(l.nodes[i]).Some?
  }

  /** The contributions of the nodes of `g` from position `i`, this level only. */
  function LevelFrom<T>(g: SGraph, i: nat, f: (SGraph, nat) -> set<T>): set<T>
    decreases |g.nodes| - i
  {
    if i >= |g.nodes| then {} else f(g, i) + LevelFrom(g, i + 1, f)
  }

  /** The contributions of every node of `g` at every depth. */
  function Deep<T>(g: SGraph, f: (SGraph, nat) -> set<T>): set<T>
    decreases g, 1
  {
    LevelFrom(g, 0, f) + SubDeep(g, 0, f)
  }

  /** The contributions inside the sub-graphs of the nodes from position `i`. */
  function SubDeep<T>(g: SGraph, i: nat, f: (SGraph, nat) -> set<T>): set<T>
    decreases g, 0, |g.nodes| - i
  {
    if i >= |g.nodes| then {}
    else (if g.nodes[i].meta.Sub? then Deep(g.nodes[i].meta.graph, f) else {}) + SubDeep(g, i + 1, f)
  }

  predicate LevelAllFrom(g: SGraph, i: nat, p: (SGraph, nat) -> bool)
    decreases |g.nodes| - i
  {
    i >= |g.nodes| || (p(g, i) && LevelAllFrom(g, i + 1, p))
  }

  /** `p` holds at every node of `g` at every depth. */
  predicate DeepAll(g: SGraph, p: (SGraph, nat) -> bool)
    decreases g, 1
  {
    LevelAllFrom(g, 0, p) && SubAll(g, 0, p)
  }

  predicate SubAll(g: SGraph, i: nat, p: (SGraph, nat) -> bool)
    decreases g, 0, |g.nodes| - i
  {
    i >= |g.nodes| || ((g.nodes[i].meta.Sub? ==> DeepAll(g.nodes[i].meta.graph, p)) && SubAll(g, i + 1, p))
  }

  /** What the conversion reads besides the graph: parameter values, the
      token-to-temporary map, the transfers and the shared roots. */
  datatype Context = Context(st: State, temps: map<string, TemporaryPath>, transfers: Transfers, roots: SharedRoots)

  /** `(jobs, dependencies, groups, root_groups, root_jobs)` and the
      shared-path memo. The root dictionaries are kept as their keys, in
      some order. */
  datatype Conversion = Conversion(
    jobs: map<ProcId, Job>,
    deps: set<(Handle, Handle)>,
    groups: map<GraphId, Group>,
    rootGroups: seq<GraphId>,
    rootJobs: seq<ProcId>,
    memo: Memo)

  /** Dictionary insertion of key `x`: a key already present keeps its place. */
  function AddKey<T(==,!new)>(xs: seq<T>, x: T): (r: seq<T>)
    ensures forall y :: y in r <==> y in xs || y == x
    ensures x in xs ==> r == xs
  {
    if x in xs then xs else xs + [x]
  }

  /** Every leaf process can be turned into a job. */
  predicate ProcsReady(procs: set<Process>, ctx: Context) {
    forall p :: p in procs ==> TokensKnown(p.id, p.params, ctx.st, ctx.temps)
  }

  /** `build_job` for `p` with memo `m`. */
  function JobFor(p: Process, ctx: Context, m: Memo): (r: Built)
    requires TokensKnown(p.id, p.params, ctx.st, ctx.temps)
    ensures MemoGrows(m, r.memo, ctx.roots)
  {
    BuildJob(p, ctx.st, ctx.temps, m, ctx.transfers, ctx.roots)
  }

  /** `job` is what `build_job` makes of `p` for some sound state of the
      memo (one holding only paths rebuilt from the shared roots) that the
      conversion's one memo, `final` at its end, passed through. */
  ghost predicate BuiltFrom(job: Job, p: Process, ctx: Context, final: Memo) {
    exists m: Memo :: BuiltWith(job, p, ctx, m, final)
  }

  /** `job` is what `build_job` makes of `p` from the sound memo `m`, and
      `final` keeps every entry the memo has after it. */
  ghost predicate BuiltWith(job: Job, p: Process, ctx: Context, m: Memo, final: Memo) {
    TokensKnown(p.id, p.params, ctx.st, ctx.temps) && MemoSound(m, ctx.roots) &&
    job == JobFor(p, ctx, m).job && Extends(JobFor(p, ctx, m).memo, final)
  }

  /** Each job of `jobs` is the one of `before`, or built from a process of
      `procs` with the same id, along the memo that ends as `final`. */
  ghost predicate JobsFrom(jobs: map<ProcId, Job>, before: map<ProcId, Job>, procs: set<Process>, ctx: Context, final: Memo) {
    forall id :: id in jobs ==>
      (id in before && jobs[id] == before[id]) ||
      exists p :: p in procs && p.id == id && BuiltFrom(jobs[id], p, ctx, final)
  }

  /** The memo only grows, so a later state of it still keeps the entries
      each job was built with. */
  lemma JobsFromLater(jobs: map<ProcId, Job>, before: map<ProcId, Job>, procs: set<Process>, ctx: Context,
                      final: Memo, later: Memo)
    requires JobsFrom(jobs, before, procs, ctx, final) && Extends(final, later)
    ensures JobsFrom(jobs, before, procs, ctx, later)
  {
    forall id | id in jobs && !(id in before && jobs[id] == before[id])
      ensures exists p :: p in procs && p.id == id && BuiltFrom(jobs[id], p, ctx, later)
    {
      var p :| p in procs && p.id == id && BuiltFrom(jobs[id], p, ctx, final);
      var m :| BuiltWith(jobs[id], p, ctx, m, final);
      assert BuiltWith(jobs[id], p, ctx, m, later);
    }
  }

  /** The memo keeps its entries and its soundness. */
  ghost predicate MemoGrows(a: Memo, b: Memo, roots: SharedRoots) {
    Extends(a, b) && (MemoSound(a, roots) ==> MemoSound(b, roots))
  }

  lemma JobsFromTrans(a: map<ProcId, Job>, b: map<ProcId, Job>, c: map<ProcId, Job>,
                      pa: set<Process>, pb: set<Process>, ctx: Context, final: Memo)
    requires JobsFrom(a, b, pa, ctx, final) && JobsFrom(b, c, pb, ctx, final)
    ensures JobsFrom(a, c, pa + pb, ctx, final)
  {
  }

  lemma MemoGrowsTrans(a: Memo, b: Memo, c: Memo, roots: SharedRoots)
    requires MemoGrows(a, b, roots) && MemoGrows(b, c, roots)
    ensures MemoGrows(a, c, roots)
  {
  }

  /** The leaf processes of `units`, in list order. */
  function UnitsOrder(units: seq<Unit>): seq<Process> {
    if |units| == 0 then []
    else (if units[0].ProcUnit? then [units[0].proc] else []) + UnitsOrder(units[1..])
  }

  /** The leaf processes of this level's lists from position `i`, in the
      order the first loop of `workflow_from_graph` builds them. */
  function LevelOrder(g: SGraph, i: nat): seq<Process>
    decreases |g.nodes| - i
  {
    if i >= |g.nodes| then []
    else (if g.nodes[i].meta.Leaf? then UnitsOrder(g.nodes[i].meta.units) else []) + LevelOrder(g, i + 1)
  }

  /** The leaf processes of `g` at every depth, in the order the conversion
      builds their jobs: this level's lists, then each sub-graph in turn. */
  function Order(g: SGraph): seq<Process>
    decreases g, 1
  {
    LevelOrder(g, 0) + SubOrder(g, 0)
  }

  /** The leaf processes inside the sub-graphs of the nodes from position `i`. */
  function SubOrder(g: SGraph, i: nat): seq<Process>
    decreases g, 0, |g.nodes| - i
  {
    if i >= |g.nodes| then []
    else (if g.nodes[i].meta.Sub? then Order(g.nodes[i].meta.graph) else []) + SubOrder(g, i + 1)
  }

  /** Every process of `ps` can be turned into a job. */
  predicate SeqReady(ps: seq<Process>, ctx: Context) {
    forall k :: 0 <= k < |ps| ==> TokensKnown(ps[k].id, ps[k].params, ctx.st, ctx.temps)
  }

  /** `build_job` as one step of a sweep: the job it makes from the memo
      handed in, and the memo it leaves. */
  function Builder(ctx: Context): (Process, Memo) --> (Job, Memo) {
    (p: Process, m: Memo) requires TokensKnown(p.id, p.params, ctx.st, ctx.temps) =>
      (JobFor(p, ctx, m).job, JobFor(p, ctx, m).memo)
  }

  /** Jobs are recorded under their process. */
  function IdOf(p: Process): ProcId {
    p.id
  }

  lemma ReadyBuildable(ps: seq<Process>, ctx: Context)
    requires SeqReady(ps, ctx)
    ensures Buildable(ps, Builder(ctx))
  {
  }

  lemma OneBuildable(p: Process, ctx: Context)
    requires TokensKnown(p.id, p.params, ctx.st, ctx.temps)
    ensures Buildable([p], Builder(ctx))
  {
    forall k, m | 0 <= k < 1
      ensures Builder(ctx).requires([p][k], m)
    {
      assert [p][k] == p;
      BuilderIs(ctx, p, m);
    }
  }

  /** `r` holds the jobs and the memo that the reference sweep leaves:
      `build_job` for each process of `ps` in turn, from `jobs` and
      `memo`, each call handed the memo the calls before it left. */
  ghost predicate SweptFrom(ps: seq<Process>, ctx: Context, jobs: map<ProcId, Job>, memo: Memo, r: Conversion) {
    Buildable(ps, Builder(ctx)) && Run(ps, IdOf, Builder(ctx), Sweep(jobs, memo)) == Sweep(r.jobs, r.memo)
  }

  lemma SweptNone(ctx: Context, c: Conversion)
    ensures SweptFrom([], ctx, c.jobs, c.memo, c)
  {
  }

  lemma SweptTrans(xs: seq<Process>, ys: seq<Process>, ctx: Context, jobs: map<ProcId, Job>, memo: Memo,
                   mid: Conversion, r: Conversion)
    requires SweptFrom(xs, ctx, jobs, memo, mid) && SweptFrom(ys, ctx, mid.jobs, mid.memo, r)
    ensures SweptFrom(xs + ys, ctx, jobs, memo, r)
  {
    RunAppend(xs, ys, IdOf, Builder(ctx), Sweep(jobs, memo));
  }

  /** A sub-graph converted from no jobs, merged over `jobs`. */
  lemma SweptOver(ps: seq<Process>, ctx: Context, jobs: map<ProcId, Job>, memo: Memo, s: Conversion, r: Conversion)
    requires SweptFrom(ps, ctx, map[], memo, s)
    requires r.jobs == jobs + s.jobs && r.memo == s.memo
    ensures SweptFrom(ps, ctx, jobs, memo, r)
  {
    RunOver(ps, IdOf, Builder(ctx), jobs, map[], memo);
    MergeEmpty(jobs);
  }

  lemma MergeEmpty<K, V>(a: map<K, V>)
    ensures a + map[] == a
  {
  }

  lemma BuilderIs(ctx: Context, p: Process, m: Memo)
    requires TokensKnown(p.id, p.params, ctx.st, ctx.temps)
    ensures Builder(ctx).requires(p, m)
    ensures Builder(ctx)(p, m) == (JobFor(p, ctx, m).job, JobFor(p, ctx, m).memo)
  {
  }

  /** Building one process: its job recorded under its id, from the memo
      handed in. */
  lemma SweptOne(p: Process, ctx: Context, acc: Conversion, r: Conversion)
    requires TokensKnown(p.id, p.params, ctx.st, ctx.temps)
    requires r.jobs == acc.jobs[p.id := JobFor(p, ctx, acc.memo).job] && r.memo == JobFor(p, ctx, acc.memo).memo
    ensures SweptFrom([p], ctx, acc.jobs, acc.memo, r)
  {
    OneBuildable(p, ctx);
    BuilderIs(ctx, p, acc.memo);
    RunOneTo(p, IdOf, Builder(ctx), Sweep(acc.jobs, acc.memo), Sweep(r.jobs, r.memo));
  }

  /** Each job of a sweep from no jobs is the one `build_job` made for the
      last process with its id, handed the memo exactly as the processes
      before that one left it. */
  lemma SweepJobs(ps: seq<Process>, ctx: Context, memo: Memo, r: Conversion)
    requires SweptFrom(ps, ctx, map[], memo, r)
    ensures forall id :: id in r.jobs ==> MadeLast(ps, IdOf, Builder(ctx), Sweep(map[], memo), id, r.jobs[id])
  {
    forall id | id in r.jobs
      ensures MadeLast(ps, IdOf, Builder(ctx), Sweep(map[], memo), id, r.jobs[id])
    {
      RunMade(ps, IdOf, Builder(ctx), Sweep(map[], memo), id);
    }
  }

  /** The memo keeps its entries along a sweep. */
  lemma {:induction false} SweepGrows(ps: seq<Process>, ctx: Context, s: Sweep<ProcId, Job, Memo>)
    requires SeqReady(ps, ctx) && Buildable(ps, Builder(ctx))
    ensures Extends(s.state, Run(ps, IdOf, Builder(ctx), s).state)
  {
    if |ps| > 0 {
      RunStep(ps, IdOf, Builder(ctx), s);
      BuilderIs(ctx, ps[0], s.state);
      var b := JobFor(ps[0], ctx, s.state);
      SeqReadySlice(ps, ctx, 1, |ps|);
      SweepGrows(ps[1..], ctx, Sweep(s.made[IdOf(ps[0]) := b.job], b.memo));
    }
  }

  /** A path that `build_job` put in the memo for an earlier process is in
      the memo every later process is built from, so that line 131 of the
      later call replaces it by the same shared reference. */
  lemma EarlierPathsKnown(ps: seq<Process>, ctx: Context, memo: Memo, k1: nat, k2: nat, j: nat)
    requires SeqReady(ps, ctx) && k1 < k2 <= |ps|
    requires j < |ps[k1].params| && Shared(ps[k1].id, ps[k1].params[j], ctx.st, ctx.roots)
    ensures Buildable(ps[..k2], Builder(ctx))
    ensures PathText(ParamValue(ps[k1].id, ps[k1].params[j], ctx.st)).value in
              Run(ps[..k2], IdOf, Builder(ctx), Sweep(map[], memo)).state
  {
    ReadyBuildable(ps, ctx);
    var pre, p, post := ps[..k1], ps[k1], ps[k1 + 1..k2];
    assert ps[..k2] == pre + [p] + post;
    BuildableSlice(ps, Builder(ctx), 0, k1);
    BuildableSlice(ps, Builder(ctx), k1 + 1, k2);
    BuildableSlice(ps, Builder(ctx), 0, k2);
    SeqReadySlice(ps, ctx, k1 + 1, k2);
    var b := Run(pre, IdOf, Builder(ctx), Sweep(map[], memo));
    var after := Run(pre + [p], IdOf, Builder(ctx), Sweep(map[], memo));
    RunAppend(pre, [p], IdOf, Builder(ctx), Sweep(map[], memo));
    RunAppend(pre + [p], post, IdOf, Builder(ctx), Sweep(map[], memo));
    assert [p][1..] == [];
    assert after.state == JobFor(p, ctx, b.state).memo;
    SweepGrows(post, ctx, after);
  }

  lemma SeqReadySlice(ps: seq<Process>, ctx: Context, lo: nat, hi: nat)
    requires SeqReady(ps, ctx) && lo <= hi <= |ps|
    ensures SeqReady(ps[lo..hi], ctx)
  {
    forall k | 0 <= k < hi - lo
      ensures TokensKnown(ps[lo..hi][k].id, ps[lo..hi][k].params, ctx.st, ctx.temps)
    {
      assert ps[lo..hi][k] == ps[lo + k];
    }
  }

  /** The first element's contribution and the rest's. */
  lemma UnitsSplit(units: seq<Unit>)
    requires |units| > 0
    ensures UnitIds(units) == (if units[0].ProcUnit? then {units[0].proc.id} else {}) + UnitIds(units[1..])
    ensures UnitProcs(units) == (if units[0].ProcUnit? then {units[0].proc} else {}) + UnitProcs(units[1..])
  {
    var tail := units[1..];
    forall x | x in UnitIds(units)
      ensures x in (if units[0].ProcUnit? then {units[0].proc.id} else {}) + UnitIds(tail)
    {
      var j :| 0 <= j < |units| && units[j].ProcUnit? && units[j].proc.id == x;
      if j > 0 {
        assert tail[j - 1] == units[j];
      }
    }
    forall x | x in UnitIds(tail)
      ensures x in UnitIds(units)
    {
      var j :| 0 <= j < |tail| && tail[j].ProcUnit? && tail[j].proc.id == x;
      assert units[j + 1] == tail[j];
    }
    forall x | x in UnitProcs(units)
      ensures x in (if units[0].ProcUnit? then {units[0].proc} else {}) + UnitProcs(tail)
    {
      var j :| 0 <= j < |units| && units[j].ProcUnit? && units[j].proc == x;
      if j > 0 {
        assert tail[j - 1] == units[j];
      }
    }
    forall x | x in UnitProcs(tail)
      ensures x in UnitProcs(units)
    {
      var j :| 0 <= j < |tail| && tail[j].ProcUnit? && tail[j].proc == x;
      assert units[j + 1] == tail[j];
    }
  }

  lemma InsertKeys<K, V>(m: map<K, V>, k: K, v: V)
    ensures m[k := v].Keys == m.Keys + {k}
  {
  }

  /** `r = (a + h) + t` and `u = h + t` give `r = a + u`. */
  lemma UnionStep<T>(r: set<T>, a1: set<T>, a: set<T>, h: set<T>, t: set<T>, u: set<T>)
    requires r == a1 + t && a1 == a + h && u == h + t
    ensures r == a + u
  {
  }

  lemma JobsFromInsert(jobs: map<ProcId, Job>, job: Job, p: Process, ctx: Context, final: Memo)
    requires BuiltFrom(job, p, ctx, final)
    ensures JobsFrom(jobs[p.id := job], jobs, {p}, ctx, final)
  {
  }

  /** `build_job` for one process, recorded in `jobs` and `root_jobs`. */
  function BuildUnit(p: Process, ctx: Context, acc: Conversion): (r: Conversion)
    requires TokensKnown(p.id, p.params, ctx.st, ctx.temps)
    requires MemoSound(acc.memo, ctx.roots)
    ensures r.jobs.Keys == acc.jobs.Keys + {p.id}
    ensures JobsFrom(r.jobs, acc.jobs, {p}, ctx, r.memo)
    ensures SweptFrom([p], ctx, acc.jobs, acc.memo, r)
    ensures forall x :: x in r.rootJobs <==> x in acc.rootJobs || x == p.id
    ensures r.deps == acc.deps && r.groups == acc.groups && r.rootGroups == acc.rootGroups
    ensures MemoGrows(acc.memo, r.memo, ctx.roots)
  {
    var b := JobFor(p, ctx, acc.memo);
    assert BuiltWith(b.job, p, ctx, acc.memo, b.memo);
    JobsFromInsert(acc.jobs, b.job, p, ctx, b.memo);
    InsertKeys(acc.jobs, p.id, b.job);
    var r := acc.(jobs := acc.jobs[p.id := b.job], rootJobs := AddKey(acc.rootJobs, p.id), memo := b.memo);
    SweptOne(p, ctx, acc, r);
    r
  }

  /** The processes of one leaf node, in list order. */
  function UnitsPass(units: seq<Unit>, ctx: Context, acc: Conversion): (r: Conversion)
    requires ProcsReady(UnitProcs(units), ctx)
    requires MemoSound(acc.memo, ctx.roots)
    ensures r.jobs.Keys == acc.jobs.Keys + UnitIds(units)
    ensures JobsFrom(r.jobs, acc.jobs, UnitProcs(units), ctx, r.memo)
    ensures SweptFrom(UnitsOrder(units), ctx, acc.jobs, acc.memo, r)
    ensures forall x :: x in r.rootJobs <==> x in acc.rootJobs || x in UnitIds(units)
    ensures r.deps == acc.deps && r.groups == acc.groups && r.rootGroups == acc.rootGroups
    ensures MemoGrows(acc.memo, r.memo, ctx.roots)
  {
    if |units| == 0 then SweptNone(ctx, acc); acc
    else
      UnitsSplit(units);
      var acc1 := if units[0].ProcUnit? then BuildUnit(units[0].proc, ctx, acc) else acc;
      var r := UnitsPass(units[1..], ctx, acc1);
      UnitsStep(units, ctx, acc, acc1, r);
      UnitsSwept(units, ctx, acc, acc1, r);
      r
  }

  /** What building the processes `procs` (ids `ids`) adds to `acc`: their
      jobs and root jobs, nothing else. */
  ghost predicate LeafAdds(acc: Conversion, r: Conversion, ids: set<ProcId>, procs: set<Process>, ctx: Context) {
    r.jobs.Keys == acc.jobs.Keys + ids &&
    JobsFrom(r.jobs, acc.jobs, procs, ctx, r.memo) &&
    (forall x :: x in r.rootJobs <==> x in acc.rootJobs || x in ids) &&
    r.deps == acc.deps && r.groups == acc.groups && r.rootGroups == acc.rootGroups &&
    MemoGrows(acc.memo, r.memo, ctx.roots)
  }

  lemma UnitsStep(units: seq<Unit>, ctx: Context, acc: Conversion, acc1: Conversion, r: Conversion)
    requires |units| > 0
    requires UnitIds(units) == (if units[0].ProcUnit? then {units[0].proc.id} else {}) + UnitIds(units[1..])
    requires UnitProcs(units) == (if units[0].ProcUnit? then {units[0].proc} else {}) + UnitProcs(units[1..])
    requires units[0].ProcUnit? ==> LeafAdds(acc, acc1, {units[0].proc.id}, {units[0].proc}, ctx)
    requires !units[0].ProcUnit? ==> acc1 == acc
    requires LeafAdds(acc1, r, UnitIds(units[1..]), UnitProcs(units[1..]), ctx)
    ensures LeafAdds(acc, r, UnitIds(units), UnitProcs(units), ctx)
  {
    UnionStep(r.jobs.Keys, acc1.jobs.Keys, acc.jobs.Keys, if units[0].ProcUnit? then {units[0].proc.id} else {}, UnitIds(units[1..]), UnitIds(units));
    var head := if units[0].ProcUnit? then {units[0].proc} else {};
    JobsFromLater(acc1.jobs, acc.jobs, head, ctx, acc1.memo, r.memo);
    JobsFromTrans(r.jobs, acc1.jobs, acc.jobs, UnitProcs(units[1..]), head, ctx, r.memo);
    MemoGrowsTrans(acc.memo, acc1.memo, r.memo, ctx.roots);
  }

  lemma UnitsSwept(units: seq<Unit>, ctx: Context, acc: Conversion, acc1: Conversion, r: Conversion)
    requires |units| > 0
    requires units[0].ProcUnit? ==> SweptFrom([units[0].proc], ctx, acc.jobs, acc.memo, acc1)
    requires !units[0].ProcUnit? ==> acc1 == acc
    requires SweptFrom(UnitsOrder(units[1..]), ctx, acc1.jobs, acc1.memo, r)
    ensures SweptFrom(UnitsOrder(units), ctx, acc.jobs, acc.memo, r)
  {
    if !units[0].ProcUnit? {
      SweptNone(ctx, acc);
    }
    SweptTrans(if units[0].ProcUnit? then [units[0].proc] else [], UnitsOrder(units[1..]), ctx, acc.jobs, acc.memo, acc1, r);
  }

  /** The first loop of `workflow_from_graph`: the leaf nodes of this
      level, from position `i`. */
  function LeafPass(g: SGraph, ctx: Context, i: nat, acc: Conversion): (r: Conversion)
    requires ProcsReady(LevelFrom(g, i, ProcsAt), ctx)
    requires MemoSound(acc.memo, ctx.roots)
    ensures r.jobs.Keys == acc.jobs.Keys + LevelFrom(g, i, JobIdsAt)
    ensures JobsFrom(r.jobs, acc.jobs, LevelFrom(g, i, ProcsAt), ctx, r.memo)
    ensures SweptFrom(LevelOrder(g, i), ctx, acc.jobs, acc.memo, r)
    ensures forall x :: x in r.rootJobs <==> x in acc.rootJobs || x in LevelFrom(g, i, JobIdsAt)
    ensures r.deps == acc.deps && r.groups == acc.groups && r.rootGroups == acc.rootGroups
    ensures MemoGrows(acc.memo, r.memo, ctx.roots)
    decreases |g.nodes| - i
  {
    if i >= |g.nodes| then SweptNone(ctx, acc); acc
    else
      var acc1 := if g.nodes[i].meta.Leaf? then UnitsPass(g.nodes[i].meta.units, ctx, acc) else acc;
      var r := LeafPass(g, ctx, i + 1, acc1);
      UnionStep(r.jobs.Keys, acc1.jobs.Keys, acc.jobs.Keys, JobIdsAt(g, i), LevelFrom(g, i + 1, JobIdsAt), LevelFrom(g, i, JobIdsAt));
      JobsFromLater(acc1.jobs, acc.jobs, ProcsAt(g, i), ctx, acc1.memo, r.memo);
      JobsFromTrans(r.jobs, acc1.jobs, acc.jobs, LevelFrom(g, i + 1, ProcsAt), ProcsAt(g, i), ctx, r.memo);
      MemoGrowsTrans(acc.memo, acc1.memo, r.memo, ctx.roots);
      LevelSwept(g, ctx, i, acc, acc1, r);
      r
  }

  lemma LevelSwept(g: SGraph, ctx: Context, i: nat, acc: Conversion, acc1: Conversion, r: Conversion)
    requires i < |g.nodes|
    requires g.nodes[i].meta.Leaf? ==> SweptFrom(UnitsOrder(g.nodes[i].meta.units), ctx, acc.jobs, acc.memo, acc1)
    requires !g.nodes[i].meta.Leaf? ==> acc1 == acc
    requires SweptFrom(LevelOrder(g, i + 1), ctx, acc1.jobs, acc1.memo, r)
    ensures SweptFrom(LevelOrder(g, i), ctx, acc.jobs, acc.memo, r)
  {
    if !g.nodes[i].meta.Leaf? {
      SweptNone(ctx, acc);
    }
    SweptTrans(if g.nodes[i].meta.Leaf? then UnitsOrder(g.nodes[i].meta.units) else [], LevelOrder(g, i + 1),
               ctx, acc.jobs, acc.memo, acc1, r);
  }

  /** A handle of the top level of `sg`: one of its sub-graphs' groups or
      one of its leaf processes' jobs. */
  predicate InLevel(h: Handle, sg: SGraph) {
    (h.GroupHandle? && h.graph in LevelFrom(sg, 0, GroupIdsAt)) ||
    (h.JobHandle? && h.proc in LevelFrom(sg, 0, JobIdsAt))
  }

  /** Every root group comes before every root job. */
  predicate GroupsFirst(roots: seq<Handle>) {
    forall i, j :: 0 <= i < j < |roots| && roots[i].JobHandle? ==> roots[j].JobHandle?
  }

  /** `grp` is the group `build_group` makes for the sub-graph node `n`:
      named after the node, holding the roots of the sub-graph, the
      sub-groups before the jobs. */
  ghost predicate GroupOf(grp: Group, n: SNode) {
    n.meta.Sub? && grp.name == n.name && GroupsFirst(grp.members) &&
    forall h :: h in grp.members <==> InLevel(h, n.meta.graph)
  }

  /** Each group of `groups` is the one of `before`, or the group of a
      sub-graph node of `nodes` with the same id. */
  ghost predicate GroupsFrom(groups: map<GraphId, Group>, before: map<GraphId, Group>, nodes: set<SNode>) {
    forall gid :: gid in groups ==>
      (gid in before && groups[gid] == before[gid]) ||
      exists n :: n in nodes && n.meta.Sub? && n.meta.gid == gid && GroupOf(groups[gid], n)
  }

  function GroupHandles(ids: seq<GraphId>): (r: seq<Handle>)
    ensures forall h :: h in r <==> h.GroupHandle? && h.graph in ids
  {
    if |ids| == 0 then [] else [GroupHandle(ids[0])] + GroupHandles(ids[1..])
  }

  function JobHandles(ids: seq<ProcId>): (r: seq<Handle>)
    ensures forall h :: h in r <==> h.JobHandle? && h.proc in ids
  {
    if |ids| == 0 then [] else [JobHandle(ids[0])] + JobHandles(ids[1..])
  }

  /** The sub-graph loop's guarantees from position `i` on, starting from `acc`. */
  ghost predicate SubResult(g: SGraph, ctx: Context, i: nat, acc: Conversion, r: Conversion) {
    r.jobs.Keys == acc.jobs.Keys + SubDeep(g, i, JobIdsAt) &&
    JobsFrom(r.jobs, acc.jobs, SubDeep(g, i, ProcsAt), ctx, r.memo) &&
    r.groups.Keys == acc.groups.Keys + (LevelFrom(g, i, GroupIdsAt) + SubDeep(g, i, GroupIdsAt)) &&
    GroupsFrom(r.groups, acc.groups, LevelFrom(g, i, SubNodesAt) + SubDeep(g, i, SubNodesAt)) &&
    r.deps == acc.deps + SubDeep(g, i, EdgesAt) &&
    (forall x :: x in r.rootGroups <==> x in acc.rootGroups || x in LevelFrom(g, i, GroupIdsAt)) &&
    r.rootJobs == acc.rootJobs &&
    MemoGrows(acc.memo, r.memo, ctx.roots)
  }

  /** What converting `g` from `memo` yields, when it succeeds. */
  ghost predicate Converted(g: SGraph, ctx: Context, memo: Memo, r: Conversion) {
    r.jobs.Keys == Deep(g, JobIdsAt) &&
    JobsFrom(r.jobs, map[], Deep(g, ProcsAt), ctx, r.memo) &&
    r.groups.Keys == Deep(g, GroupIdsAt) &&
    GroupsFrom(r.groups, map[], Deep(g, SubNodesAt)) &&
    r.deps == Deep(g, EdgesAt) &&
    (forall x :: x in r.rootGroups <==> x in LevelFrom(g, 0, GroupIdsAt)) &&
    (forall x :: x in r.rootJobs <==> x in LevelFrom(g, 0, JobIdsAt)) &&
    MemoGrows(memo, r.memo, ctx.roots)
  }

  /** `workflow_from_graph`. The leaf nodes of this level become jobs; each
      sub-graph is converted and becomes a group of its roots; every node
      then depends on nothing but the nodes it links to. Fails exactly when
      some node, at any depth, has no job or group to stand for it. */
  function ConvertGraph(g: SGraph, ctx: Context, memo: Memo): (r: Result<Conversion, ConversionError>)
    requires DeepAll(g, LinkedAt) && ProcsReady(Deep(g, ProcsAt), ctx)
    requires MemoSound(memo, ctx.roots)
    ensures r.Success? <==> DeepAll(g, ResolvableAt)
    ensures r.Success? ==> Converted(g, ctx, memo, r.value)
    ensures r.Success? ==> SweptFrom(Order(g), ctx, map[], memo, r.value)
    decreases g, 1
  {
    ReadySplit(g, ctx);
    var leaf := LevelJobs(g, ctx, memo);
    var sub := SubPass(g, ctx, 0, leaf);
    var deps := LevelDeps(g, 0);
    if sub.Failure? || deps.Failure? then Failure(UnresolvableNode)
    else
      var r := sub.value.(deps := sub.value.deps + deps.value);
      ConvertCombine(g, ctx, memo, leaf, sub.value, deps.value, r);
      SweptTrans(LevelOrder(g, 0), SubOrder(g, 0), ctx, map[], memo, leaf, sub.value);
      Success(r)
  }

  /** The leaf nodes of this level, converted from scratch. */
  function LevelJobs(g: SGraph, ctx: Context, memo: Memo): (r: Conversion)
    requires ProcsReady(LevelFrom(g, 0, ProcsAt), ctx)
    requires MemoSound(memo, ctx.roots)
    ensures r.jobs.Keys == LevelFrom(g, 0, JobIdsAt)
    ensures JobsFrom(r.jobs, map[], LevelFrom(g, 0, ProcsAt), ctx, r.memo)
    ensures SweptFrom(LevelOrder(g, 0), ctx, map[], memo, r)
    ensures forall x :: x in r.rootJobs <==> x in LevelFrom(g, 0, JobIdsAt)
    ensures r.deps == {} && r.groups == map[] && r.rootGroups == []
    ensures MemoGrows(memo, r.memo, ctx.roots)
  {
    var acc := Conversion(map[], {}, map[], [], [], memo);
    var r := LeafPass(g, ctx, 0, acc);
    EmptyRoots(r.rootJobs, acc.rootJobs, LevelFrom(g, 0, JobIdsAt));
    assert acc.jobs.Keys == {};
    r
  }

  /** Every job took the shared references it put in for strings of its
      process's command line from `memo`. */
  ghost predicate JobsShareMemo(jobs: map<ProcId, Job>, procs: set<Process>, memo: Memo) {
    forall id :: id in jobs ==>
      exists q :: q in procs && q.id == id && SharedFromMemo(q.commandline, jobs[id].command, memo)
  }

  /** The conversion threads one `shared_map`: each job replaced every
      string it turned into a shared reference by the entry that the memo
      ends with for that string. So two jobs that replaced the same path
      carry equal references (`Jobs.SharedRefsAgree`). */
  lemma OneReferencePerPath(jobs: map<ProcId, Job>, procs: set<Process>, ctx: Context, final: Memo)
    requires JobsFrom(jobs, map[], procs, ctx, final)
    ensures JobsShareMemo(jobs, procs, final)
  {
    forall id | id in jobs
      ensures exists q :: q in procs && q.id == id && SharedFromMemo(q.commandline, jobs[id].command, final)
    {
      var q :| q in procs && q.id == id && BuiltFrom(jobs[id], q, ctx, final);
      var m :| BuiltWith(jobs[id], q, ctx, m, final);
      var b := JobFor(q, ctx, m);
      SharedFromLater(q.commandline, b.job.command, b.memo, final);
    }
  }

  lemma EmptyRoots(r: seq<ProcId>, before: seq<ProcId>, s: set<ProcId>)
    requires before == [] && forall x :: x in r <==> x in before || x in s
    ensures forall x :: x in r <==> x in s
  {
  }

  lemma ConvertCombine(g: SGraph, ctx: Context, memo: Memo, leaf: Conversion, sub: Conversion,
                       deps: set<(Handle, Handle)>, r: Conversion)
    requires leaf.jobs.Keys == LevelFrom(g, 0, JobIdsAt)
    requires JobsFrom(leaf.jobs, map[], LevelFrom(g, 0, ProcsAt), ctx, leaf.memo)
    requires forall x :: x in leaf.rootJobs <==> x in LevelFrom(g, 0, JobIdsAt)
    requires leaf.deps == {} && leaf.groups == map[] && leaf.rootGroups == []
    requires MemoGrows(memo, leaf.memo, ctx.roots)
    requires SubResult(g, ctx, 0, leaf, sub)
    requires deps == LevelFrom(g, 0, EdgesAt)
    requires r == sub.(deps := sub.deps + deps)
    ensures Converted(g, ctx, memo, r)
  {
    ConvertKeys(g, leaf, sub, deps, r);
    JobsFromLater(leaf.jobs, map[], LevelFrom(g, 0, ProcsAt), ctx, leaf.memo, sub.memo);
    ConvertJobs(g, ctx, leaf.jobs, sub.jobs, sub.memo);
    ConvertGroups(g, sub.groups);
    MemoGrowsTrans(memo, leaf.memo, sub.memo, ctx.roots);
  }

  lemma ConvertGroups(g: SGraph, groups: map<GraphId, Group>)
    requires GroupsFrom(groups, map[], LevelFrom(g, 0, SubNodesAt) + SubDeep(g, 0, SubNodesAt))
    ensures GroupsFrom(groups, map[], Deep(g, SubNodesAt))
  {
    DeepSplit(g, SubNodesAt);
  }

  lemma ConvertJobs(g: SGraph, ctx: Context, leaf: map<ProcId, Job>, sub: map<ProcId, Job>, final: Memo)
    requires JobsFrom(leaf, map[], LevelFrom(g, 0, ProcsAt), ctx, final)
    requires JobsFrom(sub, leaf, SubDeep(g, 0, ProcsAt), ctx, final)
    ensures JobsFrom(sub, map[], Deep(g, ProcsAt), ctx, final)
  {
    DeepSplit(g, ProcsAt);
    JobsFromTrans(sub, leaf, map[], SubDeep(g, 0, ProcsAt), LevelFrom(g, 0, ProcsAt), ctx, final);
    JobsFromWeaken(sub, map[], SubDeep(g, 0, ProcsAt) + LevelFrom(g, 0, ProcsAt), Deep(g, ProcsAt), ctx, final);
  }

  lemma ConvertKeys(g: SGraph, leaf: Conversion, sub: Conversion, deps: set<(Handle, Handle)>, r: Conversion)
    requires leaf.jobs.Keys == LevelFrom(g, 0, JobIdsAt)
    requires leaf.deps == {} && leaf.groups == map[]
    requires sub.jobs.Keys == leaf.jobs.Keys + SubDeep(g, 0, JobIdsAt)
    requires sub.groups.Keys == leaf.groups.Keys + (LevelFrom(g, 0, GroupIdsAt) + SubDeep(g, 0, GroupIdsAt))
    requires sub.deps == leaf.deps + SubDeep(g, 0, EdgesAt)
    requires deps == LevelFrom(g, 0, EdgesAt)
    requires r == sub.(deps := sub.deps + deps)
    ensures r.jobs.Keys == Deep(g, JobIdsAt)
    ensures r.groups.Keys == Deep(g, GroupIdsAt)
    ensures r.deps == Deep(g, EdgesAt)
  {
    DeepSplit(g, JobIdsAt);
    DeepSplit(g, GroupIdsAt);
    DeepSplit(g, EdgesAt);
    assert leaf.groups.Keys == {};
  }

  lemma ReadySplit(g: SGraph, ctx: Context)
    requires ProcsReady(Deep(g, ProcsAt), ctx)
    ensures ProcsReady(LevelFrom(g, 0, ProcsAt), ctx) && ProcsReady(SubDeep(g, 0, ProcsAt), ctx)
  {
    DeepSplit(g, ProcsAt);
  }

  lemma DeepSplit<T>(g: SGraph, f: (SGraph, nat) -> set<T>)
    ensures Deep(g, f) == LevelFrom(g, 0, f) + SubDeep(g, 0, f)
  {
  }

  /** The second loop of `workflow_from_graph`: the sub-graph nodes of this
      level, from position `i`. */
  function SubPass(g: SGraph, ctx: Context, i: nat, acc: Conversion): (r: Result<Conversion, ConversionError>)
    requires SubAll(g, i, LinkedAt) && ProcsReady(SubDeep(g, i, ProcsAt), ctx)
    requires MemoSound(acc.memo, ctx.roots)
    ensures r.Success? <==> SubAll(g, i, ResolvableAt)
    ensures r.Success? ==> SubResult(g, ctx, i, acc, r.value)
    ensures r.Success? ==> SweptFrom(SubOrder(g, i), ctx, acc.jobs, acc.memo, r.value)
    decreases g, 0, |g.nodes| - i, 1
  {
    if i >= |g.nodes| then SweptNone(ctx, acc); Success(acc)
    else if g.nodes[i].meta.Leaf? then
      var r := SubPass(g, ctx, i + 1, acc);
      if r.Success? then SubLeafStep(g, ctx, i, acc, r.value); SubLeafSwept(g, ctx, i, acc, r.value); r else r
    else SubNodePass(g, ctx, i, acc)
  }

  /** One step of the second loop at a sub-graph node: convert the
      sub-graph, record its group and merge its jobs, groups and
      dependencies, then go on from the next position. */
  function SubNodePass(g: SGraph, ctx: Context, i: nat, acc: Conversion): (r: Result<Conversion, ConversionError>)
    requires i < |g.nodes| && g.nodes[i].meta.Sub?
    requires SubAll(g, i, LinkedAt) && ProcsReady(SubDeep(g, i, ProcsAt), ctx)
    requires MemoSound(acc.memo, ctx.roots)
    ensures r.Success? <==> SubAll(g, i, ResolvableAt)
    ensures r.Success? ==> SubResult(g, ctx, i, acc, r.value)
    ensures r.Success? ==> SweptFrom(SubOrder(g, i), ctx, acc.jobs, acc.memo, r.value)
    decreases g, 0, |g.nodes| - i, 0
  {
    var n := g.nodes[i];
    var s := ConvertGraph(n.meta.graph, ctx, acc.memo);
    if s.Failure? then Failure(UnresolvableNode)
    else
      var grp := Group(n.name, GroupHandles(s.value.rootGroups) + JobHandles(s.value.rootJobs));
      var acc1 := Conversion(
        acc.jobs + s.value.jobs, acc.deps + s.value.deps, acc.groups[n.meta.gid := grp] + s.value.groups,
        AddKey(acc.rootGroups, n.meta.gid), acc.rootJobs, s.value.memo);
      assert MemoGrows(acc.memo, acc1.memo, ctx.roots);
      var r := SubPass(g, ctx, i + 1, acc1);
      if r.Success? then
        SubGraphStep(g, ctx, i, acc, s.value, grp, acc1, r.value);
        SubNodeSwept(g, ctx, i, acc, s.value, acc1, r.value);
        r
      else r
  }

  lemma SubLeafSwept(g: SGraph, ctx: Context, i: nat, acc: Conversion, r: Conversion)
    requires i < |g.nodes| && g.nodes[i].meta.Leaf?
    requires SweptFrom(SubOrder(g, i + 1), ctx, acc.jobs, acc.memo, r)
    ensures SweptFrom(SubOrder(g, i), ctx, acc.jobs, acc.memo, r)
  {
    EmptyPrefix(SubOrder(g, i + 1));
  }

  lemma EmptyPrefix<T>(xs: seq<T>)
    ensures [] + xs == xs
  {
  }

  lemma SubNodeSwept(g: SGraph, ctx: Context, i: nat, acc: Conversion, s: Conversion, acc1: Conversion, r: Conversion)
    requires i < |g.nodes| && g.nodes[i].meta.Sub?
    requires SweptFrom(Order(g.nodes[i].meta.graph), ctx, map[], acc.memo, s)
    requires acc1.jobs == acc.jobs + s.jobs && acc1.memo == s.memo
    requires SweptFrom(SubOrder(g, i + 1), ctx, acc1.jobs, acc1.memo, r)
    ensures SweptFrom(SubOrder(g, i), ctx, acc.jobs, acc.memo, r)
  {
    SweptOver(Order(g.nodes[i].meta.graph), ctx, acc.jobs, acc.memo, s, acc1);
    SweptTrans(Order(g.nodes[i].meta.graph), SubOrder(g, i + 1), ctx, acc.jobs, acc.memo, acc1, r);
  }

  lemma SubLeafStep(g: SGraph, ctx: Context, i: nat, acc: Conversion, r: Conversion)
    requires i < |g.nodes| && g.nodes[i].meta.Leaf?
    requires SubResult(g, ctx, i + 1, acc, r)
    ensures SubResult(g, ctx, i, acc, r)
  {
    LeafNodeAdds(g, i, JobIdsAt);
    LeafNodeAdds(g, i, ProcsAt);
    LeafNodeAdds(g, i, GroupIdsAt);
    LeafNodeAdds(g, i, SubNodesAt);
    LeafNodeAdds(g, i, EdgesAt);
    assert GroupIdsAt(g, i) == {} && SubNodesAt(g, i) == {};
    LevelFromStep(g, i, GroupIdsAt);
    LevelFromStep(g, i, SubNodesAt);
  }

  /** A leaf node holds no sub-graph. */
  lemma LeafNodeAdds<T>(g: SGraph, i: nat, f: (SGraph, nat) -> set<T>)
    requires i < |g.nodes| && g.nodes[i].meta.Leaf?
    ensures SubDeep(g, i, f) == SubDeep(g, i + 1, f)
  {
  }

  lemma LevelFromStep<T>(g: SGraph, i: nat, f: (SGraph, nat) -> set<T>)
    requires i < |g.nodes|
    ensures LevelFrom(g, i, f) == f(g, i) + LevelFrom(g, i + 1, f)
  {
  }

  lemma SubGraphStep(g: SGraph, ctx: Context, i: nat, acc: Conversion, s: Conversion, grp: Group,
                     acc1: Conversion, r: Conversion)
    requires i < |g.nodes| && g.nodes[i].meta.Sub?
    requires Converted(g.nodes[i].meta.graph, ctx, acc.memo, s)
    requires grp == Group(g.nodes[i].name, GroupHandles(s.rootGroups) + JobHandles(s.rootJobs))
    requires acc1 == Conversion(
               acc.jobs + s.jobs, acc.deps + s.deps, acc.groups[g.nodes[i].meta.gid := grp] + s.groups,
               AddKey(acc.rootGroups, g.nodes[i].meta.gid), acc.rootJobs, s.memo)
    requires SubResult(g, ctx, i + 1, acc1, r)
    ensures SubResult(g, ctx, i, acc, r)
  {
    var n := g.nodes[i];
    SubGraphJobs(g, ctx, i, acc.jobs, s.jobs, r.jobs, s.memo, r.memo);
    SubGraphGroups(g, i, acc.groups, s.groups, s.rootGroups, s.rootJobs, grp, r.groups);
    SubNodeAdds(g, i, EdgesAt);
    LevelFromStep(g, i, GroupIdsAt);
    assert GroupIdsAt(g, i) == {n.meta.gid};
    UnionStep(r.deps, acc1.deps, acc.deps, s.deps, SubDeep(g, i + 1, EdgesAt), SubDeep(g, i, EdgesAt));
    MemoGrowsTrans(acc.memo, acc1.memo, r.memo, ctx.roots);
  }

  lemma SubGraphJobs(g: SGraph, ctx: Context, i: nat, jobs: map<ProcId, Job>, sjobs: map<ProcId, Job>, rjobs: map<ProcId, Job>,
                      smemo: Memo, rmemo: Memo)
    requires i < |g.nodes| && g.nodes[i].meta.Sub?
    requires sjobs.Keys == Deep(g.nodes[i].meta.graph, JobIdsAt)
    requires JobsFrom(sjobs, map[], Deep(g.nodes[i].meta.graph, ProcsAt), ctx, smemo)
    requires Extends(smemo, rmemo)
    requires rjobs.Keys == (jobs + sjobs).Keys + SubDeep(g, i + 1, JobIdsAt)
    requires JobsFrom(rjobs, jobs + sjobs, SubDeep(g, i + 1, ProcsAt), ctx, rmemo)
    ensures rjobs.Keys == jobs.Keys + SubDeep(g, i, JobIdsAt)
    ensures JobsFrom(rjobs, jobs, SubDeep(g, i, ProcsAt), ctx, rmemo)
  {
    JobsFromLater(sjobs, map[], Deep(g.nodes[i].meta.graph, ProcsAt), ctx, smemo, rmemo);
    var sg := g.nodes[i].meta.graph;
    SubNodeAdds(g, i, JobIdsAt);
    SubNodeAdds(g, i, ProcsAt);
    MergeKeys(jobs, sjobs);
    UnionStep(rjobs.Keys, (jobs + sjobs).Keys, jobs.Keys, sjobs.Keys, SubDeep(g, i + 1, JobIdsAt), SubDeep(g, i, JobIdsAt));
    JobsFromMerge(jobs, sjobs, Deep(sg, ProcsAt), ctx, rmemo);
    JobsFromTrans(rjobs, jobs + sjobs, jobs, SubDeep(g, i + 1, ProcsAt), Deep(sg, ProcsAt), ctx, rmemo);
    JobsFromWeaken(rjobs, jobs, SubDeep(g, i + 1, ProcsAt) + Deep(sg, ProcsAt), SubDeep(g, i, ProcsAt), ctx, rmemo);
  }

  lemma SubGraphGroups(g: SGraph, i: nat, groups: map<GraphId, Group>, sgroups: map<GraphId, Group>,
                       sRootGroups: seq<GraphId>, sRootJobs: seq<ProcId>, grp: Group, rgroups: map<GraphId, Group>)
    requires i < |g.nodes| && g.nodes[i].meta.Sub?
    requires sgroups.Keys == Deep(g.nodes[i].meta.graph, GroupIdsAt)
    requires GroupsFrom(sgroups, map[], Deep(g.nodes[i].meta.graph, SubNodesAt))
    requires forall x :: x in sRootGroups <==> x in LevelFrom(g.nodes[i].meta.graph, 0, GroupIdsAt)
    requires forall x :: x in sRootJobs <==> x in LevelFrom(g.nodes[i].meta.graph, 0, JobIdsAt)
    requires grp == Group(g.nodes[i].name, GroupHandles(sRootGroups) + JobHandles(sRootJobs))
    requires var merged := groups[g.nodes[i].meta.gid := grp] + sgroups;
             rgroups.Keys == merged.Keys + (LevelFrom(g, i + 1, GroupIdsAt) + SubDeep(g, i + 1, GroupIdsAt)) &&
             GroupsFrom(rgroups, merged, LevelFrom(g, i + 1, SubNodesAt) + SubDeep(g, i + 1, SubNodesAt))
    ensures rgroups.Keys == groups.Keys + (LevelFrom(g, i, GroupIdsAt) + SubDeep(g, i, GroupIdsAt))
    ensures GroupsFrom(rgroups, groups, LevelFrom(g, i, SubNodesAt) + SubDeep(g, i, SubNodesAt))
  {
    var n := g.nodes[i];
    var sg := n.meta.graph;
    var merged := groups[n.meta.gid := grp] + sgroups;
    SubNodeAdds(g, i, GroupIdsAt);
    SubNodeAdds(g, i, SubNodesAt);
    LevelFromStep(g, i, GroupIdsAt);
    LevelFromStep(g, i, SubNodesAt);
    assert GroupIdsAt(g, i) == {n.meta.gid} && SubNodesAt(g, i) == {n};
    GroupKeysStep(rgroups.Keys, groups, grp, sgroups, n.meta.gid,
                  LevelFrom(g, i + 1, GroupIdsAt), SubDeep(g, i + 1, GroupIdsAt), Deep(sg, GroupIdsAt));
    GroupOfSub(n, sRootGroups, sRootJobs, grp);
    GroupsFromMerge(groups, grp, sgroups, n, Deep(sg, SubNodesAt));
    GroupsFromTrans(rgroups, merged, groups,
                    LevelFrom(g, i + 1, SubNodesAt) + SubDeep(g, i + 1, SubNodesAt), {n} + Deep(sg, SubNodesAt));
    GroupsFromWeaken(rgroups, groups,
                     LevelFrom(g, i + 1, SubNodesAt) + SubDeep(g, i + 1, SubNodesAt) + ({n} + Deep(sg, SubNodesAt)),
                     LevelFrom(g, i, SubNodesAt) + SubDeep(g, i, SubNodesAt));
  }

  /** A sub-graph node contributes its sub-graph's contributions. */
  lemma SubNodeAdds<T>(g: SGraph, i: nat, f: (SGraph, nat) -> set<T>)
    requires i < |g.nodes| && g.nodes[i].meta.Sub?
    ensures SubDeep(g, i, f) == Deep(g.nodes[i].meta.graph, f) + SubDeep(g, i + 1, f)
  {
  }

  lemma MergeKeys<K, V>(a: map<K, V>, b: map<K, V>)
    ensures (a + b).Keys == a.Keys + b.Keys
  {
  }

  lemma JobsFromMerge(a: map<ProcId, Job>, b: map<ProcId, Job>, pb: set<Process>, ctx: Context, final: Memo)
    requires JobsFrom(b, map[], pb, ctx, final)
    ensures JobsFrom(a + b, a, pb, ctx, final)
  {
  }

  lemma JobsFromWeaken(a: map<ProcId, Job>, b: map<ProcId, Job>, p: set<Process>, q: set<Process>, ctx: Context, final: Memo)
    requires JobsFrom(a, b, p, ctx, final) && p <= q
    ensures JobsFrom(a, b, q, ctx, final)
  {
  }

  /** The group keys after merging a sub-graph's conversion. */
  lemma GroupKeysStep(rk: set<GraphId>, a: map<GraphId, Group>, grp: Group, sgroups: map<GraphId, Group>, gid: GraphId,
                      lvl: set<GraphId>, sub: set<GraphId>, deep: set<GraphId>)
    requires rk == (a[gid := grp] + sgroups).Keys + (lvl + sub)
    requires sgroups.Keys == deep
    ensures rk == a.Keys + (({gid} + lvl) + (deep + sub))
  {
  }

  /** The group built for a converted sub-graph holds exactly its roots. */
  lemma GroupOfSub(n: SNode, rootGroups: seq<GraphId>, rootJobs: seq<ProcId>, grp: Group)
    requires n.meta.Sub?
    requires forall x :: x in rootGroups <==> x in LevelFrom(n.meta.graph, 0, GroupIdsAt)
    requires forall x :: x in rootJobs <==> x in LevelFrom(n.meta.graph, 0, JobIdsAt)
    requires grp == Group(n.name, GroupHandles(rootGroups) + JobHandles(rootJobs))
    ensures GroupOf(grp, n)
  {
    RootsOrdered(rootGroups, rootJobs);
  }

  lemma RootsOrdered(gs: seq<GraphId>, js: seq<ProcId>)
    ensures GroupsFirst(GroupHandles(gs) + JobHandles(js))
  {
    var gh, jh := GroupHandles(gs), JobHandles(js);
    forall k | 0 <= k < |gh|
      ensures gh[k].GroupHandle?
    {
      assert gh[k] in gh;
    }
    forall k | 0 <= k < |jh|
      ensures jh[k].JobHandle?
    {
      assert jh[k] in jh;
    }
  }

  lemma GroupsFromMerge(a: map<GraphId, Group>, grp: Group, b: map<GraphId, Group>, n: SNode, nb: set<SNode>)
    requires n.meta.Sub? && GroupOf(grp, n)
    requires GroupsFrom(b, map[], nb)
    ensures GroupsFrom(a[n.meta.gid := grp] + b, a, {n} + nb)
  {
  }

  lemma GroupsFromTrans(a: map<GraphId, Group>, b: map<GraphId, Group>, c: map<GraphId, Group>,
                        na: set<SNode>, nb: set<SNode>)
    requires GroupsFrom(a, b, na) && GroupsFrom(b, c, nb)
    ensures GroupsFrom(a, c, na + nb)
  {
  }

  lemma GroupsFromWeaken(a: map<GraphId, Group>, b: map<GraphId, Group>, p: set<SNode>, q: set<SNode>)
    requires GroupsFrom(a, b, p) && p <= q
    ensures GroupsFrom(a, b, q)
  {
  }

  /** Targets of the source `src`, in `links_to` order. */
  function TargetDeps(g: SGraph, src: Handle, links: seq<nat>): (r: Result<set<(Handle, Handle)>, ConversionError>)
    requires forall k :: 0 <= k < |links| ==> links[k] < |g.nodes|
    ensures r.Success? <==> forall k :: 0 <= k < |links| ==> HandleOf(g.nodes[links[k]]).Some?
    ensures r.Success? ==> r.value == EdgesTo(g, src, links)
  {
    if |links| == 0 then Success({})
    else
      match HandleOf(g.nodes[links[0]])
      case None => Failure(UnresolvableNode)
      case Some(dst) =>
        var rest := TargetDeps(g, src, links[1..]);
        if rest.Failure? then rest
        else
          EdgesToCons(g, src, links);
          Success({(src, dst)} + rest.value)
  }

  lemma EdgesToCons(g: SGraph, src: Handle, links: seq<nat>)
    requires |links| > 0 && links[0] < |g.nodes| && HandleOf(g.nodes[links[0]]).Some?
    ensures EdgesTo(g, src, links) == {(src, HandleOf(g.nodes[links[0]]).value)} + EdgesTo(g, src, links[1..])
  {
    var tail := links[1..];
    forall e | e in EdgesTo(g, src, links)
      ensures e in {(src, HandleOf(g.nodes[links[0]]).value)} + EdgesTo(g, src, tail)
    {
      var k :| 0 <= k < |links| && links[k] < |g.nodes| && HandleOf(g.nodes[links[k]]).Some? &&
               e == (src, HandleOf(g.nodes[links[k]]).value);
      if k > 0 {
        assert tail[k - 1] == links[k];
      }
    }
    forall e | e in EdgesTo(g, src, tail)
      ensures e in EdgesTo(g, src, links)
    {
      var k :| 0 <= k < |tail| && tail[k] < |g.nodes| && HandleOf(g.nodes[tail[k]]).Some? &&
               e == (src, HandleOf(g.nodes[tail[k]]).value);
      assert links[k + 1] == tail[k];
    }
  }

  /** The third loop of `workflow_from_graph`: every node of this level
      from position `i` as a source. */
  function LevelDeps(g: SGraph, i: nat): (r: Result<set<(Handle, Handle)>, ConversionError>)
    requires LevelAllFrom(g, i, LinkedAt)
    ensures LevelAllFrom(g, 0, ResolvableAt) ==> r.Success?
    ensures r.Success? ==> LevelAllFrom(g, i, ResolvableAt) && r.value == LevelFrom(g, i, EdgesAt)
    decreases |g.nodes| - i
  {
    if i >= |g.nodes| then Success({})
    else
      ResolvesAt(g, i);
      match HandleOf(g.nodes[i])
      case None => Failure(UnresolvableNode)
      case Some(src) =>
        assert LinkedAt(g, i);
        var out := TargetDeps(g, src, g.nodes[i].linksTo);
        TargetsResolve(g, i);
        var rest := LevelDeps(g, i + 1);
        if out.Failure? || rest.Failure? then Failure(UnresolvableNode)
        else Success(out.value + rest.value)
  }

  lemma LevelAllAt(g: SGraph, i: nat, j: nat, p: (SGraph, nat) -> bool)
    requires LevelAllFrom(g, i, p) && i <= j < |g.nodes|
    ensures p(g, j)
    decreases j - i
  {
    if i < j {
      LevelAllAt(g, i + 1, j, p);
    }
  }

  /** When every node of the level resolves, so do the targets of node `i`. */
  lemma TargetsResolve(g: SGraph, i: nat)
    requires i < |g.nodes| && LinkedAt(g, i)
    ensures LevelAllFrom(g, 0, ResolvableAt) ==>
              forall k :: 0 <= k < |g.nodes[i].linksTo| ==> HandleOf(g.nodes[g.nodes[i].linksTo[k]]).Some?
  {
    if LevelAllFrom(g, 0, ResolvableAt) {
      forall k | 0 <= k < |g.nodes[i].linksTo|
        ensures HandleOf(g.nodes[g.nodes[i].linksTo[k]]).Some?
      {
        LevelAllAt(g, 0, g.nodes[i].linksTo[k], ResolvableAt);
      }
    }
  }

  lemma ResolvesAt(g: SGraph, i: nat)
    requires i < |g.nodes|
    ensures LevelAllFrom(g, 0, ResolvableAt) ==> HandleOf(g.nodes[i]).Some?
  {
    if LevelAllFrom(g, 0, ResolvableAt) {
      LevelAllAt(g, 0, i, ResolvableAt);
    }
  }
}

=== FILE: jobs.dfy ===
/** Conversion of one leaf process into a scheduler job (`build_job`). */
module Jobs {
  import opened Wrappers
  import opened Text
  import opened Model
  import opened Substitution
  import opened SharedPaths
  import opened Transfers

  /** Parameters the job builder never inspects. */
  const Skipped: set<string> := {"nodes_activation", "selection_changed"}

  function ParamValue(pid: ProcId, p: Param, st: State): Value {
    ValueOf(st, (pid, p.name))
  }

  /** An inspected parameter whose value is a temporary token. */
  predicate HoldsToken(pid: ProcId, p: Param, st: State) {
    p.name !in Skipped && ParamValue(pid, p, st).Temp?
  }

  /** Every token held by an inspected parameter is a key of `temps`
      (otherwise the lookup `temp_map[value]` raises). */
  predicate TokensKnown(pid: ProcId, params: seq<Param>, st: State, temps: map<string, TemporaryPath>) {
    forall j :: 0 <= j < |params| && HoldsToken(pid, params[j], st) ==>
      DecimalText(ParamValue(pid, params[j], st).token) in temps
  }

  /** The temporary path behind the token parameter `p` holds. */
  function TokenPath(pid: ProcId, p: Param, st: State, temps: map<string, TemporaryPath>): TemporaryPath
    requires HoldsToken(pid, p, st) && DecimalText(ParamValue(pid, p, st).token) in temps
  {
    temps[DecimalText(ParamValue(pid, p, st).token)]
  }

  /** `p` holds a token and its direction is `output`; its temporary path
      is `tp`. */
  predicate RefersTemp(pid: ProcId, p: Param, st: State, temps: map<string, TemporaryPath>, output: bool, tp: TemporaryPath) {
    HoldsToken(pid, p, st) && DecimalText(ParamValue(pid, p, st).token) in temps &&
    p.info.output == output && TokenPath(pid, p, st, temps) == tp
  }

  /** Some parameter of `params` refers to `tp` in direction `output`. */
  ghost predicate Listed(pid: ProcId, params: seq<Param>, st: State, temps: map<string, TemporaryPath>, output: bool, tp: TemporaryPath) {
    exists j :: 0 <= j < |params| && RefersTemp(pid, params[j], st, temps, output, tp)
  }

  /** The temporary paths the parameters refer to, by direction, and the
      shared-path memo after translating the other parameters. */
  datatype Scan = Scan(inputTemps: seq<TemporaryPath>, outputTemps: seq<TemporaryPath>, memo: Memo)

  /** An inspected parameter without a token whose value lies under a
      shared root: the job builder translates it. */
  predicate Shared(pid: ProcId, p: Param, st: State, roots: SharedRoots) {
    p.name !in Skipped && !HoldsToken(pid, p, st) &&
    Translatable(ParamValue(pid, p, st), p.info, roots) &&
    Shareable(PathText(ParamValue(pid, p, st)).value, roots)
  }

  /** What the scan of `params` promises: the temporary paths listed for
      each direction are exactly those of the parameters holding tokens in
      that direction; the memo keeps its entries, stays sound, gains only
      parameter paths, and gains every shared parameter path. */
  ghost predicate ScanSound(pid: ProcId, params: seq<Param>, st: State, temps: map<string, TemporaryPath>,
                            memo: Memo, roots: SharedRoots, r: Scan) {
    (forall tp :: tp in r.inputTemps <==>
       Listed(pid, params, st, temps, false, tp)) &&
    (forall tp :: tp in r.outputTemps <==>
       Listed(pid, params, st, temps, true, tp)) &&
    Extends(memo, r.memo) &&
    (MemoSound(memo, roots) ==> MemoSound(r.memo, roots)) &&
    (forall path :: path in r.memo ==>
       path in memo || exists j :: 0 <= j < |params| && PathText(ParamValue(pid, params[j], st)) == Some(path)) &&
    (forall j :: 0 <= j < |params| && Shared(pid, params[j], st, roots) ==>
       PathText(ParamValue(pid, params[j], st)).value in r.memo)
  }

  /** The loop over `user_traits()` in `build_job`. */
  function ScanParams(pid: ProcId, params: seq<Param>, st: State, temps: map<string, TemporaryPath>,
                      memo: Memo, roots: SharedRoots): (r: Scan)
    requires TokensKnown(pid, params, st, temps)
    ensures ScanSound(pid, params, st, temps, memo, roots, r)
  {
    if |params| == 0 then Scan([], [], memo)
    else
      var p := params[0];
      assert TokensKnown(pid, params[1..], st, temps) by {
        forall j | 0 <= j < |params[1..]| && HoldsToken(pid, params[1..][j], st)
          ensures DecimalText(ParamValue(pid, params[1..][j], st).token) in temps
        {
          assert params[1..][j] == params[j + 1];
        }
      }
      if p.name in Skipped then
        var rest := ScanParams(pid, params[1..], st, temps, memo, roots);
        ScanSkip(pid, params, st, temps, memo, roots, memo, rest);
        rest
      else if ParamValue(pid, p, st).Temp? then
        var tp := TokenPath(pid, p, st, temps);
        var rest := ScanParams(pid, params[1..], st, temps, memo, roots);
        var r := if p.info.output then rest.(outputTemps := [tp] + rest.outputTemps)
                 else rest.(inputTemps := [tp] + rest.inputTemps);
        ScanToken(pid, params, st, temps, memo, roots, rest, r);
        r
      else
        var tr := TranslatedPath(ParamValue(pid, p, st), p.info, memo, roots);
        TranslationKeepsMemoSound(ParamValue(pid, p, st), p.info, memo, roots);
        var rest := ScanParams(pid, params[1..], st, temps, tr.memo, roots);
        ScanSkip(pid, params, st, temps, memo, roots, tr.memo, rest);
        rest
  }

  /** First parameter skipped or translated (`m1` the memo after it). */
  lemma ScanSkip(pid: ProcId, params: seq<Param>, st: State, temps: map<string, TemporaryPath>,
                 memo: Memo, roots: SharedRoots, m1: Memo, rest: Scan)
    requires |params| > 0 && !HoldsToken(pid, params[0], st)
    requires params[0].name in Skipped ==> m1 == memo
    requires params[0].name !in Skipped ==> m1 == TranslatedPath(ParamValue(pid, params[0], st), params[0].info, memo, roots).memo
    requires ScanSound(pid, params[1..], st, temps, m1, roots, rest)
    ensures ScanSound(pid, params, st, temps, memo, roots, rest)
  {
    var p := params[0];
    var tail := params[1..];
    if p.name !in Skipped {
      TranslationKeepsMemoSound(ParamValue(pid, p, st), p.info, memo, roots);
    }
    forall tp, output
      ensures Listed(pid, params, st, temps, output, tp) <==> Listed(pid, tail, st, temps, output, tp)
    {
      ListedCons(pid, params, st, temps, output, tp);
    }
    forall path | path in rest.memo && path !in memo
      ensures exists j :: 0 <= j < |params| && PathText(ParamValue(pid, params[j], st)) == Some(path)
    {
      if path in m1 {
        assert PathText(ParamValue(pid, params[0], st)) == Some(path);
      } else {
        PathOfTail(pid, params, st, path);
      }
    }
    forall j | 0 <= j < |params| && Shared(pid, params[j], st, roots)
      ensures PathText(ParamValue(pid, params[j], st)).value in rest.memo
    {
      if j > 0 {
        assert tail[j - 1] == params[j];
      }
    }
  }

  /** A parameter list refers to a path exactly when its head or its tail does. */
  lemma ListedCons(pid: ProcId, params: seq<Param>, st: State, temps: map<string, TemporaryPath>, output: bool, tp: TemporaryPath)
    requires |params| > 0
    ensures Listed(pid, params, st, temps, output, tp) <==>
            RefersTemp(pid, params[0], st, temps, output, tp) || Listed(pid, params[1..], st, temps, output, tp)
  {
    var tail := params[1..];
    if Listed(pid, params, st, temps, output, tp) {
      var j :| 0 <= j < |params| && RefersTemp(pid, params[j], st, temps, output, tp);
      if j > 0 {
        assert tail[j - 1] == params[j];
      }
    }
    if Listed(pid, tail, st, temps, output, tp) {
      var j :| 0 <= j < |tail| && RefersTemp(pid, tail[j], st, temps, output, tp);
      assert params[j + 1] == tail[j];
    }
  }

  /** A path held by a parameter of the tail is held by one of the list. */
  lemma PathOfTail(pid: ProcId, params: seq<Param>, st: State, path: string)
    requires |params| > 0
    requires exists j :: 0 <= j < |params[1..]| && PathText(ParamValue(pid, params[1..][j], st)) == Some(path)
    ensures exists j :: 0 <= j < |params| && PathText(ParamValue(pid, params[j], st)) == Some(path)
  {
    var tail := params[1..];
    var j :| 0 <= j < |tail| && PathText(ParamValue(pid, tail[j], st)) == Some(path);
    assert params[j + 1] == tail[j];
  }

  /** First parameter holds a token: its path heads the list of its direction. */
  lemma ScanToken(pid: ProcId, params: seq<Param>, st: State, temps: map<string, TemporaryPath>,
                  memo: Memo, roots: SharedRoots, rest: Scan, r: Scan)
    requires |params| > 0 && HoldsToken(pid, params[0], st)
    requires DecimalText(ParamValue(pid, params[0], st).token) in temps
    requires ScanSound(pid, params[1..], st, temps, memo, roots, rest)
    requires var tp := TokenPath(pid, params[0], st, temps);
             r == if params[0].info.output then rest.(outputTemps := [tp] + rest.outputTemps)
                  else rest.(inputTemps := [tp] + rest.inputTemps)
    ensures ScanSound(pid, params, st, temps, memo, roots, r)
  {
    var tail := params[1..];
    var tp0 := TokenPath(pid, params[0], st, temps);
    forall tp, output
      ensures Listed(pid, params, st, temps, output, tp) <==>
              (output == params[0].info.output && tp == tp0) || Listed(pid, tail, st, temps, output, tp)
    {
      ListedCons(pid, params, st, temps, output, tp);
    }
    forall path | path in r.memo && path !in memo
      ensures exists j :: 0 <= j < |params| && PathText(ParamValue(pid, params[j], st)) == Some(path)
    {
      PathOfTail(pid, params, st, path);
    }
    forall j | 0 <= j < |params| && Shared(pid, params[j], st, roots)
      ensures PathText(ParamValue(pid, params[j], st)).value in r.memo
    {
      assert j > 0 && tail[j - 1] == params[j];
    }
  }

  /** A substitution keyed by strings: `Text(t)` becomes `Ref(m[t])`. */
  function TextSubst(m: map<string, FileRef>): (r: Subst)
    ensures ScalarSubst(r)
    ensures forall a :: a in r <==> a.Text? && a.text in m
    ensures forall t :: t in m ==> r[Text(t)] == Ref(m[t])
  {
    map t | t in m :: Text(t) := Ref(m[t])
  }

  /** `temp_map` as a substitution. */
  function TempSubst(temps: map<string, TemporaryPath>): Subst {
    TextSubst(map t | t in temps :: TempRef(temps[t]))
  }

  /** `shared_map` as a substitution. */
  function SharedSubst(memo: Memo): Subst {
    TextSubst(map p | p in memo :: SharedRef(memo[p]))
  }

  /** `proc_transfers` as a substitution. */
  function TransferSubst(pt: map<string, FileTransfer>): Subst {
    TextSubst(map p | p in pt :: TransferRef(pt[p]))
  }

  /** `proc_transfers`: the process's input transfers overridden by its
      output transfers for the same path. */
  function ProcTransfers(t: Transfers, pid: ProcId): (r: map<string, FileTransfer>)
    ensures forall p :: p in r <==> (pid, p) in t.inputs || (pid, p) in t.outputs
    ensures forall p :: (pid, p) in t.outputs ==> r[p] == t.outputs[(pid, p)]
    ensures forall p :: (pid, p) in t.inputs && (pid, p) !in t.outputs ==> r[p] == t.inputs[(pid, p)]
  {
    ForProcess(t.inputs, pid) + ForProcess(t.outputs, pid)
  }

  /** What one string of the command line becomes: a token becomes its
      temporary path; failing that a translated path its shared reference;
      failing that a transferred path its transfer. */
  function Resolve(a: Arg, temps: map<string, TemporaryPath>, memo: Memo, pt: map<string, FileTransfer>): Arg {
    if a.Text? && a.text in temps then Ref(TempRef(temps[a.text]))
    else if a.Text? && a.text in memo then Ref(SharedRef(memo[a.text]))
    else if a.Text? && a.text in pt then Ref(TransferRef(pt[a.text]))
    else a
  }

  /** Resolving every scalar leaves no string that is a key of one of
      the three maps. */
  function ResolveAll(ls: seq<Arg>, temps: map<string, TemporaryPath>, memo: Memo, pt: map<string, FileTransfer>): (r: seq<Arg>)
    ensures |r| == |ls|
    ensures forall i :: 0 <= i < |r| && r[i].Text? ==> r[i].text !in temps && r[i].text !in memo && r[i].text !in pt
  {
    seq(|ls|, i requires 0 <= i < |ls| => Resolve(ls[i], temps, memo, pt))
  }

  /** The three `_replace_in_list` passes of `build_job`, temporaries
      first, then shared paths, then transfers. */
  function Substitute(cmd: seq<Arg>, temps: map<string, TemporaryPath>, memo: Memo, pt: map<string, FileTransfer>): (r: seq<Arg>)
    ensures |r| == |cmd|
    ensures Leaves(r) == ResolveAll(Leaves(cmd), temps, memo, pt)
    ensures forall i :: 0 <= i < |Leaves(r)| && Leaves(r)[i].Text? ==>
              Leaves(r)[i].text !in temps && Leaves(r)[i].text !in memo && Leaves(r)[i].text !in pt
  {
    var c1 := Replace(cmd, TempSubst(temps));
    var c2 := Replace(c1, SharedSubst(memo));
    var c3 := Replace(c2, TransferSubst(pt));
    SubstitutionResolves(cmd, temps, memo, pt);
    c3
  }

  /** The three passes as written: the job builder fails exactly when the
      command line holds a list or a tuple, since no key of the three maps
      is one; otherwise it agrees with Substitute. */
  function SubstituteAsWritten(cmd: seq<Arg>, temps: map<string, TemporaryPath>, memo: Memo,
                               pt: map<string, FileTransfer>): (r: Result<seq<Arg>, ConversionError>)
    ensures r.Success? <==> forall i :: 0 <= i < |cmd| ==> !cmd[i].Nested?
    ensures r.Success? ==> r.value == Substitute(cmd, temps, memo, pt)
    ensures r.Failure? ==> r.error == UnhashableArgument
  {
    var ts, ss, xs := TempSubst(temps), SharedSubst(memo), TransferSubst(pt);
    ScalarsStayScalar(cmd, ts);
    var c1 := ReplaceAsWritten(cmd, ts);
    if c1.Failure? then Failure(UnhashableArgument)
    else
      ScalarsStayScalar(c1.value, ss);
      var c2 := ReplaceAsWritten(c1.value, ss);
      if c2.Failure? then
        ScalarArgumentsNeeded(cmd, ts, ss);
        Failure(UnhashableArgument)
      else
        ScalarsStayScalar(c2.value, xs);
        var c3 := ReplaceAsWritten(c2.value, xs);
        if c3.Failure? then Failure(UnhashableArgument) else Success(c3.value)
  }

  /** With scalar keys and values, a command line of scalars is hashable
      and stays one of scalars. */
  lemma ScalarsStayScalar(args: seq<Arg>, m: Subst)
    requires ScalarSubst(m)
    ensures (forall i :: 0 <= i < |args| ==> !args[i].Nested?) ==>
            (forall i :: 0 <= i < |args| ==> Hashable(args[i])) &&
            (forall i :: 0 <= i < |Replace(args, m)| ==> !Replace(args, m)[i].Nested?)
  {
  }

  /** A list or tuple in the command line is no key of the first pass, so
      it fails the first or the second pass. */
  lemma ScalarArgumentsNeeded(cmd: seq<Arg>, m1: Subst, m2: Subst)
    requires ScalarSubst(m1)
    requires ReplaceAsWritten(cmd, m1).Success? && ReplaceAsWritten(ReplaceAsWritten(cmd, m1).value, m2).Failure?
    ensures exists i :: 0 <= i < |cmd| && cmd[i].Nested?
  {
    ScalarsStayScalar(cmd, m1);
  }

  /** Flattening commutes with the three passes, and a string replaced by
      one pass is no key of the later ones. */
  lemma SubstitutionResolves(cmd: seq<Arg>, temps: map<string, TemporaryPath>, memo: Memo, pt: map<string, FileTransfer>)
    ensures var c3 := Replace(Replace(Replace(cmd, TempSubst(temps)), SharedSubst(memo)), TransferSubst(pt));
            Leaves(c3) == ResolveAll(Leaves(cmd), temps, memo, pt)
  {
    var ts, ss, xs := TempSubst(temps), SharedSubst(memo), TransferSubst(pt);
    var c1 := Replace(cmd, ts);
    var c2 := Replace(c1, ss);
    LeavesOfReplace(cmd, ts);
    LeavesOfReplace(c1, ss);
    LeavesOfReplace(c2, xs);
    var ls := Leaves(cmd);
    var l3 := SubstLeaves(SubstLeaves(SubstLeaves(ls, ts), ss), xs);
    forall i | 0 <= i < |ls|
      ensures l3[i] == Resolve(ls[i], temps, memo, pt)
    {
      ResolveLeaf(ls[i], temps, memo, pt);
    }
  }

  /** The three passes applied to one scalar resolve it. */
  lemma ResolveLeaf(a: Arg, temps: map<string, TemporaryPath>, memo: Memo, pt: map<string, FileTransfer>)
    requires !a.Nested?
    ensures var ts, ss, xs := TempSubst(temps), SharedSubst(memo), TransferSubst(pt);
            var a1 := if a in ts then ts[a] else a;
            var a2 := if a1 in ss then ss[a1] else a1;
            (if a2 in xs then xs[a2] else a2) == Resolve(a, temps, memo, pt)
  {
  }

  /** The job and the shared-path memo after it. */
  datatype Built = Built(job: Job, memo: Memo)

  /** Wherever the command line `cmd` had a string that `out` holds a
      shared reference for, that reference is `memo`'s entry for the
      string. */
  predicate SharedFromMemo(cmd: seq<Arg>, out: seq<Arg>, memo: Memo) {
    |Leaves(out)| == |Leaves(cmd)| &&
    forall k :: 0 <= k < |Leaves(out)| && Leaves(cmd)[k].Text? && Leaves(out)[k].Ref? && Leaves(out)[k].ref.SharedRef? ==>
      Leaves(cmd)[k].text in memo && memo[Leaves(cmd)[k].text] == Leaves(out)[k].ref.shared
  }

  /** Resolving against `memo` puts in shared references only from `memo`. */
  lemma ResolvedShared(cmd: seq<Arg>, out: seq<Arg>, temps: map<string, TemporaryPath>, memo: Memo,
                       pt: map<string, FileTransfer>)
    requires Leaves(out) == ResolveAll(Leaves(cmd), temps, memo, pt)
    ensures SharedFromMemo(cmd, out, memo)
  {
    var lc, lo := Leaves(cmd), Leaves(out);
    forall k | 0 <= k < |lo| && lc[k].Text? && lo[k].Ref? && lo[k].ref.SharedRef?
      ensures lc[k].text in memo && memo[lc[k].text] == lo[k].ref.shared
    {
      assert lo[k] == Resolve(lc[k], temps, memo, pt);
    }
  }

  /** A memo that keeps every entry of `memo` holds the same references. */
  lemma SharedFromLater(cmd: seq<Arg>, out: seq<Arg>, memo: Memo, later: Memo)
    requires SharedFromMemo(cmd, out, memo) && Extends(memo, later)
    ensures SharedFromMemo(cmd, out, later)
  {
  }

  /** Two command lines resolved against one sound memo: where both had
      the same string and both now hold a shared reference, the references
      are equal, and name that string as their path. */
  lemma SharedRefsAgree(cmd1: seq<Arg>, out1: seq<Arg>, cmd2: seq<Arg>, out2: seq<Arg>, memo: Memo, roots: SharedRoots,
                        k1: nat, k2: nat)
    requires SharedFromMemo(cmd1, out1, memo) && SharedFromMemo(cmd2, out2, memo) && MemoSound(memo, roots)
    requires k1 < |Leaves(out1)| && k2 < |Leaves(out2)|
    requires Leaves(cmd1)[k1].Text? && Leaves(cmd1)[k1] == Leaves(cmd2)[k2]
    requires Leaves(out1)[k1].Ref? && Leaves(out1)[k1].ref.SharedRef?
    requires Leaves(out2)[k2].Ref? && Leaves(out2)[k2].ref.SharedRef?
    ensures Leaves(out1)[k1] == Leaves(out2)[k2]
    ensures Leaves(out1)[k1].ref.shared.uuid == Leaves(cmd1)[k1].text
  {
  }

  /** `build_job`: the job runs the process's command line with tokens,
      translated paths and transferred paths replaced by scheduler objects;
      it references the temporary paths its token parameters hold and the
      transfers recorded for the process. */
  function BuildJob(p: Process, st: State, temps: map<string, TemporaryPath>, memo: Memo,
                    t: Transfers, roots: SharedRoots): (r: Built)
    requires TokensKnown(p.id, p.params, st, temps)
    ensures r.job.name == p.name
    ensures |r.job.command| == |p.commandline|
    ensures Leaves(r.job.command) == ResolveAll(Leaves(p.commandline), temps, r.memo, ProcTransfers(t, p.id))
    ensures forall tp :: tp in r.job.inputTemps <==> Listed(p.id, p.params, st, temps, false, tp)
    ensures forall tp :: tp in r.job.outputTemps <==> Listed(p.id, p.params, st, temps, true, tp)
    ensures forall path :: path in r.job.inputTransfers <==> (p.id, path) in t.inputs
    ensures forall path :: path in r.job.outputTransfers <==> (p.id, path) in t.outputs
    ensures forall path :: path in r.job.inputTransfers ==> r.job.inputTransfers[path] == t.inputs[(p.id, path)]
    ensures forall path :: path in r.job.outputTransfers ==> r.job.outputTransfers[path] == t.outputs[(p.id, path)]
    ensures Extends(memo, r.memo)
    ensures MemoSound(memo, roots) ==> MemoSound(r.memo, roots)
    ensures forall j :: 0 <= j < |p.params| && Shared(p.id, p.params[j], st, roots) ==>
              PathText(ParamValue(p.id, p.params[j], st)).value in r.memo
    ensures forall path :: path in r.memo ==>
              path in memo || exists j :: 0 <= j < |p.params| && PathText(ParamValue(p.id, p.params[j], st)) == Some(path)
    ensures SharedFromMemo(p.commandline, r.job.command, r.memo)
  {
    var scan := ScanParams(p.id, p.params, st, temps, memo, roots);
    var pt := ProcTransfers(t, p.id);
    var cmd := Substitute(p.commandline, temps, scan.memo, pt);
    ResolvedShared(p.commandline, cmd, temps, scan.memo, pt);
    var job := Job(
      p.name,
      cmd,
      scan.inputTemps, ForProcess(t.inputs, p.id),
      scan.outputTemps, ForProcess(t.outputs, p.id));
    Built(job, scan.memo)
  }

  /** `build_job` as written: it raises exactly when the command line
      holds a list or a tuple, and otherwise builds what BuildJob does. */
  function BuildJobAsWritten(p: Process, st: State, temps: map<string, TemporaryPath>, memo: Memo,
                             t: Transfers, roots: SharedRoots): (r: Result<Built, ConversionError>)
    requires TokensKnown(p.id, p.params, st, temps)
    ensures r.Success? <==> forall i :: 0 <= i < |p.commandline| ==> !p.commandline[i].Nested?
    ensures r.Success? ==> r.value == BuildJob(p, st, temps, memo, t, roots)
    ensures r.Failure? ==> r.error == UnhashableArgument
  {
    var scan := ScanParams(p.id, p.params, st, temps, memo, roots);
    var pt := ProcTransfers(t, p.id);
    var cmd := SubstituteAsWritten(p.commandline, temps, scan.memo, pt);
    if cmd.Failure? then Failure(cmd.error)
    else
      Success(Built(Job(p.name, cmd.value, scan.inputTemps, ForProcess(t.inputs, p.id),
                        scan.outputTemps, ForProcess(t.outputs, p.id)), scan.memo))
  }
}

=== FILE: model.dfy ===
/** The data the conversion reads and produces, with the foreign objects of
    the pipeline library and of the job scheduler's client replaced by plain
    records. Object identities (a process, a nested graph) are modelled as
    numbers. */
module Model {
  import opened Wrappers
  import opened Text

  /** Identity of a process object (dictionary keys of `jobs`, `root_jobs`,
      and of the transfer maps). */
  type ProcId = nat

  /** Identity of a nested structural Graph object (keys of `groups`). */
  type GraphId = nat

  /** The trait class of a parameter, as far as the conversion inspects it. */
  datatype TraitKind = FileTrait | DirectoryTrait | OtherTrait

  /** `trait.output` may be None in the library; `bool(None)` is false. */
  datatype Trait = Trait(kind: TraitKind, output: bool, allowedExtensions: seq<string>)

  predicate IsPathTrait(t: Trait) {
    t.kind == FileTrait || t.kind == DirectoryTrait
  }

  /** One entry of `user_traits()`. */
  datatype Param = Param(name: string, info: Trait)

  /** A parameter value. `Temp(n)` is the placeholder `TempFile('%d' % n)`;
      being a string subclass, it reads as the text of `n` wherever the code
      treats it as a path. */
  datatype Value = Undefined | NoneValue | Str(s: string) | Temp(token: nat)

  /** Parameter `plug` of process `proc`. */
  type PlugKey = (ProcId, string)

  /** The live parameter values of every process of the pipeline. */
  type State = map<PlugKey, Value>

  /** `getattr(process, plug)`: an unset parameter reads as Undefined. */
  function ValueOf(st: State, k: PlugKey): Value {
    if k in st then st[k] else Undefined
  }

  /** The value as a path string, or None when it is None or Undefined. */
  function PathText(v: Value): (r: Option<string>)
    ensures r.None? <==> v.Undefined? || v.NoneValue?
  {
    match v
    case Str(s) => Some(s)
    case Temp(n) => Some(DecimalText(n))
    case _ => None
  }

  /** Scheduler temporary path handle; `serial` stands for object identity. */
  datatype TemporaryPath = TemporaryPath(isDirectory: bool, suffix: string, serial: nat)

  /** Scheduler resource-relative path reference. */
  datatype SharedResourcePath = SharedResourcePath(relPath: string, namespace: string, uuid: string)

  /** Scheduler file transfer: direction, client path and its file group. */
  datatype FileTransfer = FileTransfer(isInput: bool, clientPath: string, clientPaths: seq<string>)

  /** A scheduler object substituted into a command line. */
  datatype FileRef =
    | TempRef(temp: TemporaryPath)
    | SharedRef(shared: SharedResourcePath)
    | TransferRef(transfer: FileTransfer)

  datatype SeqKind = ListKind | TupleKind

  /** One command-line argument: a string, a nested list or tuple, or a
      scheduler object put there by substitution. */
  datatype Arg = Text(text: string) | Nested(kind: SeqKind, items: seq<Arg>) | Ref(ref: FileRef)

  /** A leaf process: its identity, name, parameters (in `user_traits()`
      order) and the command line `get_commandline()` renders for it. */
  datatype Process = Process(id: ProcId, name: string, params: seq<Param>, commandline: seq<Arg>)

  /** A scheduler job. The referenced input files are `inputTemps` followed
      by the values of `inputTransfers`; likewise for outputs. */
  datatype Job = Job(
    name: string,
    command: seq<Arg>,
    inputTemps: seq<TemporaryPath>,
    inputTransfers: map<string, FileTransfer>,
    outputTemps: seq<TemporaryPath>,
    outputTransfers: map<string, FileTransfer>)

  /** A job or a group, as an element of a group or of the workflow roots. */
  datatype Handle = JobHandle(proc: ProcId) | GroupHandle(graph: GraphId)

  datatype Group = Group(name: string, members: seq<Handle>)

  /** The scheduler workflow. `groups` resolves the group handles. */
  datatype Workflow = Workflow(
    jobs: map<ProcId, Job>,
    dependencies: set<(Handle, Handle)>,
    groups: map<GraphId, Group>,
    roots: seq<Handle>,
    name: string)

  /** The ways the conversion can abort. */
  datatype ConversionError =
    | UnhashableArgument
    | MissingSwitchPlug(plug: string)
    | RecursionLimit
    | UnresolvableNode
    | NotIterable
}

=== FILE: shared_paths.dfy ===
/** Translation of absolute paths under configured shared roots into
    resource-relative references, memoised per conversion
    (`_translated_path`). */
module SharedPaths {
  import opened Wrappers
  import opened Text
  import opened Model

  /** `path_translations`: (namespace, base directory) pairs, in the
      dictionary's iteration order. */
  type SharedRoots = seq<(string, string)>

  /** `shared_map`: absolute path to the reference built for it. */
  type Memo = map<string, SharedResourcePath>

  predicate UnderBase(path: string, base: string) {
    StartsWith(path, base + [Sep])
  }

  /** Some root's base directory, followed by the separator, starts `path`. */
  predicate Shareable(path: string, roots: SharedRoots) {
    exists i :: 0 <= i < |roots| && UnderBase(path, roots[i].1)
  }

  /** The reference for `path` under the root `(namespace, base)`. */
  function MakeRef(path: string, root: (string, string)): (r: SharedResourcePath)
    requires UnderBase(path, root.1)
    ensures root.1 + [Sep] + r.relPath == path
    ensures r.namespace == root.0 && r.uuid == path
  {
    var r := SharedResourcePath(path[|root.1| + 1..], root.0, path);
    assert path == path[..|root.1| + 1] + path[|root.1| + 1..];
    r
  }

  /** The first root, in iteration order, whose base directory followed by
      the separator starts `path`. */
  function MatchingRoot(path: string, roots: SharedRoots): (r: Option<(string, string)>)
    ensures r.Some? ==> r.value in roots && UnderBase(path, r.value.1)
    ensures r.None? <==> forall i :: 0 <= i < |roots| ==> !UnderBase(path, roots[i].1)
  {
    if |roots| == 0 then None
    else if UnderBase(path, roots[0].1) then Some(roots[0])
    else MatchingRoot(path, roots[1..])
  }

  /** The guard of `_translated_path`: a defined value, some shared roots,
      and a File or Directory parameter. */
  predicate Translatable(v: Value, t: Trait, roots: SharedRoots) {
    PathText(v).Some? && roots != [] && IsPathTrait(t)
  }

  /** The result of one translation and the memo after it. */
  datatype Translation = Translation(item: Option<SharedResourcePath>, memo: Memo)

  /** Every memo entry is keyed by its own path and rebuilds that path from
      one of the roots. */
  predicate MemoSound(memo: Memo, roots: SharedRoots) {
    forall p :: p in memo ==>
      memo[p].uuid == p &&
      exists i :: 0 <= i < |roots| && memo[p].namespace == roots[i].0 && roots[i].1 + [Sep] + memo[p].relPath == p
  }

  /** `m2` keeps every entry of `m`. */
  predicate Extends(m: Memo, m2: Memo) {
    forall p :: p in m ==> p in m2 && m2[p] == m[p]
  }

  function TranslatedPath(v: Value, t: Trait, memo: Memo, roots: SharedRoots): (r: Translation)
    ensures !Translatable(v, t, roots) ==> r == Translation(None, memo)
    ensures Translatable(v, t, roots) && PathText(v).value in memo ==>
              r == Translation(Some(memo[PathText(v).value]), memo)
    ensures Translatable(v, t, roots) && PathText(v).value !in memo ==>
              (r.item.Some? <==> Shareable(PathText(v).value, roots))
    ensures r.item.None? ==> r.memo == memo
    ensures r.item.Some? ==> PathText(v).Some? && PathText(v).value in r.memo && r.item.value == r.memo[PathText(v).value]
    ensures r.item.Some? && PathText(v).value !in memo ==>
              var path := PathText(v).value;
              r.memo == memo[path := r.item.value] && r.item.value.uuid == path &&
              exists i :: 0 <= i < |roots| && r.item.value.namespace == roots[i].0 &&
                          roots[i].1 + [Sep] + r.item.value.relPath == path
    ensures Extends(memo, r.memo)
  {
    if !Translatable(v, t, roots) then Translation(None, memo)
    else
      var path := PathText(v).value;
      if path in memo then Translation(Some(memo[path]), memo)
      else
        match MatchingRoot(path, roots)
        case None => Translation(None, memo)
        case Some(root) =>
          var item := MakeRef(path, root);
          Translation(Some(item), memo[path := item])
  }

  /** Translation keeps the memo sound. */
  lemma TranslationKeepsMemoSound(v: Value, t: Trait, memo: Memo, roots: SharedRoots)
    ensures MemoSound(memo, roots) ==> MemoSound(TranslatedPath(v, t, memo, roots).memo, roots)
  {
  }

  /** Translating the same path a second time, for any File or Directory
      parameter, returns the identical reference and leaves the memo as the
      first translation left it. */
  lemma {:induction false} TranslateTwice(v: Value, t1: Trait, t2: Trait, memo: Memo, roots: SharedRoots)
    requires IsPathTrait(t2)
    ensures var r1 := TranslatedPath(v, t1, memo, roots);
            var r2 := TranslatedPath(v, t2, r1.memo, roots);
            r1.item.Some? ==> r2 == r1
  {
  }
}

=== FILE: substitution.dfy ===
/** Structural substitution in a command line (`_replace_in_list`). */
module Substitution {
  import opened Wrappers
  import opened Model

  /** A substitution: items are looked up by equality. */
  type Subst = map<Arg, Arg>

  /** `_replace_in_list` as intended: an argument that is a key of `m`
      becomes its value; a list or tuple that is not a key becomes a list
      with the substitution applied inside; anything else is kept. */
  function Replace(args: seq<Arg>, m: Subst): (r: seq<Arg>)
    ensures |r| == |args|
    ensures forall i :: 0 <= i < |args| && args[i] in m ==> r[i] == m[args[i]]
    ensures forall i :: 0 <= i < |args| && args[i] !in m && args[i].Nested? ==>
              r[i] == Nested(ListKind, Replace(args[i].items, m)) && |r[i].items| == |args[i].items|
    ensures forall i :: 0 <= i < |args| && args[i] !in m && !args[i].Nested? ==> r[i] == args[i]
  {
    if |args| == 0 then []
    else
      var head :=
        if args[0] in m then m[args[0]]
        else if args[0].Nested? then Nested(ListKind, Replace(args[0].items, m))
        else args[0];
      [head] + Replace(args[1..], m)
  }

  /** The scalar arguments of a command line, depth first, left to right. */
  function Leaves(args: seq<Arg>): (r: seq<Arg>)
    ensures forall i :: 0 <= i < |r| ==> !r[i].Nested?
  {
    if |args| == 0 then []
    else (if args[0].Nested? then Leaves(args[0].items) else [args[0]]) + Leaves(args[1..])
  }

  /** Substitution applied to each scalar on its own. */
  function SubstLeaves(ls: seq<Arg>, m: Subst): (r: seq<Arg>)
    ensures |r| == |ls|
    ensures forall i :: 0 <= i < |ls| ==> r[i] == (if ls[i] in m then m[ls[i]] else ls[i])
  {
    seq(|ls|, i requires 0 <= i < |ls| => if ls[i] in m then m[ls[i]] else ls[i])
  }

  /** Keys and values are scalars, as in every map the conversion uses. */
  predicate ScalarSubst(m: Subst) {
    forall k :: k in m ==> !k.Nested? && !m[k].Nested?
  }

  lemma LeavesAppend(a: seq<Arg>, b: seq<Arg>)
    ensures Leaves(a + b) == Leaves(a) + Leaves(b)
  {
    if |a| > 0 {
      assert (a + b)[1..] == a[1..] + b;
      LeavesAppend(a[1..], b);
    } else {
      assert a + b == b;
    }
  }

  lemma SubstLeavesAppend(a: seq<Arg>, b: seq<Arg>, m: Subst)
    ensures SubstLeaves(a + b, m) == SubstLeaves(a, m) + SubstLeaves(b, m)
  {
  }

  /** The scalars one argument contributes to a flattened command line. */
  function ItemLeaves(a: Arg): seq<Arg> {
    if a.Nested? then Leaves(a.items) else [a]
  }

  lemma LeavesCons(args: seq<Arg>)
    requires |args| > 0
    ensures Leaves(args) == ItemLeaves(args[0]) + Leaves(args[1..])
  {
  }

  /** Substituting structurally and then flattening is the same as
      flattening and then substituting each scalar: nothing is lost, added
      or reordered at any depth. */
  lemma {:induction false} LeavesOfReplace(args: seq<Arg>, m: Subst)
    requires ScalarSubst(m)
    ensures Leaves(Replace(args, m)) == SubstLeaves(Leaves(args), m)
  {
    if |args| > 0 {
      var r := Replace(args, m);
      assert r[1..] == Replace(args[1..], m);
      LeavesCons(r);
      LeavesCons(args);
      LeavesOfReplace(args[1..], m);
      ItemLeavesOfReplace(args[0], r[0], m);
      SubstLeavesAppend(ItemLeaves(args[0]), Leaves(args[1..]), m);
    }
  }

  lemma {:induction false} ItemLeavesOfReplace(a: Arg, b: Arg, m: Subst)
    requires ScalarSubst(m)
    requires b == Replace([a], m)[0]
    ensures ItemLeaves(b) == SubstLeaves(ItemLeaves(a), m)
  {
    if a in m {
      assert b == m[a];
    } else if a.Nested? {
      assert b == Nested(ListKind, Replace(a.items, m));
      LeavesOfReplace(a.items, m);
    } else {
      assert b == a;
    }
  }

  /** Python can look up an item in a dict only if it is hashable: a list
      never is, a tuple is when all its items are. */
  predicate Hashable(a: Arg) {
    match a
    case Nested(kind, items) => kind == TupleKind && forall i :: 0 <= i < |items| ==> Hashable(items[i])
    case _ => true
  }

  /** `_replace_in_list` as written: the membership test `item in temp_map`
      comes before the list check, so an unhashable item raises TypeError. */
  function ReplaceAsWritten(args: seq<Arg>, m: Subst): (r: Result<seq<Arg>, ConversionError>)
    ensures r.Success? <==> forall i :: 0 <= i < |args| ==> Hashable(args[i])
    ensures r.Success? ==> r.value == Replace(args, m)
  {
    if |args| == 0 then Success([])
    else if !Hashable(args[0]) then Failure(UnhashableArgument)
    else
      var head :=
        if args[0] in m then Success(m[args[0]])
        else if args[0].Nested? then
          var inner := ReplaceAsWritten(args[0].items, m);
          if inner.Failure? then Failure(UnhashableArgument) else Success(Nested(ListKind, inner.value))
        else Success(args[0]);
      var tail := ReplaceAsWritten(args[1..], m);
      if head.Failure? || tail.Failure? then Failure(UnhashableArgument)
      else Success([head.value] + tail.value)
  }

  /** As written, a command line with a list or tuple that is not itself a
      key never survives two passes: the first pass fails on a list and turns
      a tuple into a list, which the second pass then fails on. */
  lemma NestedArgumentFailsByPassTwo(cmd: seq<Arg>, i: nat, m1: Subst, m2: Subst)
    requires i < |cmd| && cmd[i].Nested? && cmd[i] !in m1
    ensures ReplaceAsWritten(cmd, m1).Failure? || ReplaceAsWritten(ReplaceAsWritten(cmd, m1).value, m2).Failure?
  {
    var p1 := ReplaceAsWritten(cmd, m1);
    if p1.Success? {
      assert !Hashable(p1.value[i]);
    }
  }

  /** The smallest such command line: one tuple argument. */
  lemma TupleArgumentFailsPassTwo()
    ensures var p1 := ReplaceAsWritten([Nested(TupleKind, [Text("a")])], map[]);
            p1.Success? && ReplaceAsWritten(p1.value, map[]).Failure?
  {
    var cmd := [Nested(TupleKind, [Text("a")])];
    assert Hashable(cmd[0].items[0]);
    assert Hashable(cmd[0]);
    NestedArgumentFailsByPassTwo(cmd, 0, map[], map[]);
  }
}

=== FILE: sweeps.dfy ===
/** Building items one after the other, each build handed the state the
    builds before it left, and each result recorded under its item's key.
    This is the shape of the job-building loops of `workflow_from_graph`,
    which hand every `build_job` call the one `shared_map`. */
module Sweeps {

  /** The results recorded so far, by key, and the threaded state. */
  datatype Sweep<K, J, M> = Sweep(made: map<K, J>, state: M)

  /** `build` accepts every item of `ps`, whatever the state. */
  ghost predicate Buildable<P, J, M(!new)>(ps: seq<P>, build: (P, M) --> (J, M)) {
    forall k, m :: 0 <= k < |ps| ==> build.requires(ps[k], m)
  }

  /** The items of `ps` built in turn from `s`. */
  function Run<P, K(==), J, M(!new)>(ps: seq<P>, key: P -> K, build: (P, M) --> (J, M), s: Sweep<K, J, M>): Sweep<K, J, M>
    requires Buildable(ps, build)
  {
    if |ps| == 0 then s
    else
      var b := build(ps[0], s.state);
      Run(ps[1..], key, build, Sweep(s.made[key(ps[0]) := b.0], b.1))
  }

  /** A run is its first build, then the run of the rest. */
  lemma RunStep<P, K, J, M(!new)>(ps: seq<P>, key: P -> K, build: (P, M) --> (J, M), s: Sweep<K, J, M>)
    requires Buildable(ps, build) && |ps| > 0
    ensures Buildable(ps[1..], build)
    ensures Run(ps, key, build, s) ==
            Run(ps[1..], key, build, Sweep(s.made[key(ps[0]) := build(ps[0], s.state).0], build(ps[0], s.state).1))
  {
    BuildableSlice(ps, build, 1, |ps|);
  }

  /** A run over one item ends in `t` when `t` records what `build` makes of it. */
  lemma RunOneTo<P, K, J, M(!new)>(p: P, key: P -> K, build: (P, M) --> (J, M), s: Sweep<K, J, M>, t: Sweep<K, J, M>)
    requires Buildable([p], build) && build.requires(p, s.state)
    requires t.made == s.made[key(p) := build(p, s.state).0] && t.state == build(p, s.state).1
    ensures Run([p], key, build, s) == t
  {
    assert [p][0] == p && [p][1..] == [];
  }

  lemma BuildableSlice<P, J, M(!new)>(ps: seq<P>, build: (P, M) --> (J, M), lo: nat, hi: nat)
    requires Buildable(ps, build) && lo <= hi <= |ps|
    ensures Buildable(ps[lo..hi], build)
  {
    forall k, m | 0 <= k < hi - lo
      ensures build.requires(ps[lo..hi][k], m)
    {
      assert ps[lo..hi][k] == ps[lo + k];
    }
  }

  /** Building `xs + ys` is building `xs`, then `ys` from where it stopped. */
  lemma {:induction false} RunAppend<P, K, J, M(!new)>(xs: seq<P>, ys: seq<P>, key: P -> K, build: (P, M) --> (J, M),
                                                s: Sweep<K, J, M>)
    requires Buildable(xs, build) && Buildable(ys, build)
    ensures Buildable(xs + ys, build)
    ensures Run(xs + ys, key, build, s) == Run(ys, key, build, Run(xs, key, build, s))
  {
    if |xs| == 0 {
      assert xs + ys == ys;
    } else {
      assert (xs + ys)[1..] == xs[1..] + ys;
      var b := build(xs[0], s.state);
      RunAppend(xs[1..], ys, key, build, Sweep(s.made[key(xs[0]) := b.0], b.1));
    }
  }

  /** The state does not depend on the results already recorded, and the
      new results are laid over them. */
  lemma {:induction false} RunOver<P, K, J, M(!new)>(ps: seq<P>, key: P -> K, build: (P, M) --> (J, M),
                                              a: map<K, J>, c: map<K, J>, m: M)
    requires Buildable(ps, build)
    ensures Run(ps, key, build, Sweep(a + c, m)) ==
            Sweep(a + Run(ps, key, build, Sweep(c, m)).made, Run(ps, key, build, Sweep(c, m)).state)
  {
    if |ps| > 0 {
      var b := build(ps[0], m);
      assert (a + c)[key(ps[0]) := b.0] == a + c[key(ps[0]) := b.0];
      RunOver(ps[1..], key, build, a, c[key(ps[0]) := b.0], b.1);
    }
  }

  /** `ps[k]` is the last item of `ps` with key `x`. */
  predicate LastWithKey<P, K(==)>(ps: seq<P>, key: P -> K, k: nat, x: K) {
    k < |ps| && key(ps[k]) == x && forall k2 :: k < k2 < |ps| ==> key(ps[k2]) != x
  }

  /** No item of `ps` has key `x`. */
  predicate NoneWithKey<P, K(==)>(ps: seq<P>, key: P -> K, x: K) {
    forall k :: 0 <= k < |ps| ==> key(ps[k]) != x
  }

  /** `j` is what `build` made of the last item of `ps` with key `x`, from
      the state exactly as the items before it left it. */
  ghost predicate MadeLast<P, K, J, M(!new)>(ps: seq<P>, key: P -> K, build: (P, M) --> (J, M), s: Sweep<K, J, M>, x: K, j: J) {
    Buildable(ps, build) &&
    exists k: nat :: LastWithKey(ps, key, k, x) && j == build(ps[k], Run(ps[..k], key, build, s).state).0
  }

  /** Each result of a run is the one `s` had, when no item has its key,
      or else what `build` made of the last item with its key, from the
      state as the items before that one left it. */
  lemma {:induction false} RunMade<P, K, J, M(!new)>(ps: seq<P>, key: P -> K, build: (P, M) --> (J, M), s: Sweep<K, J, M>, x: K)
    requires Buildable(ps, build)
    requires x in Run(ps, key, build, s).made
    ensures (x in s.made && Run(ps, key, build, s).made[x] == s.made[x] && NoneWithKey(ps, key, x)) ||
            MadeLast(ps, key, build, s, x, Run(ps, key, build, s).made[x])
  {
    if |ps| > 0 {
      var b := build(ps[0], s.state);
      var s1 := Sweep(s.made[key(ps[0]) := b.0], b.1);
      var r := Run(ps[1..], key, build, s1);
      assert Run(ps, key, build, s) == r;
      BuildableSlice(ps, build, 1, |ps|);
      RunMade(ps[1..], key, build, s1, x);
      if x in s1.made && r.made[x] == s1.made[x] && NoneWithKey(ps[1..], key, x) {
        NoneBeyondHead(ps, key, x);
        if key(ps[0]) == x {
          assert ps[..0] == [];
          assert LastWithKey(ps, key, 0, x);
        }
      } else {
        LaterIsLast(ps, key, build, s, x, r.made[x]);
      }
    }
  }

  lemma NoneBeyondHead<P, K>(ps: seq<P>, key: P -> K, x: K)
    requires |ps| > 0 && NoneWithKey(ps[1..], key, x)
    ensures forall k2 :: 0 < k2 < |ps| ==> key(ps[k2]) != x
  {
    forall k2 | 0 < k2 < |ps|
      ensures key(ps[k2]) != x
    {
      assert ps[k2] == ps[1..][k2 - 1];
    }
  }

  lemma LaterIsLast<P, K, J, M(!new)>(ps: seq<P>, key: P -> K, build: (P, M) --> (J, M), s: Sweep<K, J, M>, x: K, j: J)
    requires Buildable(ps, build) && |ps| > 0
    requires MadeLast(ps[1..], key, build,
                      Sweep(s.made[key(ps[0]) := build(ps[0], s.state).0], build(ps[0], s.state).1), x, j)
    ensures MadeLast(ps, key, build, s, x, j)
  {
    var b := build(ps[0], s.state);
    var rest, s1 := ps[1..], Sweep(s.made[key(ps[0]) := b.0], b.1);
    var k: nat :| LastWithKey(rest, key, k, x) && j == build(rest[k], Run(rest[..k], key, build, s1).state).0;
    BuildableSlice(ps, build, 0, k + 1);
    assert ps[..k + 1][1..] == rest[..k];
    assert Run(ps[..k + 1], key, build, s) == Run(rest[..k], key, build, s1);
    forall k2 | k + 1 < k2 < |ps|
      ensures key(ps[k2]) != x
    {
      assert ps[k2] == rest[k2 - 1];
    }
    assert ps[k + 1] == rest[k];
    assert LastWithKey(ps, key, k + 1, x);
  }
}

=== FILE: temporaries.dfy ===
/** Temporary-token allocation and restoration
    (`assign_temporary_filenames`, `restore_empty_filenames`). */
module Temporaries {
  import opened Text
  import opened Model

  /** One result of `find_empty_parameters()`: the owning process (the
      node's `process`, or the node itself), the parameter name, the
      optional flag, and the parameter's trait from `user_traits()`. */
  datatype EmptyParam = EmptyParam(proc: ProcId, plug: string, optional: bool, info: Trait)

  function KeyOf(e: EmptyParam): PlugKey {
    (e.proc, e.plug)
  }

  /** The parameters `find_empty_parameters()` reported. */
  function EmptyKeys(empties: seq<EmptyParam>): set<PlugKey> {
    set i | 0 <= i < |empties| :: KeyOf(empties[i])
  }

  /** `(swf_tmp, node, plug_name, optional)`, the node given by the process
      it resolves to. */
  datatype TempEntry = TempEntry(path: TemporaryPath, proc: ProcId, plug: string, optional: bool)

  /** `temp_map`: token text to entry. */
  type TempMap = map<string, TempEntry>

  /** The tokens minted and the parameter values after minting. */
  datatype Assignment = Assignment(temps: TempMap, state: State)

  /** The temporary path requested for a parameter with trait `t`. */
  function TempPathFor(t: Trait, serial: nat): TemporaryPath {
    TemporaryPath(t.kind == DirectoryTrait, if |t.allowedExtensions| > 0 then t.allowedExtensions[0] else "", serial)
  }

  /** The texts of the first `n` tokens. */
  function TokenTexts(n: nat): set<string> {
    set i | 0 <= i < n :: DecimalText(i)
  }

  /** `n` distinct counters give `n` distinct tokens. */
  lemma {:induction false} TokenTextsCount(n: nat)
    ensures |TokenTexts(n)| == n
  {
    if n > 0 {
      TokenTextsCount(n - 1);
      TokenIsFresh(n - 1);
      assert TokenTexts(n) == TokenTexts(n - 1) + {DecimalText(n - 1)};
    }
  }

  /** No earlier counter value has the same text as `n`. */
  lemma TokenIsFresh(n: nat)
    ensures DecimalText(n) !in TokenTexts(n)
  {
    if DecimalText(n) in TokenTexts(n) {
      var j :| 0 <= j < n && DecimalText(j) == DecimalText(n);
      DecimalTextInjective(j, n);
    }
  }

  /** Entry `e` is the one minted for parameter `p` with counter `i`: same
      process, parameter and optional flag; a directory exactly when the
      trait is a Directory; suffixed with the first allowed extension, or
      with nothing when there is none. */
  predicate MintedFor(e: TempEntry, p: EmptyParam, i: nat) {
    e.proc == p.proc && e.plug == p.plug && e.optional == p.optional &&
    e.path.isDirectory == (p.info.kind == DirectoryTrait) &&
    e.path.suffix == (if |p.info.allowedExtensions| > 0 then p.info.allowedExtensions[0] else "") &&
    e.path.serial == i
  }

  /** Every reported parameter holds a token minted for it, namely the last
      one minted for that parameter. */
  predicate HoldsLastToken(st: State, empties: seq<EmptyParam>) {
    forall i :: 0 <= i < |empties| ==>
      ValueOf(st, KeyOf(empties[i])).Temp? &&
      i <= ValueOf(st, KeyOf(empties[i])).token < |empties| &&
      KeyOf(empties[ValueOf(st, KeyOf(empties[i])).token]) == KeyOf(empties[i])
  }

  /** `r` is the result of minting one token per parameter of `empties`
      over `st`: tokens "0" to "|empties| - 1", each recorded with the entry
      minted for its parameter; every reported parameter holds the last token
      minted for it; every other parameter keeps its value. */
  ghost predicate AssignedFrom(empties: seq<EmptyParam>, st: State, r: Assignment) {
    r.temps.Keys == TokenTexts(|empties|) &&
    (forall i :: 0 <= i < |empties| ==> MintedFor(r.temps[DecimalText(i)], empties[i], i)) &&
    HoldsLastToken(r.state, empties) &&
    (forall k :: k !in EmptyKeys(empties) ==> ValueOf(r.state, k) == ValueOf(st, k)) &&
    r.state.Keys == st.Keys + EmptyKeys(empties)
  }

  /** Mints the tokens "0", "1", ... one per reported parameter, records
      each with a temporary path of the right kind, and sets the parameter
      to its token. A parameter reported twice keeps the later token. */
  function AssignTemporaryFilenames(empties: seq<EmptyParam>, st: State): (r: Assignment)
    ensures AssignedFrom(empties, st, r)
    ensures |r.temps| == |empties|
  {
    if |empties| == 0 then Assignment(map[], st)
    else
      var n := |empties| - 1;
      var prev := AssignTemporaryFilenames(empties[..n], st);
      var e := empties[n];
      var r := Assignment(
        prev.temps[DecimalText(n) := TempEntry(TempPathFor(e.info, n), e.proc, e.plug, e.optional)],
        prev.state[KeyOf(e) := Temp(n)]);
      AssignStep(empties, st, prev, r);
      r
  }

  /** The step of AssignTemporaryFilenames that mints token `|empties| - 1`. */
  lemma AssignStep(empties: seq<EmptyParam>, st: State, prev: Assignment, r: Assignment)
    requires |empties| > 0
    requires AssignedFrom(empties[..|empties| - 1], st, prev)
    requires var n := |empties| - 1; var e := empties[n];
             r == Assignment(
               prev.temps[DecimalText(n) := TempEntry(TempPathFor(e.info, n), e.proc, e.plug, e.optional)],
               prev.state[KeyOf(e) := Temp(n)])
    ensures AssignedFrom(empties, st, r)
    ensures |r.temps| == |empties|
  {
    var n := |empties| - 1;
    var e := empties[n];
    MintStep(empties, prev.temps, r.temps);
    HoldStep(empties, prev.state, r.state);
    KeepStep(empties, st, prev.state, r.state);
    TokenTextsCount(|empties|);
  }

  lemma KeepStep(empties: seq<EmptyParam>, st: State, prev: State, st2: State)
    requires |empties| > 0
    requires forall k :: k !in EmptyKeys(empties[..|empties| - 1]) ==> ValueOf(prev, k) == ValueOf(st, k)
    requires prev.Keys == st.Keys + EmptyKeys(empties[..|empties| - 1])
    requires st2 == prev[KeyOf(empties[|empties| - 1]) := Temp(|empties| - 1)]
    ensures forall k :: k !in EmptyKeys(empties) ==> ValueOf(st2, k) == ValueOf(st, k)
    ensures st2.Keys == st.Keys + EmptyKeys(empties)
  {
    var n := |empties| - 1;
    assert EmptyKeys(empties) == EmptyKeys(empties[..n]) + {KeyOf(empties[n])};
  }

  lemma MintStep(empties: seq<EmptyParam>, prev: TempMap, tm: TempMap)
    requires |empties| > 0
    requires var n := |empties| - 1;
             prev.Keys == TokenTexts(n) &&
             forall i :: 0 <= i < n ==> MintedFor(prev[DecimalText(i)], empties[i], i)
    requires var n := |empties| - 1; var e := empties[n];
             tm == prev[DecimalText(n) := TempEntry(TempPathFor(e.info, n), e.proc, e.plug, e.optional)]
    ensures tm.Keys == TokenTexts(|empties|)
    ensures forall i :: 0 <= i < |empties| ==> MintedFor(tm[DecimalText(i)], empties[i], i)
  {
    var n := |empties| - 1;
    TokenIsFresh(n);
    assert TokenTexts(|empties|) == TokenTexts(n) + {DecimalText(n)};
    forall i | 0 <= i < |empties|
      ensures MintedFor(tm[DecimalText(i)], empties[i], i)
    {
      if i < n {
        assert DecimalText(i) in TokenTexts(n);
        assert tm[DecimalText(i)] == prev[DecimalText(i)];
      }
    }
  }

  lemma HoldStep(empties: seq<EmptyParam>, prev: State, st: State)
    requires |empties| > 0
    requires HoldsLastToken(prev, empties[..|empties| - 1])
    requires st == prev[KeyOf(empties[|empties| - 1]) := Temp(|empties| - 1)]
    ensures HoldsLastToken(st, empties)
  {
    var n := |empties| - 1;
    var e := empties[n];
    forall i | 0 <= i < |empties|
      ensures ValueOf(st, KeyOf(empties[i])).Temp?
      ensures i <= ValueOf(st, KeyOf(empties[i])).token < |empties|
      ensures KeyOf(empties[ValueOf(st, KeyOf(empties[i])).token]) == KeyOf(empties[i])
    {
      if KeyOf(empties[i]) != KeyOf(e) {
        assert empties[..n][i] == empties[i];
        assert ValueOf(st, KeyOf(empties[i])) == ValueOf(prev, KeyOf(empties[i]));
        var t := ValueOf(prev, KeyOf(empties[i])).token;
        assert empties[..n][t] == empties[t];
      }
    }
  }

  /** The parameters the token map records. */
  function Recorded(tm: TempMap): set<PlugKey> {
    set t | t in tm :: (tm[t].proc, tm[t].plug)
  }

  /** Sets every recorded parameter back to Undefined. */
  function RestoreEmptyFilenames(tm: TempMap, st: State): (r: State)
    ensures forall k :: k in Recorded(tm) ==> ValueOf(r, k) == Undefined
    ensures forall k :: k !in Recorded(tm) ==> ValueOf(r, k) == ValueOf(st, k)
  {
    map k | k in st.Keys + Recorded(tm) :: if k in Recorded(tm) then Undefined else st[k]
  }

  /** The token map records exactly the reported parameters. */
  lemma RecordedAreReported(empties: seq<EmptyParam>, st: State)
    ensures Recorded(AssignTemporaryFilenames(empties, st).temps) == EmptyKeys(empties)
  {
    var a := AssignTemporaryFilenames(empties, st);
    ReportedAreRecorded(empties, st, a);
    RecordedWereReported(empties, st, a);
  }

  lemma ReportedAreRecorded(empties: seq<EmptyParam>, st: State, a: Assignment)
    requires AssignedFrom(empties, st, a)
    ensures EmptyKeys(empties) <= Recorded(a.temps)
  {
    forall k | k in EmptyKeys(empties)
      ensures k in Recorded(a.temps)
    {
      var i :| 0 <= i < |empties| && KeyOf(empties[i]) == k;
      assert DecimalText(i) in TokenTexts(|empties|);
      assert MintedFor(a.temps[DecimalText(i)], empties[i], i);
    }
  }

  lemma RecordedWereReported(empties: seq<EmptyParam>, st: State, a: Assignment)
    requires AssignedFrom(empties, st, a)
    ensures Recorded(a.temps) <= EmptyKeys(empties)
  {
    forall k | k in Recorded(a.temps)
      ensures k in EmptyKeys(empties)
    {
      var t :| t in a.temps && k == (a.temps[t].proc, a.temps[t].plug);
      assert t in TokenTexts(|empties|);
      var i :| 0 <= i < |empties| && DecimalText(i) == t;
      assert MintedFor(a.temps[t], empties[i], i);
    }
  }

  /** Restoring after assigning gives back every parameter value, provided
      the reported parameters were Undefined to begin with. */
  lemma RestoreUndoesAssign(empties: seq<EmptyParam>, st: State)
    requires forall i :: 0 <= i < |empties| ==> ValueOf(st, KeyOf(empties[i])) == Undefined
    ensures var a := AssignTemporaryFilenames(empties, st);
            forall k :: ValueOf(RestoreEmptyFilenames(a.temps, a.state), k) == ValueOf(st, k)
  {
    RestoreUndoes(empties, st, AssignTemporaryFilenames(empties, st));
  }

  lemma RestoreUndoes(empties: seq<EmptyParam>, st: State, a: Assignment)
    requires AssignedFrom(empties, st, a)
    requires forall i :: 0 <= i < |empties| ==> ValueOf(st, KeyOf(empties[i])) == Undefined
    ensures forall k :: ValueOf(RestoreEmptyFilenames(a.temps, a.state), k) == ValueOf(st, k)
  {
    ReportedAreRecorded(empties, st, a);
    RecordedWereReported(empties, st, a);
  }

  /** No parameter holds a token. */
  predicate NoTokens(st: State) {
    forall k :: k in st ==> !st[k].Temp?
  }

  /** Every token a parameter holds was minted into `tm`. */
  predicate TokensMinted(st: State, tm: TempMap) {
    forall k :: k in st && st[k].Temp? ==> DecimalText(st[k].token) in tm
  }

  /** After assignment, every token in the pipeline is a key of the map. */
  lemma AssignedTokensAreMinted(empties: seq<EmptyParam>, st: State)
    requires NoTokens(st)
    ensures var a := AssignTemporaryFilenames(empties, st); TokensMinted(a.state, a.temps)
  {
    AssignedHoldMinted(empties, st, AssignTemporaryFilenames(empties, st));
  }

  lemma AssignedHoldMinted(empties: seq<EmptyParam>, st: State, a: Assignment)
    requires NoTokens(st) && AssignedFrom(empties, st, a)
    ensures TokensMinted(a.state, a.temps)
  {
    forall k | k in a.state && a.state[k].Temp?
      ensures DecimalText(a.state[k].token) in a.temps
    {
      assert ValueOf(a.state, k) == a.state[k];
      assert k in EmptyKeys(empties);
      var i :| 0 <= i < |empties| && KeyOf(empties[i]) == k;
      assert a.state[k].token < |empties|;
    }
  }

  /** `temp_subst_map`: token text to its temporary path. */
  function TempPaths(tm: TempMap): (r: map<string, TemporaryPath>)
    ensures r.Keys == tm.Keys
    ensures forall t :: t in tm ==> r[t] == tm[t].path
  {
    map t | t in tm :: tm[t].path
  }
}

=== FILE: text.dfy ===
/** String helpers: path prefixes, `os.path.join(root, '')` and the decimal
    rendering `'%d' % n` used to mint temporary tokens. */
module Text {

  /** `os.sep` on a POSIX host. */
  const Sep: char := '/'

  predicate StartsWith(s: string, prefix: string) {
    |prefix| <= |s| && s[..|prefix|] == prefix
  }

  /** Python slicing `s[n:]`: empty when `n` runs past the end. */
  function DropChars(s: string, n: nat): (r: string)
    ensures n <= |s| ==> s == s[..n] + r
    ensures n >= |s| ==> r == ""
  {
    if n <= |s| then s[n..] else ""
  }

  /** `os.path.join(root, '')`: the root followed by one separator, unless
      it is empty or already ends with a separator. */
  function JoinEmpty(root: string): (r: string)
    ensures root == "" <==> r == ""
    ensures r != "" ==> r[|r| - 1] == Sep
    ensures StartsWith(r, root) && |r| <= |root| + 1
    ensures r == root || r == root + [Sep]
    ensures root != "" && root[|root| - 1] == Sep ==> r == root
  {
    if root == "" || root[|root| - 1] == Sep then root else root + [Sep]
  }

  predicate IsDigit(c: char) {
    '0' <= c <= '9'
  }

  function Digit(d: nat): (c: char)
    requires d < 10
    ensures IsDigit(c)
  {
    ('0' as int + d) as char
  }

  function DigitValue(c: char): (d: nat)
    requires IsDigit(c)
    ensures d < 10
  {
    c as int - '0' as int
  }

  /** `'%d' % n` for a non-negative `n`. */
  function DecimalText(n: nat): (r: string)
    ensures 1 <= |r|
    ensures |r| == 1 <==> n < 10
    ensures forall i :: 0 <= i < |r| ==> IsDigit(r[i])
  {
    if n < 10 then [Digit(n)] else DecimalText(n / 10) + [Digit(n % 10)]
  }

  /** Reads a non-empty string of decimal digits back as a number. */
  function DecimalValue(s: string): nat
    requires 1 <= |s|
    requires forall i :: 0 <= i < |s| ==> IsDigit(s[i])
  {
    if |s| == 1 then DigitValue(s[0])
    else DecimalValue(s[..|s| - 1]) * 10 + DigitValue(s[|s| - 1])
  }

  /** Reading a token's text back gives the token's number. */
  lemma {:induction false} DecimalRoundTrip(n: nat)
    ensures DecimalValue(DecimalText(n)) == n
  {
    if n >= 10 {
      var t := DecimalText(n);
      assert t[..|t| - 1] == DecimalText(n / 10);
      DecimalRoundTrip(n / 10);
    }
  }

  /** Distinct counters give distinct tokens. */
  lemma DecimalTextInjective(a: nat, b: nat)
    requires DecimalText(a) == DecimalText(b)
    ensures a == b
  {
    DecimalRoundTrip(a);
    DecimalRoundTrip(b);
  }

  /** A token's text never contains the path separator. */
  lemma DecimalTextHasNoSep(n: nat)
    ensures Sep !in DecimalText(n)
  {
  }
}

=== FILE: transfers.dfy ===
/** Detection of paths under transfer roots and their propagation through
    the pipeline's link graph (`_get_transfers`, `_propagate_transfer`). */
module Transfers {
  import opened Wrappers
  import opened Text
  import opened Model

  /** Identity of a pipeline node object. */
  type NodeId = nat

  /** One entry of a plug's `links_from` or `links_to`: the node at the
      other end and the name of its plug there. */
  datatype Link = Link(node: NodeId, param: string)

  datatype Plug = Plug(enabled: bool, activated: bool, linksFrom: seq<Link>, linksTo: seq<Link>)

  /** A switch with its active branch name (`node.switch`); a node whose
      process is a leaf; or a node whose process is a pipeline, with that
      pipeline's own node `process.nodes['']`. */
  datatype NodeKind =
    | SwitchNode(active: string)
    | ProcessNode(proc: ProcId)
    | PipelineNode(proc: ProcId, inner: NodeId)

  datatype Node = Node(kind: NodeKind, enabled: bool, activated: bool, plugs: map<string, Plug>)

  type LinkGraph = map<NodeId, Node>

  predicate LinkValid(g: LinkGraph, l: Link) {
    l.node in g && l.param in g[l.node].plugs
  }

  /** Every reference in the graph resolves, as object references do: links
      name existing plugs, and a pipeline's own node is a pipeline node. */
  predicate Closed(g: LinkGraph) {
    (forall id :: id in g && g[id].kind.PipelineNode? ==>
       g[id].kind.inner in g && g[g[id].kind.inner].kind.PipelineNode?) &&
    (forall id, name, i :: id in g && name in g[id].plugs && 0 <= i < |g[id].plugs[name].linksFrom| ==>
       LinkValid(g, g[id].plugs[name].linksFrom[i])) &&
    (forall id, name, i :: id in g && name in g[id].plugs && 0 <= i < |g[id].plugs[name].linksTo| ==>
       LinkValid(g, g[id].plugs[name].linksTo[i]))
  }

  /** The processes of the leaf nodes of the graph. */
  function LeafProcs(g: LinkGraph): set<ProcId> {
    set id | id in g && g[id].kind.ProcessNode? :: g[id].kind.proc
  }

  /** `transfers[0]` (inputs) and `transfers[1]` (outputs), each indexed
      by process and then by path; flattened here to one key per pair. */
  type TransferMap = map<(ProcId, string), FileTransfer>

  datatype Transfers = Transfers(inputs: TransferMap, outputs: TransferMap)

  /** `transfers[output]`. */
  function Dir(t: Transfers, output: bool): TransferMap {
    if output then t.outputs else t.inputs
  }

  const NoTransfers := Transfers(map[], map[])

  /** `transfers[output].setdefault(proc, {})[path] = item`. */
  function Record(t: Transfers, output: bool, proc: ProcId, path: string, item: FileTransfer): (r: Transfers)
    ensures Dir(r, output) == Dir(t, output)[(proc, path) := item]
    ensures Dir(r, !output) == Dir(t, !output)
  {
    if output then t.(outputs := t.outputs[(proc, path) := item])
    else t.(inputs := t.inputs[(proc, path) := item])
  }

  /** `transfers[i].get(proc, {})`. */
  function ForProcess(m: TransferMap, proc: ProcId): (r: map<string, FileTransfer>)
    ensures forall p :: p in r <==> (proc, p) in m
    ensures forall p :: p in r ==> r[p] == m[(proc, p)]
  {
    var paths := set k | k in m && k.0 == proc :: k.1;
    map p | p in paths :: m[(proc, p)]
  }

  /** The prefix of the switch parameters of the active branch. */
  function SwitchPrefix(active: string): string {
    active + "_switch_"
  }

  /** What `_propagate_transfer` does at one node. */
  datatype Step = Stop | RecordAt(proc: ProcId) | Follow(links: seq<Link>) | Abort(error: ConversionError)

  /** A missing, disabled or deactivated plug stops propagation; otherwise
      an output follows the plug's `links_from` and an input its `links_to`. */
  function Gate(plug: Option<Plug>, output: bool): (r: Step)
    ensures r.Stop? <==> plug.None? || !plug.value.enabled || !plug.value.activated
    ensures r.Follow? ==> r.links == (if output then plug.value.linksFrom else plug.value.linksTo)
    ensures r.Stop? || r.Follow?
  {
    if plug.None? || !plug.value.enabled || !plug.value.activated then Stop
    else Follow(if output then plug.value.linksFrom else plug.value.linksTo)
  }

  /** The plug the switch consults: for an output, the active branch's
      input `<active>_switch_<param>`; for an input, the parameter name with
      as many leading characters dropped as the active prefix has. */
  function SwitchPlugName(active: string, param: string, output: bool): (name: string)
    ensures output ==> name == SwitchPrefix(active) + param
    ensures !output && StartsWith(param, SwitchPrefix(active)) ==> param == SwitchPrefix(active) + name
  {
    if output then SwitchPrefix(active) + param
    else DropChars(param, |SwitchPrefix(active)|)
  }

  /** The plug `_propagate_transfer` consults at node `id` for `param`: at
      a switch the plug named by SwitchPlugName, at a pipeline node the
      plug `param` of the pipeline's own node, at a leaf none. */
  function ConsultedPlug(g: LinkGraph, id: NodeId, param: string, output: bool): (r: Option<Plug>)
    requires Closed(g) && id in g
    ensures g[id].kind.ProcessNode? ==> r.None?
    ensures g[id].kind.SwitchNode? ==>
              var name := SwitchPlugName(g[id].kind.active, param, output);
              (r.Some? <==> name in g[id].plugs) && (r.Some? ==> r.value == g[id].plugs[name])
    ensures g[id].kind.PipelineNode? ==>
              var inner := g[g[id].kind.inner];
              (r.Some? <==> param in inner.plugs) && (r.Some? ==> r.value == inner.plugs[param])
  {
    match g[id].kind
    case SwitchNode(active) =>
      var name := SwitchPlugName(active, param, output);
      if name in g[id].plugs then Some(g[id].plugs[name]) else None
    case ProcessNode(_) => None
    case PipelineNode(_, inner) =>
      if param in g[inner].plugs then Some(g[inner].plugs[param]) else None
  }

  /** What `_propagate_transfer` does at node `id` for `param`: a leaf
      records; a switch whose consulted plug is missing raises; a plug
      that is enabled and activated is followed; anything else stops. */
  function NextStep(g: LinkGraph, id: NodeId, param: string, output: bool): (r: Step)
    requires Closed(g) && id in g
    ensures r.RecordAt? <==> g[id].kind.ProcessNode?
    ensures r.RecordAt? ==> r.proc == g[id].kind.proc
    ensures r.Abort? <==> g[id].kind.SwitchNode? && SwitchPlugName(g[id].kind.active, param, output) !in g[id].plugs
    ensures r.Abort? ==> r.error == MissingSwitchPlug(SwitchPlugName(g[id].kind.active, param, output))
    ensures g[id].kind.SwitchNode? && SwitchPlugName(g[id].kind.active, param, output) in g[id].plugs ==>
              var plug := g[id].plugs[SwitchPlugName(g[id].kind.active, param, output)];
              (r.Follow? <==> plug.enabled && plug.activated) &&
              (r.Follow? ==> r.links == (if output then plug.linksFrom else plug.linksTo))
    ensures g[id].kind.PipelineNode? ==>
              var inner := g[g[id].kind.inner];
              (r.Follow? <==> param in inner.plugs && inner.plugs[param].enabled && inner.plugs[param].activated) &&
              (r.Follow? ==> r.links == (if output then inner.plugs[param].linksFrom else inner.plugs[param].linksTo))
    ensures r.Follow? ==> forall i :: 0 <= i < |r.links| ==> LinkValid(g, r.links[i])
  {
    var plug := ConsultedPlug(g, id, param, output);
    match g[id].kind
    case SwitchNode(active) =>
      if plug.None? then Abort(MissingSwitchPlug(SwitchPlugName(active, param, output)))
      else Gate(plug, output)
    case ProcessNode(proc) => RecordAt(proc)
    case PipelineNode(_, _) => Gate(plug, output)
  }

  /** The links a plug leads along in direction `output`. */
  function PlugLinks(plug: Plug, output: bool): seq<Link> {
    if output then plug.linksFrom else plug.linksTo
  }

  /** A link the loop of `_propagate_transfer` does not skip: its node and
      its plug are both enabled and activated. */
  predicate LiveLink(g: LinkGraph, l: Link) {
    LinkValid(g, l) && g[l.node].activated && g[l.node].enabled &&
    g[l.node].plugs[l.param].activated && g[l.node].plugs[l.param].enabled
  }

  /** Leaf process `proc` is reached from node `id` and parameter `param`
      within `fuel` nested calls: `id` is its node, or the plug consulted
      at `id` is enabled and activated and one of its live links leads to
      a node from which `proc` is reached within one call fewer. */
  ghost predicate Reaches(g: LinkGraph, id: NodeId, param: string, output: bool, fuel: nat, proc: ProcId)
    requires Closed(g) && id in g
    decreases fuel, 0
  {
    fuel > 0 &&
    ((g[id].kind.ProcessNode? && g[id].kind.proc == proc) ||
     (var plug := ConsultedPlug(g, id, param, output);
      plug.Some? && plug.value.enabled && plug.value.activated &&
      ReachesVia(g, PlugLinks(plug.value, output), output, fuel - 1, proc)))
  }

  /** `proc` is reached along one of the links of `links`. */
  ghost predicate ReachesVia(g: LinkGraph, links: seq<Link>, output: bool, fuel: nat, proc: ProcId)
    requires Closed(g)
    decreases fuel, 2
  {
    exists i :: 0 <= i < |links| && ReachesAlong(g, links[i], output, fuel, proc)
  }

  /** `proc` is reached along link `l`: it is live and leads to a node
      `proc` is reached from. */
  ghost predicate ReachesAlong(g: LinkGraph, l: Link, output: bool, fuel: nat, proc: ProcId)
    requires Closed(g)
    decreases fuel, 1
  {
    LiveLink(g, l) && Reaches(g, l.node, l.param, output, fuel, proc)
  }

  /** The leaf processes reached from `id` and `param`. */
  ghost function Reached(g: LinkGraph, id: NodeId, param: string, output: bool, fuel: nat): set<ProcId>
    requires Closed(g) && id in g
  {
    set proc | proc in LeafProcs(g) && Reaches(g, id, param, output, fuel, proc)
  }

  /** The leaf processes reached along `links`. */
  ghost function ReachedVia(g: LinkGraph, links: seq<Link>, output: bool, fuel: nat): set<ProcId>
    requires Closed(g)
  {
    set proc | proc in LeafProcs(g) && ReachesVia(g, links, output, fuel, proc)
  }

  /** `t` with `item` recorded for `path` at every process of `procs`, in
      direction `output`. */
  function Stamp(t: Transfers, output: bool, path: string, item: FileTransfer, procs: set<ProcId>): (r: Transfers)
    ensures Dir(r, !output) == Dir(t, !output)
    ensures forall k :: k in Dir(r, output) <==> k in Dir(t, output) || (k.1 == path && k.0 in procs)
    ensures forall k :: k in Dir(r, output) ==>
              Dir(r, output)[k] == if k.1 == path && k.0 in procs then item else Dir(t, output)[k]
  {
    var m := Stamps(path, item, procs);
    if output then t.(outputs := t.outputs + m) else t.(inputs := t.inputs + m)
  }

  /** The entries Stamp adds. */
  function Stamps(path: string, item: FileTransfer, procs: set<ProcId>): (m: TransferMap)
    ensures forall k :: k in m <==> k.1 == path && k.0 in procs
    ensures forall k :: k in m ==> m[k] == item
  {
    map p | p in procs :: (p, path) := item
  }

  /** `r` is `t` with entries for `path`, mapped to `item`, added or
      overwritten at leaf processes, in direction `output` only. */
  predicate Grows(t: Transfers, r: Transfers, output: bool, path: string, item: FileTransfer, leaves: set<ProcId>) {
    Dir(r, !output) == Dir(t, !output) &&
    Dir(t, output).Keys <= Dir(r, output).Keys &&
    forall k :: k in Dir(r, output) ==>
      (k in Dir(t, output) && Dir(r, output)[k] == Dir(t, output)[k]) ||
      (k.1 == path && k.0 in leaves && Dir(r, output)[k] == item)
  }

  lemma GrowsTransitive(a: Transfers, b: Transfers, c: Transfers, output: bool, path: string, item: FileTransfer, leaves: set<ProcId>)
    requires Grows(a, b, output, path, item, leaves) && Grows(b, c, output, path, item, leaves)
    ensures Grows(a, c, output, path, item, leaves)
  {
  }

  /** `_propagate_transfer` from node `id` and parameter `param`. `fuel`
      bounds the recursion depth, as the interpreter's recursion limit does. */
  function PropagateNode(g: LinkGraph, id: NodeId, param: string, path: string, output: bool,
                         t: Transfers, item: FileTransfer, fuel: nat): (r: Result<Transfers, ConversionError>)
    requires Closed(g) && id in g
    ensures r.Success? ==> Grows(t, r.value, output, path, item, LeafProcs(g))
    ensures fuel > 0 && g[id].kind.ProcessNode? ==> r == Success(Record(t, output, g[id].kind.proc, path, item))
    ensures fuel > 0 && NextStep(g, id, param, output).Stop? ==> r == Success(t)
    ensures fuel == 0 ==> r == Failure(RecursionLimit)
    decreases fuel, 0
  {
    if fuel == 0 then Failure(RecursionLimit)
    else
      match NextStep(g, id, param, output)
      case Stop => Success(t)
      case Abort(e) => Failure(e)
      case RecordAt(proc) =>
        assert proc in LeafProcs(g);
        Success(Record(t, output, proc, path, item))
      case Follow(links) => PropagateLinks(g, links, path, output, t, item, fuel - 1)
  }

  /** The loop over the links of a plug: a link whose node or plug is
      disabled or deactivated is skipped. */
  function PropagateLinks(g: LinkGraph, links: seq<Link>, path: string, output: bool,
                          t: Transfers, item: FileTransfer, fuel: nat): (r: Result<Transfers, ConversionError>)
    requires Closed(g) && forall i :: 0 <= i < |links| ==> LinkValid(g, links[i])
    ensures r.Success? ==> Grows(t, r.value, output, path, item, LeafProcs(g))
    decreases fuel, 1, |links|
  {
    if |links| == 0 then Success(t)
    else
      var l := links[0];
      assert LinkValid(g, l);
      var node := g[l.node];
      var plug := node.plugs[l.param];
      if !node.activated || !node.enabled || !plug.activated || !plug.enabled then
        PropagateLinks(g, links[1..], path, output, t, item, fuel)
      else
        match PropagateNode(g, l.node, l.param, path, output, t, item, fuel)
        case Failure(e) => Failure(e)
        case Success(t1) =>
          var r := PropagateLinks(g, links[1..], path, output, t1, item, fuel);
          if r.Success? then GrowsTransitive(t, t1, r.value, output, path, item, LeafProcs(g)); r
          else r
  }

  /** Two transfer tables that agree in both directions are the same. */
  lemma SameDirs(a: Transfers, b: Transfers)
    requires Dir(a, true) == Dir(b, true) && Dir(a, false) == Dir(b, false)
    ensures a == b
  {
  }

  /** Stamping no process changes nothing. */
  lemma StampNone(t: Transfers, output: bool, path: string, item: FileTransfer)
    ensures Stamp(t, output, path, item, {}) == t
  {
    var r := Stamp(t, output, path, item, {});
    assert Dir(r, output) == Dir(t, output);
    SameDirs(r, t);
  }

  /** Stamping one process is recording at it. */
  lemma StampOne(t: Transfers, output: bool, proc: ProcId, path: string, item: FileTransfer)
    ensures Stamp(t, output, path, item, {proc}) == Record(t, output, proc, path, item)
  {
    var r, q := Stamp(t, output, path, item, {proc}), Record(t, output, proc, path, item);
    assert Dir(r, output) == Dir(q, output);
    SameDirs(r, q);
  }

  /** Stamping two sets of processes in turn stamps their union. */
  lemma StampTwice(t: Transfers, output: bool, path: string, item: FileTransfer, a: set<ProcId>, b: set<ProcId>)
    ensures Stamp(Stamp(t, output, path, item, a), output, path, item, b) == Stamp(t, output, path, item, a + b)
  {
    var ma, mb := Stamps(path, item, a), Stamps(path, item, b);
    assert ma + mb == Stamps(path, item, a + b);
    var d := Dir(t, output);
    assert (d + ma) + mb == d + (ma + mb);
  }

  /** Where the walk stops, nothing is reached. */
  lemma ReachedStop(g: LinkGraph, id: NodeId, param: string, output: bool, fuel: nat)
    requires Closed(g) && id in g && NextStep(g, id, param, output).Stop?
    ensures Reached(g, id, param, output, fuel) == {}
  {
  }

  /** From a leaf node, its process alone is reached. */
  lemma ReachedLeaf(g: LinkGraph, id: NodeId, param: string, output: bool, fuel: nat)
    requires Closed(g) && id in g && g[id].kind.ProcessNode? && fuel > 0
    ensures Reached(g, id, param, output, fuel) == {g[id].kind.proc}
  {
    assert g[id].kind.proc in LeafProcs(g);
  }

  /** Where the walk follows links, what is reached is what they reach. */
  lemma ReachedFollow(g: LinkGraph, id: NodeId, param: string, output: bool, fuel: nat)
    requires Closed(g) && id in g && NextStep(g, id, param, output).Follow? && fuel > 0
    ensures NextStep(g, id, param, output).links == PlugLinks(ConsultedPlug(g, id, param, output).value, output)
    ensures Reached(g, id, param, output, fuel) ==
            ReachedVia(g, NextStep(g, id, param, output).links, output, fuel - 1)
  {
    var plug := ConsultedPlug(g, id, param, output);
    assert !g[id].kind.ProcessNode? && plug.Some? && plug.value.enabled && plug.value.activated;
    var links := PlugLinks(plug.value, output);
    forall proc
      ensures Reaches(g, id, param, output, fuel, proc) <==> ReachesVia(g, links, output, fuel - 1, proc)
    {
    }
  }

  /** A process is reached along a sequence of links when the first link
      or the rest reach it. */
  lemma ReachesViaCons(g: LinkGraph, links: seq<Link>, output: bool, fuel: nat, proc: ProcId)
    requires Closed(g) && |links| > 0
    ensures ReachesVia(g, links, output, fuel, proc) <==>
            ReachesAlong(g, links[0], output, fuel, proc) || ReachesVia(g, links[1..], output, fuel, proc)
  {
    if ReachesVia(g, links, output, fuel, proc) {
      var i :| 0 <= i < |links| && ReachesAlong(g, links[i], output, fuel, proc);
      if i > 0 {
        assert links[1..][i - 1] == links[i];
      }
    }
    if ReachesVia(g, links[1..], output, fuel, proc) {
      var i :| 0 <= i < |links[1..]| && ReachesAlong(g, links[1..][i], output, fuel, proc);
      assert links[i + 1] == links[1..][i];
    }
  }

  /** What a sequence of links reaches: what its first link reaches, if
      live, and what the rest reach. */
  lemma ReachedViaCons(g: LinkGraph, links: seq<Link>, output: bool, fuel: nat)
    requires Closed(g) && |links| > 0 && LinkValid(g, links[0])
    ensures ReachedVia(g, links, output, fuel) ==
            (if LiveLink(g, links[0]) then Reached(g, links[0].node, links[0].param, output, fuel) else {}) +
            ReachedVia(g, links[1..], output, fuel)
  {
    forall proc
      ensures ReachesVia(g, links, output, fuel, proc) <==>
              (LiveLink(g, links[0]) && Reaches(g, links[0].node, links[0].param, output, fuel, proc)) ||
              ReachesVia(g, links[1..], output, fuel, proc)
    {
      ReachesViaCons(g, links, output, fuel, proc);
      assert ReachesAlong(g, links[0], output, fuel, proc) <==>
             LiveLink(g, links[0]) && Reaches(g, links[0].node, links[0].param, output, fuel, proc);
    }
  }

  /** A walk that succeeds records `item` for `path` at exactly the leaf
      processes reached from `id` and `param`, and changes nothing else. */
  lemma {:induction false} PropagateNodeReaches(g: LinkGraph, id: NodeId, param: string, path: string, output: bool,
                                                t: Transfers, item: FileTransfer, fuel: nat)
    requires Closed(g) && id in g
    requires PropagateNode(g, id, param, path, output, t, item, fuel).Success?
    ensures PropagateNode(g, id, param, path, output, t, item, fuel).value ==
            Stamp(t, output, path, item, Reached(g, id, param, output, fuel))
    decreases fuel, 0
  {
    if fuel == 0 {
      assert false;
    } else {
      match NextStep(g, id, param, output)
      case Stop =>
        ReachedStop(g, id, param, output, fuel);
        StampNone(t, output, path, item);
      case RecordAt(proc) =>
        ReachedLeaf(g, id, param, output, fuel);
        StampOne(t, output, proc, path, item);
      case Follow(links) =>
        ReachedFollow(g, id, param, output, fuel);
        PropagateLinksReaches(g, links, path, output, t, item, fuel - 1);
    }
  }

  /** The same along the links of a plug. */
  lemma {:induction false} PropagateLinksReaches(g: LinkGraph, links: seq<Link>, path: string, output: bool,
                                                 t: Transfers, item: FileTransfer, fuel: nat)
    requires Closed(g) && forall i :: 0 <= i < |links| ==> LinkValid(g, links[i])
    requires PropagateLinks(g, links, path, output, t, item, fuel).Success?
    ensures PropagateLinks(g, links, path, output, t, item, fuel).value ==
            Stamp(t, output, path, item, ReachedVia(g, links, output, fuel))
    decreases fuel, 1, |links|
  {
    if |links| == 0 {
      assert ReachedVia(g, links, output, fuel) == {};
      StampNone(t, output, path, item);
    } else {
      var l := links[0];
      assert LinkValid(g, l);
      ReachedViaCons(g, links, output, fuel);
      if !LiveLink(g, l) {
        assert ReachedVia(g, links, output, fuel) == ReachedVia(g, links[1..], output, fuel);
        assert PropagateLinks(g, links, path, output, t, item, fuel) == PropagateLinks(g, links[1..], path, output, t, item, fuel);
        PropagateLinksReaches(g, links[1..], path, output, t, item, fuel);
      } else {
        var t1 := PropagateNode(g, l.node, l.param, path, output, t, item, fuel).value;
        var a, b := Reached(g, l.node, l.param, output, fuel), ReachedVia(g, links[1..], output, fuel);
        PropagateNodeReaches(g, l.node, l.param, path, output, t, item, fuel);
        assert t1 == Stamp(t, output, path, item, a);
        PropagateLinksReaches(g, links[1..], path, output, t1, item, fuel);
        StampTwice(t, output, path, item, a, b);
        assert ReachedVia(g, links, output, fuel) == a + b;
        assert PropagateLinks(g, links, path, output, t, item, fuel) == PropagateLinks(g, links[1..], path, output, t1, item, fuel);
      }
    }
  }

  /** A pipeline (node 0) whose input `in` feeds the switch input
      `a_switch_x` (node 1), whose active branch `a` leads on through plug
      `x` to leaf process 7 (node 2). */
  const SwitchedGraph: LinkGraph := map[
    0 := Node(PipelineNode(1, 0), true, true, map["in" := Plug(true, true, [], [Link(1, "a_switch_x")])]),
    1 := Node(SwitchNode("a"), true, true,
              map["a_switch_x" := Plug(true, true, [], []), "x" := Plug(true, true, [], [Link(2, "in")])]),
    2 := Node(ProcessNode(7), true, true, map["in" := Plug(true, true, [], [])])]

  lemma SwitchedGraphClosed()
    ensures Closed(SwitchedGraph)
  {
    SwitchedGraphLinksFrom();
    SwitchedGraphLinksTo();
  }

  lemma SwitchedGraphLinksFrom()
    ensures forall id, name | id in SwitchedGraph && name in SwitchedGraph[id].plugs ::
              SwitchedGraph[id].plugs[name].linksFrom == []
  {
    var g := SwitchedGraph;
    assert g.Keys == {0, 1, 2};
  }

  lemma SwitchedGraphLinksTo()
    ensures forall id, name, i | id in SwitchedGraph && name in SwitchedGraph[id].plugs &&
                                 0 <= i < |SwitchedGraph[id].plugs[name].linksTo| ::
              LinkValid(SwitchedGraph, SwitchedGraph[id].plugs[name].linksTo[i])
  {
    var g := SwitchedGraph;
    assert g.Keys == {0, 1, 2};
    assert LinkValid(g, Link(1, "a_switch_x")) && LinkValid(g, Link(2, "in"));
  }

  /** Propagating the pipeline input of SwitchedGraph crosses the switch
      and records at the leaf process behind it, which is all it reaches. */
  lemma SwitchedGraphReachesLeaf(path: string)
    ensures Closed(SwitchedGraph)
    ensures var item := TransferItem(path, false);
            PropagateNode(SwitchedGraph, 0, "in", path, false, NoTransfers, item, 3) ==
            Success(Transfers(map[(7, path) := item], map[]))
  {
    var g := SwitchedGraph;
    SwitchedGraphClosed();
    var item := TransferItem(path, false);
    assert SwitchPrefix("a") == "a_switch_";
    assert "a_switch_x"[9..] == "x";
    assert SwitchPlugName("a", "a_switch_x", false) == "x";
    var t := Record(NoTransfers, false, 7, path, item);
    assert PropagateNode(g, 2, "in", path, false, NoTransfers, item, 1) == Success(t);
    assert PropagateLinks(g, [Link(2, "in")], path, false, NoTransfers, item, 1) == Success(t);
    assert PropagateNode(g, 1, "a_switch_x", path, false, NoTransfers, item, 2) == Success(t);
    assert PropagateLinks(g, [Link(1, "a_switch_x")], path, false, NoTransfers, item, 2) == Success(t);
    assert t == Transfers(map[(7, path) := item], map[]);
  }

  /** `path.startswith(os.path.join(root, ''))`, spelled out: `path`
      extends `root`, followed by a separator unless `root` is empty or
      already ends with one (UnderJoinedRoot shows the two agree). */
  predicate UnderTransferRoot(path: string, root: string) {
    StartsWith(path, root) &&
    (root == "" || root[|root| - 1] == Sep || (|root| < |path| && path[|root|] == Sep))
  }

  lemma UnderJoinedRoot(path: string, root: string)
    ensures UnderTransferRoot(path, root) <==> StartsWith(path, JoinEmpty(root))
  {
    if !(root == "" || root[|root| - 1] == Sep) {
      var r := JoinEmpty(root);
      assert r == root + [Sep];
      if StartsWith(path, r) {
        assert path[..|root|] == r[..|root|];
        assert path[|root|] == r[|root|];
      }
      if UnderTransferRoot(path, root) {
        assert path[..|r|] == path[..|root|] + [path[|root|]];
      }
    }
  }

  /** The first transfer root, in list order from position `i`, that
      `path` lies under. */
  function FirstTransferRootFrom(path: string, roots: seq<string>, i: nat): (r: Option<nat>)
    requires i <= |roots|
    ensures r.Some? ==> i <= r.value < |roots| && UnderTransferRoot(path, roots[r.value]) &&
                        forall j :: i <= j < r.value ==> !UnderTransferRoot(path, roots[j])
    ensures r.None? <==> forall j :: i <= j < |roots| ==> !UnderTransferRoot(path, roots[j])
    decreases |roots| - i
  {
    if i == |roots| then None
    else if UnderTransferRoot(path, roots[i]) then Some(i)
    else FirstTransferRootFrom(path, roots, i + 1)
  }

  /** The loop `for tpath in transfer_paths` with its `break`. */
  function FirstTransferRoot(path: string, roots: seq<string>): (r: Option<nat>)
    ensures r.Some? ==> r.value < |roots| && UnderTransferRoot(path, roots[r.value]) &&
                        forall j :: 0 <= j < r.value ==> !UnderTransferRoot(path, roots[j])
    ensures r.None? <==> forall j :: 0 <= j < |roots| ==> !UnderTransferRoot(path, roots[j])
  {
    FirstTransferRootFrom(path, roots, 0)
  }

  /** `FileTransfer(not output, path, _files_group(path))`: the transfer
      is an input exactly when the parameter is not an output, and its
      file group is the path alone. */
  function TransferItem(path: string, output: bool): FileTransfer {
    FileTransfer(!output, path, [path])
  }

  /** The value of pipeline parameter `p`, as a path. */
  function ParamPath(pid: ProcId, p: Param, st: State): Option<string> {
    PathText(ValueOf(st, (pid, p.name)))
  }

  /** Pipeline parameter `p` is a File or Directory whose defined value
      lies under one of the transfer roots. */
  predicate Transferable(pid: ProcId, p: Param, st: State, roots: seq<string>) {
    IsPathTrait(p.info) && ParamPath(pid, p, st).Some? &&
    FirstTransferRoot(ParamPath(pid, p, st).value, roots).Some?
  }

  /** Every entry is the transfer item of its own path and direction. */
  predicate WellShaped(t: Transfers) {
    forall o: bool, k :: k in Dir(t, o) ==> Dir(t, o)[k] == TransferItem(k.1, o)
  }

  /** Every entry belongs to the pipeline or to a leaf process, and its
      path is the value of a transferable pipeline parameter of the same
      direction. */
  predicate FromParams(t: Transfers, pid: ProcId, params: seq<Param>, st: State, roots: seq<string>, leaves: set<ProcId>) {
    forall o: bool, k :: k in Dir(t, o) ==>
      (k.0 == pid || k.0 in leaves) &&
      exists i :: 0 <= i < |params| && Transferable(pid, params[i], st, roots) &&
                  params[i].info.output == o && ParamPath(pid, params[i], st).value == k.1
  }

  /** The loop of `_get_transfers` from parameter `i` on. */
  function TransfersFrom(pid: ProcId, params: seq<Param>, st: State, node: NodeId, g: LinkGraph,
                         roots: seq<string>, fuel: nat, i: nat, t: Transfers): (r: Result<Transfers, ConversionError>)
    requires Closed(g) && node in g && i <= |params|
    requires WellShaped(t) && FromParams(t, pid, params, st, roots, LeafProcs(g))
    ensures r.Success? ==> forall o: bool :: Dir(t, o).Keys <= Dir(r.value, o).Keys
    ensures r.Success? ==> forall j :: i <= j < |params| && Transferable(pid, params[j], st, roots) ==>
              (pid, ParamPath(pid, params[j], st).value) in Dir(r.value, params[j].info.output)
    ensures r.Success? ==> WellShaped(r.value) && FromParams(r.value, pid, params, st, roots, LeafProcs(g))
    decreases |params| - i
  {
    if i == |params| then Success(t)
    else
      var p := params[i];
      if !Transferable(pid, p, st, roots) then TransfersFrom(pid, params, st, node, g, roots, fuel, i + 1, t)
      else
        var path := ParamPath(pid, p, st).value;
        var output := p.info.output;
        var item := TransferItem(path, output);
        var t1 := Record(t, output, pid, path, item);
        match PropagateNode(g, node, p.name, path, output, t1, item, fuel)
        case Failure(e) => Failure(e)
        case Success(t2) =>
          RecordKeepsInvariant(t, t1, t2, pid, params, st, roots, LeafProcs(g), i);
          var r := TransfersFrom(pid, params, st, node, g, roots, fuel, i + 1, t2);
          TransfersStep(t, t2, r, pid, params, st, roots, i);
          r
  }

  lemma RecordKeepsInvariant(t: Transfers, t1: Transfers, t2: Transfers, pid: ProcId, params: seq<Param>,
                             st: State, roots: seq<string>, leaves: set<ProcId>, i: nat)
    requires i < |params| && Transferable(pid, params[i], st, roots)
    requires WellShaped(t) && FromParams(t, pid, params, st, roots, leaves)
    requires var path := ParamPath(pid, params[i], st).value; var output := params[i].info.output;
             t1 == Record(t, output, pid, path, TransferItem(path, output)) &&
             Grows(t1, t2, output, path, TransferItem(path, output), leaves)
    ensures WellShaped(t2) && FromParams(t2, pid, params, st, roots, leaves)
    ensures forall o: bool :: Dir(t, o).Keys <= Dir(t2, o).Keys
    ensures (pid, ParamPath(pid, params[i], st).value) in Dir(t2, params[i].info.output)
  {
    var path := ParamPath(pid, params[i], st).value;
    var output := params[i].info.output;
    forall o: bool, k | k in Dir(t2, o)
      ensures Dir(t2, o)[k] == TransferItem(k.1, o)
      ensures (k.0 == pid || k.0 in leaves) &&
              exists j :: 0 <= j < |params| && Transferable(pid, params[j], st, roots) &&
                          params[j].info.output == o && ParamPath(pid, params[j], st).value == k.1
    {
      if o == output && k.1 == path && Dir(t2, o)[k] == TransferItem(path, output) && (k.0 == pid || k.0 in leaves) {
        assert params[i].info.output == o && ParamPath(pid, params[i], st).value == k.1;
      } else {
        assert k in Dir(t, o) && Dir(t2, o)[k] == Dir(t, o)[k];
      }
    }
  }

  lemma TransfersStep(t: Transfers, t2: Transfers, r: Result<Transfers, ConversionError>, pid: ProcId,
                      params: seq<Param>, st: State, roots: seq<string>, i: nat)
    requires i < |params| && Transferable(pid, params[i], st, roots)
    requires forall o: bool :: Dir(t, o).Keys <= Dir(t2, o).Keys
    requires (pid, ParamPath(pid, params[i], st).value) in Dir(t2, params[i].info.output)
    requires r.Success? ==> forall o: bool :: Dir(t2, o).Keys <= Dir(r.value, o).Keys
    requires r.Success? ==> forall j :: i + 1 <= j < |params| && Transferable(pid, params[j], st, roots) ==>
               (pid, ParamPath(pid, params[j], st).value) in Dir(r.value, params[j].info.output)
    ensures r.Success? ==> forall o: bool :: Dir(t, o).Keys <= Dir(r.value, o).Keys
    ensures r.Success? ==> forall j :: i <= j < |params| && Transferable(pid, params[j], st, roots) ==>
              (pid, ParamPath(pid, params[j], st).value) in Dir(r.value, params[j].info.output)
  {
    if r.Success? {
      var o := params[i].info.output;
      assert Dir(t2, o).Keys <= Dir(r.value, o).Keys;
    }
  }

  /** Entry `k` of direction `o` is due to a parameter from position `i`
      on: a transferable parameter of that direction whose path is `k.1`,
      recorded for the pipeline itself or for a leaf process its walk
      reaches. */
  ghost predicate Due(pid: ProcId, params: seq<Param>, st: State, node: NodeId, g: LinkGraph,
                      roots: seq<string>, fuel: nat, i: nat, o: bool, k: (ProcId, string))
    requires Closed(g) && node in g
  {
    exists j :: i <= j < |params| && DueTo(pid, params[j], st, node, g, roots, fuel, o, k)
  }

  /** Entry `k` of direction `o` is due to parameter `p`. */
  ghost predicate DueTo(pid: ProcId, p: Param, st: State, node: NodeId, g: LinkGraph,
                        roots: seq<string>, fuel: nat, o: bool, k: (ProcId, string))
    requires Closed(g) && node in g
  {
    Transferable(pid, p, st, roots) && p.info.output == o && ParamPath(pid, p, st).value == k.1 &&
    (k.0 == pid || k.0 in Reached(g, node, p.name, o, fuel))
  }

  /** What is due from position `i` on: what parameter `i` brings, and
      what is due from the next position. */
  lemma DueStep(pid: ProcId, params: seq<Param>, st: State, node: NodeId, g: LinkGraph,
                roots: seq<string>, fuel: nat, i: nat, o: bool, k: (ProcId, string))
    requires Closed(g) && node in g && i < |params|
    ensures Due(pid, params, st, node, g, roots, fuel, i, o, k) <==>
            DueTo(pid, params[i], st, node, g, roots, fuel, o, k) || Due(pid, params, st, node, g, roots, fuel, i + 1, o, k)
  {
    if Due(pid, params, st, node, g, roots, fuel, i, o, k) {
      var j :| i <= j < |params| && DueTo(pid, params[j], st, node, g, roots, fuel, o, k);
      if j > i {
        assert Due(pid, params, st, node, g, roots, fuel, i + 1, o, k);
      }
    }
  }

  /** After recording at the pipeline and walking, an entry is present
      when it was before, or is for this path at the pipeline or at a
      reached process. */
  lemma DirsAfterWalk(t: Transfers, t2: Transfers, output: bool, pid: ProcId, path: string, item: FileTransfer,
                      reached: set<ProcId>, o: bool, k: (ProcId, string))
    requires t2 == Stamp(Record(t, output, pid, path, item), output, path, item, reached)
    ensures k in Dir(t2, o) <==> k in Dir(t, o) || (o == output && k.1 == path && (k.0 == pid || k.0 in reached))
  {
  }

  /** One transferable parameter: what is due from `i` on is what it
      brings to `t` on top of what is due from `i + 1` on. */
  lemma ExactStep(pid: ProcId, params: seq<Param>, st: State, node: NodeId, g: LinkGraph,
                  roots: seq<string>, fuel: nat, i: nat, t: Transfers, t2: Transfers, r: Transfers)
    requires Closed(g) && node in g && i < |params| && Transferable(pid, params[i], st, roots)
    requires var path := ParamPath(pid, params[i], st).value; var output := params[i].info.output;
             t2 == Stamp(Record(t, output, pid, path, TransferItem(path, output)), output, path, TransferItem(path, output),
                         Reached(g, node, params[i].name, output, fuel))
    requires forall o: bool, k :: k in Dir(r, o) <==> k in Dir(t2, o) || Due(pid, params, st, node, g, roots, fuel, i + 1, o, k)
    ensures forall o: bool, k :: k in Dir(r, o) <==> k in Dir(t, o) || Due(pid, params, st, node, g, roots, fuel, i, o, k)
  {
    var p := params[i];
    var path, output := ParamPath(pid, p, st).value, p.info.output;
    var reached := Reached(g, node, p.name, output, fuel);
    forall o: bool, k
      ensures k in Dir(r, o) <==> k in Dir(t, o) || Due(pid, params, st, node, g, roots, fuel, i, o, k)
    {
      DueStep(pid, params, st, node, g, roots, fuel, i, o, k);
      DirsAfterWalk(t, t2, output, pid, path, TransferItem(path, output), reached, o, k);
      assert k in Dir(r, o) <==> k in Dir(t2, o) || Due(pid, params, st, node, g, roots, fuel, i + 1, o, k);
      assert DueTo(pid, p, st, node, g, roots, fuel, o, k) <==> o == output && k.1 == path && (k.0 == pid || k.0 in reached);
    }
  }

  /** The loop of `_get_transfers` adds exactly the entries due from
      position `i` on. */
  lemma {:induction false} TransfersFromExact(pid: ProcId, params: seq<Param>, st: State, node: NodeId, g: LinkGraph,
                                              roots: seq<string>, fuel: nat, i: nat, t: Transfers)
    requires Closed(g) && node in g && i <= |params|
    requires WellShaped(t) && FromParams(t, pid, params, st, roots, LeafProcs(g))
    requires TransfersFrom(pid, params, st, node, g, roots, fuel, i, t).Success?
    ensures var r := TransfersFrom(pid, params, st, node, g, roots, fuel, i, t).value;
            forall o: bool, k :: k in Dir(r, o) <==> k in Dir(t, o) || Due(pid, params, st, node, g, roots, fuel, i, o, k)
    decreases |params| - i
  {
    var r := TransfersFrom(pid, params, st, node, g, roots, fuel, i, t).value;
    if i == |params| {
      assert r == t;
    } else {
      var p := params[i];
      if !Transferable(pid, p, st, roots) {
        TransfersFromExact(pid, params, st, node, g, roots, fuel, i + 1, t);
        forall o: bool, k
          ensures Due(pid, params, st, node, g, roots, fuel, i, o, k) <==> Due(pid, params, st, node, g, roots, fuel, i + 1, o, k)
        {
          DueStep(pid, params, st, node, g, roots, fuel, i, o, k);
        }
      } else {
        var path := ParamPath(pid, p, st).value;
        var output := p.info.output;
        var item := TransferItem(path, output);
        var t1 := Record(t, output, pid, path, item);
        var t2 := PropagateNode(g, node, p.name, path, output, t1, item, fuel).value;
        var reached := Reached(g, node, p.name, output, fuel);
        PropagateNodeReaches(g, node, p.name, path, output, t1, item, fuel);
        assert t2 == Stamp(t1, output, path, item, reached);
        RecordKeepsInvariant(t, t1, t2, pid, params, st, roots, LeafProcs(g), i);
        TransfersFromExact(pid, params, st, node, g, roots, fuel, i + 1, t2);
        assert r == TransfersFrom(pid, params, st, node, g, roots, fuel, i + 1, t2).value;
        ExactStep(pid, params, st, node, g, roots, fuel, i, t, t2, r);
      }
    }
  }

  /** `_get_transfers`: the input and output transfers of every
      transferable pipeline parameter, recorded for the pipeline and
      propagated from its own node. */
  function GetTransfers(pid: ProcId, params: seq<Param>, st: State, node: NodeId, g: LinkGraph,
                        roots: seq<string>, fuel: nat): (r: Result<Transfers, ConversionError>)
    requires Closed(g) && node in g
    ensures r.Success? ==> WellShaped(r.value) && FromParams(r.value, pid, params, st, roots, LeafProcs(g))
    ensures r.Success? ==> forall j :: 0 <= j < |params| && Transferable(pid, params[j], st, roots) ==>
              (pid, ParamPath(pid, params[j], st).value) in Dir(r.value, params[j].info.output)
    ensures r.Success? ==> forall o: bool, k :: k in Dir(r.value, o) <==> Due(pid, params, st, node, g, roots, fuel, 0, o, k)
  {
    var r := TransfersFrom(pid, params, st, node, g, roots, fuel, 0, NoTransfers);
    if r.Success? then TransfersFromExact(pid, params, st, node, g, roots, fuel, 0, NoTransfers); r else r
  }

  /** A File or Directory parameter whose value is neither None nor
      Undefined: `_get_transfers` goes on to loop over the transfer roots
      for it. */
  predicate ValuedPath(pid: ProcId, p: Param, st: State) {
    IsPathTrait(p.info) && ParamPath(pid, p, st).Some?
  }

  /** The first parameter from position `i` on that reaches the loop over
      the transfer roots. */
  function FirstValuedPath(pid: ProcId, params: seq<Param>, st: State, i: nat): (r: Option<nat>)
    requires i <= |params|
    ensures r.Some? ==> i <= r.value < |params| && ValuedPath(pid, params[r.value], st) &&
                        forall j :: i <= j < r.value ==> !ValuedPath(pid, params[j], st)
    ensures r.None? <==> forall j :: i <= j < |params| ==> !ValuedPath(pid, params[j], st)
    decreases |params| - i
  {
    if i == |params| then None
    else if ValuedPath(pid, params[i], st) then Some(i)
    else FirstValuedPath(pid, params, st, i + 1)
  }

  /** `_get_transfers` with the transfer roots as the configuration gives
      them. None is not iterable: the first parameter that reaches the loop
      over the roots (line 268) raises TypeError, before any transfer is
      recorded; without such a parameter the loop is never reached. */
  function ConfiguredTransfers(pid: ProcId, params: seq<Param>, st: State, node: NodeId, g: LinkGraph,
                               roots: Option<seq<string>>, fuel: nat): (r: Result<Transfers, ConversionError>)
    requires Closed(g) && node in g
    ensures roots.Some? ==> r == GetTransfers(pid, params, st, node, g, roots.value, fuel)
    ensures roots.None? ==> (r.Failure? <==> exists j :: 0 <= j < |params| && ValuedPath(pid, params[j], st))
    ensures roots.None? && r.Failure? ==> r.error == NotIterable
    ensures roots.None? && r.Success? ==> r.value == NoTransfers
  {
    match roots
    case Some(rs) => GetTransfers(pid, params, st, node, g, rs, fuel)
    case None => if FirstValuedPath(pid, params, st, 0).Some? then Failure(NotIterable) else Success(NoTransfers)
  }

  lemma {:induction false} NoRootsFrom(pid: ProcId, params: seq<Param>, st: State, node: NodeId, g: LinkGraph,
                                       fuel: nat, i: nat)
    requires Closed(g) && node in g && i <= |params|
    ensures TransfersFrom(pid, params, st, node, g, [], fuel, i, NoTransfers) == Success(NoTransfers)
    decreases |params| - i
  {
    if i < |params| {
      assert !Transferable(pid, params[i], st, []);
      NoRootsFrom(pid, params, st, node, g, fuel, i + 1);
    }
  }

  /** An empty list of roots records nothing; roots set to None differ
      from it exactly when some File or Directory parameter has a value. */
  lemma NoneRootsVersusEmpty(pid: ProcId, params: seq<Param>, st: State, node: NodeId, g: LinkGraph, fuel: nat)
    requires Closed(g) && node in g
    ensures GetTransfers(pid, params, st, node, g, [], fuel) == Success(NoTransfers)
    ensures ConfiguredTransfers(pid, params, st, node, g, None, fuel) == GetTransfers(pid, params, st, node, g, [], fuel) <==>
            forall j :: 0 <= j < |params| ==> !ValuedPath(pid, params[j], st)
  {
    NoRootsFrom(pid, params, st, node, g, fuel, 0);
  }

  /** Two root lists with the same members classify every path alike. */
  lemma SameRootsSameMatch(path: string, roots1: seq<string>, roots2: seq<string>)
    requires forall x :: x in roots1 <==> x in roots2
    ensures FirstTransferRoot(path, roots1).Some? <==> FirstTransferRoot(path, roots2).Some?
  {
    if FirstTransferRoot(path, roots1).Some? {
      var j := FirstTransferRoot(path, roots1).value;
      assert roots1[j] in roots2;
      var k :| 0 <= k < |roots2| && roots2[k] == roots1[j];
      assert UnderTransferRoot(path, roots2[k]);
    }
    if FirstTransferRoot(path, roots2).Some? {
      var j := FirstTransferRoot(path, roots2).value;
      assert roots2[j] in roots1;
      var k :| 0 <= k < |roots1| && roots1[k] == roots2[j];
      assert UnderTransferRoot(path, roots1[k]);
    }
  }

  lemma {:induction false} TransfersFromRootOrder(pid: ProcId, params: seq<Param>, st: State, node: NodeId, g: LinkGraph,
                                                  roots1: seq<string>, roots2: seq<string>, fuel: nat, i: nat, t: Transfers)
    requires Closed(g) && node in g && i <= |params|
    requires WellShaped(t) && FromParams(t, pid, params, st, roots1, LeafProcs(g)) && FromParams(t, pid, params, st, roots2, LeafProcs(g))
    requires forall x :: x in roots1 <==> x in roots2
    ensures TransfersFrom(pid, params, st, node, g, roots1, fuel, i, t) == TransfersFrom(pid, params, st, node, g, roots2, fuel, i, t)
    decreases |params| - i
  {
    if i < |params| {
      var p := params[i];
      if ParamPath(pid, p, st).Some? {
        SameRootsSameMatch(ParamPath(pid, p, st).value, roots1, roots2);
      }
      if Transferable(pid, p, st, roots1) {
        var path := ParamPath(pid, p, st).value;
        var output := p.info.output;
        var item := TransferItem(path, output);
        var t1 := Record(t, output, pid, path, item);
        var r := PropagateNode(g, node, p.name, path, output, t1, item, fuel);
        if r.Success? {
          RecordKeepsInvariant(t, t1, r.value, pid, params, st, roots1, LeafProcs(g), i);
          RecordKeepsInvariant(t, t1, r.value, pid, params, st, roots2, LeafProcs(g), i);
          TransfersFromRootOrder(pid, params, st, node, g, roots1, roots2, fuel, i + 1, r.value);
        }
      } else {
        TransfersFromRootOrder(pid, params, st, node, g, roots1, roots2, fuel, i + 1, t);
      }
    }
  }

  /** Only whether a path lies under some transfer root matters: the
      order of the roots, and which of several matching roots comes first,
      does not change the transfers. */
  lemma TransferRootOrderIrrelevant(pid: ProcId, params: seq<Param>, st: State, node: NodeId, g: LinkGraph,
                                    roots1: seq<string>, roots2: seq<string>, fuel: nat)
    requires Closed(g) && node in g
    requires forall x :: x in roots1 <==> x in roots2
    ensures GetTransfers(pid, params, st, node, g, roots1, fuel) == GetTransfers(pid, params, st, node, g, roots2, fuel)
  {
    TransfersFromRootOrder(pid, params, st, node, g, roots1, roots2, fuel, 0, NoTransfers);
  }

  /** `g2` is `g` with plug `q` of switch `s` changed, added or removed,
      where `q` is not a parameter of the active branch. */
  predicate OnlyInactivePlugDiffers(g: LinkGraph, g2: LinkGraph, s: NodeId, q: string) {
    s in g && s in g2 && g[s].kind.SwitchNode? &&
    !StartsWith(q, SwitchPrefix(g[s].kind.active)) &&
    g2 == g[s := g[s].(plugs := g2[s].plugs)] &&
    g2[s].plugs - {q} == g[s].plugs - {q}
  }

  /** No plug of `g` lists `(s, q)` among its `links_from`: `q` is an
      input plug, never the source of a link. */
  predicate NeverSource(g: LinkGraph, s: NodeId, q: string) {
    forall id, name, i :: id in g && name in g[id].plugs && 0 <= i < |g[id].plugs[name].linksFrom| ==>
      g[id].plugs[name].linksFrom[i] != Link(s, q)
  }

  lemma SameStep(g: LinkGraph, g2: LinkGraph, s: NodeId, q: string, id: NodeId, param: string)
    requires Closed(g) && Closed(g2) && id in g && OnlyInactivePlugDiffers(g, g2, s, q)
    ensures id in g2 && NextStep(g, id, param, true) == NextStep(g2, id, param, true)
  {
    if id == s {
      SameStepAtSwitch(g, g2, s, q, param);
    } else {
      SameStepElsewhere(g, g2, s, q, id, param);
    }
  }

  lemma SameStepAtSwitch(g: LinkGraph, g2: LinkGraph, s: NodeId, q: string, param: string)
    requires Closed(g) && Closed(g2) && OnlyInactivePlugDiffers(g, g2, s, q)
    ensures NextStep(g, s, param, true) == NextStep(g2, s, param, true)
  {
    var name := SwitchPlugName(g[s].kind.active, param, true);
    assert StartsWith(name, SwitchPrefix(g[s].kind.active));
    assert g2[s].kind == g[s].kind;
    PlugLookupAgrees(g[s].plugs, g2[s].plugs, q, name);
  }

  lemma SameStepElsewhere(g: LinkGraph, g2: LinkGraph, s: NodeId, q: string, id: NodeId, param: string)
    requires Closed(g) && Closed(g2) && id in g && id != s && OnlyInactivePlugDiffers(g, g2, s, q)
    ensures id in g2 && NextStep(g, id, param, true) == NextStep(g2, id, param, true)
  {
    UntouchedNodes(g, g2, s, q, id);
    SameNodeSameStep(g, g2, id, param);
  }

  /** Nodes other than the switch are the same in both graphs. */
  lemma UntouchedNodes(g: LinkGraph, g2: LinkGraph, s: NodeId, q: string, id: NodeId)
    requires id in g && id != s && OnlyInactivePlugDiffers(g, g2, s, q)
    requires g[id].kind.PipelineNode? ==> g[id].kind.inner in g && g[g[id].kind.inner].kind.PipelineNode?
    ensures id in g2 && g2[id] == g[id]
    ensures g[id].kind.PipelineNode? ==> g2[g[id].kind.inner] == g[g[id].kind.inner]
  {
  }

  /** The step at a node depends only on the node and, for a pipeline
      node, on its inner node. */
  lemma SameNodeSameStep(g: LinkGraph, g2: LinkGraph, id: NodeId, param: string)
    requires Closed(g) && Closed(g2) && id in g && id in g2 && g2[id] == g[id]
    requires g[id].kind.PipelineNode? ==> g2[g[id].kind.inner] == g[g[id].kind.inner]
    ensures NextStep(g, id, param, true) == NextStep(g2, id, param, true)
  {
    match g[id].kind
    case SwitchNode(_) =>
    case ProcessNode(_) =>
    case PipelineNode(_, inner) =>
      assert g2[inner].plugs == g[inner].plugs;
  }

  /** Plug maps that differ at most at `q` agree on every other name. */
  lemma PlugLookupAgrees(a: map<string, Plug>, b: map<string, Plug>, q: string, name: string)
    requires a - {q} == b - {q} && name != q
    ensures name in a <==> name in b
    ensures name in a ==> a[name] == b[name]
  {
    assert name in a <==> name in a - {q};
    assert name in b <==> name in b - {q};
    if name in a {
      assert a[name] == (a - {q})[name];
      assert b[name] == (b - {q})[name];
    }
  }

  lemma {:induction false} InactiveBranchNode(g: LinkGraph, g2: LinkGraph, s: NodeId, q: string, id: NodeId, param: string,
                                              path: string, t: Transfers, item: FileTransfer, fuel: nat)
    requires Closed(g) && Closed(g2) && id in g && OnlyInactivePlugDiffers(g, g2, s, q)
    requires NeverSource(g, s, q)
    ensures id in g2
    ensures PropagateNode(g, id, param, path, true, t, item, fuel) == PropagateNode(g2, id, param, path, true, t, item, fuel)
    decreases fuel, 0
  {
    SameStep(g, g2, s, q, id, param);
    if fuel > 0 {
      var step := NextStep(g, id, param, true);
      if step.Follow? {
        FollowedAreNotSource(g, s, q, id, param);
        assert step == NextStep(g2, id, param, true);
        InactiveBranchLinks(g, g2, s, q, step.links, path, t, item, fuel - 1);
      }
    }
  }

  /** The links a plug forwards to never lead to an input-only plug. */
  lemma FollowedAreNotSource(g: LinkGraph, s: NodeId, q: string, id: NodeId, param: string)
    requires Closed(g) && id in g && NeverSource(g, s, q)
    ensures NextStep(g, id, param, true).Follow? ==>
      forall i :: 0 <= i < |NextStep(g, id, param, true).links| ==> NextStep(g, id, param, true).links[i] != Link(s, q)
  {
    var step := NextStep(g, id, param, true);
    if step.Follow? {
      var pid, pname;
      if g[id].kind.SwitchNode? {
        pid, pname := id, SwitchPlugName(g[id].kind.active, param, true);
      } else {
        pid, pname := g[id].kind.inner, param;
      }
      assert step.links == g[pid].plugs[pname].linksFrom;
    }
  }

  lemma {:induction false} InactiveBranchLinks(g: LinkGraph, g2: LinkGraph, s: NodeId, q: string, links: seq<Link>,
                                               path: string, t: Transfers, item: FileTransfer, fuel: nat)
    requires Closed(g) && Closed(g2) && OnlyInactivePlugDiffers(g, g2, s, q)
    requires NeverSource(g, s, q)
    requires forall i :: 0 <= i < |links| ==> LinkValid(g, links[i]) && LinkValid(g2, links[i]) && links[i] != Link(s, q)
    ensures PropagateLinks(g, links, path, true, t, item, fuel) == PropagateLinks(g2, links, path, true, t, item, fuel)
    decreases fuel, 1, |links|
  {
    if |links| > 0 {
      var l := links[0];
      LinkedPlugAgrees(g, g2, s, q, l);
      InactiveBranchNode(g, g2, s, q, l.node, l.param, path, t, item, fuel);
      var r := PropagateNode(g, l.node, l.param, path, true, t, item, fuel);
      if r.Success? {
        InactiveBranchLinks(g, g2, s, q, links[1..], path, r.value, item, fuel);
      }
      InactiveBranchLinks(g, g2, s, q, links[1..], path, t, item, fuel);
    }
  }

  /** A linked plug other than `(s, q)` is the same in both graphs, and so
      is its node's state. */
  lemma LinkedPlugAgrees(g: LinkGraph, g2: LinkGraph, s: NodeId, q: string, l: Link)
    requires OnlyInactivePlugDiffers(g, g2, s, q)
    requires LinkValid(g, l) && l != Link(s, q)
    ensures l.node in g2 && g2[l.node].activated == g[l.node].activated && g2[l.node].enabled == g[l.node].enabled
    ensures l.param in g2[l.node].plugs && g2[l.node].plugs[l.param] == g[l.node].plugs[l.param]
  {
    if l.node == s {
      PlugLookupAgrees(g[s].plugs, g2[s].plugs, q, l.param);
    }
  }
}

=== FILE: workflow.dfy ===
/** The top level, `workflow_from_pipeline`: mint temporary tokens, read the
    configuration, detect the transfers, flatten the structural graph into
    jobs, groups and dependencies, put the parameters back, and wrap the
    result as a workflow named after the pipeline. */
module PipelineWorkflow {
  import opened Wrappers
  import opened Text
  import opened Model
  import opened SharedPaths
  import opened Temporaries
  import opened Config
  import opened Transfers
  import opened Jobs
  import opened GraphConversion
  import opened Closure

  /** What the conversion reads from the pipeline object: its own identity,
      name and parameters; its node in the link graph (`pipeline_node`)
      and that graph; what `find_empty_parameters()` reports; and the
      structural graph `workflow_graph()` returns. */
  datatype Pipeline = Pipeline(
    id: ProcId,
    name: string,
    params: seq<Param>,
    node: NodeId,
    links: LinkGraph,
    empties: seq<EmptyParam>,
    structure: SGraph)

  /** The workflow, or the exception that escaped, together with the
      parameter values the call leaves behind. */
  datatype Outcome = Outcome(result: Result<Workflow, ConversionError>, state: State)

  /** The transfers of the pipeline, detected once the tokens are in place. */
  function PipelineTransfers(p: Pipeline, config: StudyConfig, st: State, fuel: nat): Result<Transfers, ConversionError>
    requires Closed(p.links) && p.node in p.links
  {
    ConfiguredTransfers(p.id, p.params, AssignTemporaryFilenames(p.empties, st).state, p.node, p.links,
                        GetSwfPaths(config).transferPaths, fuel)
  }

  /** Every handle of the workflow names one of its jobs or groups. */
  ghost predicate Resolved(w: Workflow) {
    (forall e :: e in w.dependencies ==> NamedBy(e.0, w.jobs.Keys, w.groups.Keys) && NamedBy(e.1, w.jobs.Keys, w.groups.Keys)) &&
    (forall i :: 0 <= i < |w.roots| ==> NamedBy(w.roots[i], w.jobs.Keys, w.groups.Keys)) &&
    (forall gid, h :: gid in w.groups && h in w.groups[gid].members ==> NamedBy(h, w.jobs.Keys, w.groups.Keys))
  }

  /** `w` is the flattening of the structural graph `g`: one job per leaf
      process, named after it, at any depth; one group per sub-graph, named
      after its node and holding that sub-graph's roots; the links of every
      level as dependencies between the jobs and groups standing for their
      ends; and the roots of the top level, groups first. */
  ghost predicate Flattens(w: Workflow, g: SGraph) {
    w.jobs.Keys == Deep(g, JobIdsAt) &&
    (forall id :: id in w.jobs ==> exists q :: q in Deep(g, ProcsAt) && q.id == id && w.jobs[id].name == q.name) &&
    w.groups.Keys == Deep(g, GroupIdsAt) &&
    GroupsFrom(w.groups, map[], Deep(g, SubNodesAt)) &&
    w.dependencies == Deep(g, EdgesAt) &&
    (forall h :: h in w.roots <==> InLevel(h, g)) &&
    GroupsFirst(w.roots) &&
    Resolved(w)
  }

  /** One memo, sound for the shared roots, supplied every shared reference
      the jobs put in for a string of their processes' command lines: the
      single `shared_map` of the call. */
  ghost predicate OneSharedMap(w: Workflow, g: SGraph, roots: SharedRoots) {
    exists memo :: MemoSound(memo, roots) && JobsShareMemo(w.jobs, Deep(g, ProcsAt), memo)
  }

  /** `tp` is the temporary path minted for one of the reported parameters. */
  predicate MintedPath(tp: TemporaryPath, empties: seq<EmptyParam>) {
    exists i :: 0 <= i < |empties| && tp == TempPathFor(empties[i].info, i)
  }

  /** Every temporary a job references was minted for a reported parameter. */
  ghost predicate TempsMinted(w: Workflow, empties: seq<EmptyParam>) {
    forall id, tp :: id in w.jobs && (tp in w.jobs[id].inputTemps || tp in w.jobs[id].outputTemps) ==>
      MintedPath(tp, empties)
  }

  /** The reported parameters are Undefined in `st2`; every other
      parameter has its value from `st`. */
  ghost predicate Restored(st2: State, st: State, empties: seq<EmptyParam>) {
    forall k :: ValueOf(st2, k) == if k in EmptyKeys(empties) then Undefined else ValueOf(st, k)
  }

  /** The reported parameters still hold their tokens in `st2`; every other
      parameter has its value from `st`. */
  ghost predicate TokensLeft(st2: State, st: State, empties: seq<EmptyParam>) {
    HoldsLastToken(st2, empties) &&
    forall k :: k !in EmptyKeys(empties) ==> ValueOf(st2, k) == ValueOf(st, k)
  }

  /** `workflow_from_pipeline`. `fuel` bounds the depth of the transfer
      walk, standing for the interpreter's recursion limit. */
  function WorkflowFromPipeline(p: Pipeline, config: StudyConfig, st: State, fuel: nat): (r: Outcome)
    requires Closed(p.links) && p.node in p.links
    requires DeepAll(p.structure, LinkedAt)
    requires NoTokens(st)
    ensures r.result.Success? <==> PipelineTransfers(p, config, st, fuel).Success? && DeepAll(p.structure, ResolvableAt)
    ensures PipelineTransfers(p, config, st, fuel).Failure? ==> r.result == Failure(PipelineTransfers(p, config, st, fuel).error)
    ensures r.result.Success? ==>
              r.result.value.name == p.name && Flattens(r.result.value, p.structure) && TempsMinted(r.result.value, p.empties)
    ensures r.result.Success? ==> OneSharedMap(r.result.value, p.structure, SharedRootsOf(config))
    ensures r.result.Success? ==> Restored(r.state, st, p.empties)
    ensures r.result.Failure? ==> TokensLeft(r.state, st, p.empties)
  {
    var a := AssignTemporaryFilenames(p.empties, st);
    AssignedState(p.empties, st);
    var transfers := PipelineTransfers(p, config, st, fuel);
    if transfers.Failure? then Outcome(Failure(transfers.error), a.state)
    else
      var ctx := Context(a.state, TempPaths(a.temps), transfers.value, SharedRootsOf(config));
      AssignedTokensAreMinted(p.empties, st);
      MintedReady(Deep(p.structure, ProcsAt), ctx, a.temps);
      var c := ConvertGraph(p.structure, ctx, map[]);
      if c.Failure? then Outcome(Failure(c.error), a.state)
      else
        var w := Workflow(c.value.jobs, c.value.deps, c.value.groups,
                          GroupHandles(c.value.rootGroups) + JobHandles(c.value.rootJobs), p.name);
        AssembledFlattens(p.structure, ctx, c.value, w);
        AssembledTempsMinted(a.temps, p.empties, Deep(p.structure, ProcsAt), ctx, w.jobs, c.value.memo);
        AssembledSharesMap(p.structure, ctx, c.value, w);
        Outcome(Success(w), RestoreEmptyFilenames(a.temps, a.state))
  }

  /** When the reported parameters were Undefined beforehand, a successful
      conversion leaves every parameter as it found it. */
  lemma ConversionLeavesStateAsFound(p: Pipeline, config: StudyConfig, st: State, fuel: nat)
    requires Closed(p.links) && p.node in p.links
    requires DeepAll(p.structure, LinkedAt)
    requires NoTokens(st)
    requires forall i :: 0 <= i < |p.empties| ==> ValueOf(st, KeyOf(p.empties[i])) == Undefined
    ensures var r := WorkflowFromPipeline(p, config, st, fuel);
            r.result.Success? ==> forall k :: ValueOf(r.state, k) == ValueOf(st, k)
  {
    var r := WorkflowFromPipeline(p, config, st, fuel);
    forall k | k in EmptyKeys(p.empties)
      ensures ValueOf(st, k) == Undefined
    {
      var i :| 0 <= i < |p.empties| && KeyOf(p.empties[i]) == k;
    }
  }

  /** What assignment leaves in the parameters, and what restoring then
      gives back. */
  lemma AssignedState(empties: seq<EmptyParam>, st: State)
    ensures var a := AssignTemporaryFilenames(empties, st);
            MintedMap(a.temps, empties) && TokensLeft(a.state, st, empties) &&
            Restored(RestoreEmptyFilenames(a.temps, a.state), st, empties)
  {
    RecordedAreReported(empties, st);
  }

  /** Once every token in the pipeline has been minted, every leaf process
      can be turned into a job. */
  lemma MintedReady(procs: set<Process>, ctx: Context, tm: TempMap)
    requires TokensMinted(ctx.st, tm) && ctx.temps.Keys == tm.Keys
    ensures ProcsReady(procs, ctx)
  {
    forall q, j | q in procs && 0 <= j < |q.params| && HoldsToken(q.id, q.params[j], ctx.st)
      ensures DecimalText(ParamValue(q.id, q.params[j], ctx.st).token) in ctx.temps
    {
      var k := (q.id, q.params[j].name);
      assert k in ctx.st;
    }
  }

  lemma JobsNamed(jobs: map<ProcId, Job>, procs: set<Process>, ctx: Context, final: Memo)
    requires JobsFrom(jobs, map[], procs, ctx, final)
    ensures forall id :: id in jobs ==> exists q :: q in procs && q.id == id && jobs[id].name == q.name
  {
    forall id | id in jobs
      ensures exists q :: q in procs && q.id == id && jobs[id].name == q.name
    {
      var q :| q in procs && q.id == id && BuiltFrom(jobs[id], q, ctx, final);
      var m :| BuiltWith(jobs[id], q, ctx, m, final);
    }
  }

  /** The assembled workflow is the flattening of the structural graph. */
  lemma AssembledFlattens(g: SGraph, ctx: Context, c: Conversion, w: Workflow)
    requires Converted(g, ctx, map[], c)
    requires w.jobs == c.jobs && w.dependencies == c.deps && w.groups == c.groups
    requires w.roots == GroupHandles(c.rootGroups) + JobHandles(c.rootJobs)
    ensures Flattens(w, g)
  {
    ConvertedResolves(g, ctx, map[], c);
    RootsOrdered(c.rootGroups, c.rootJobs);
    JobsNamed(c.jobs, Deep(g, ProcsAt), ctx, c.memo);
    forall i | 0 <= i < |w.roots|
      ensures NamedBy(w.roots[i], w.jobs.Keys, w.groups.Keys)
    {
      assert w.roots[i] in w.roots;
    }
  }

  /** The conversion's final memo is sound and is the one every job drew
      its shared references from. */
  lemma AssembledSharesMap(g: SGraph, ctx: Context, c: Conversion, w: Workflow)
    requires Converted(g, ctx, map[], c)
    requires w.jobs == c.jobs
    ensures OneSharedMap(w, g, ctx.roots)
  {
    OneReferencePerPath(c.jobs, Deep(g, ProcsAt), ctx, c.memo);
    assert MemoSound(map[], ctx.roots);
  }

  /** `tm` holds one entry per reported parameter, minted for it. */
  predicate MintedMap(tm: TempMap, empties: seq<EmptyParam>) {
    tm.Keys == TokenTexts(|empties|) &&
    forall i :: 0 <= i < |empties| ==> MintedFor(tm[DecimalText(i)], empties[i], i)
  }

  /** The temporary behind a minted token text is the one minted for some
      reported parameter. */
  lemma TokenPathMinted(tm: TempMap, empties: seq<EmptyParam>, txt: string)
    requires MintedMap(tm, empties) && txt in tm
    ensures MintedPath(tm[txt].path, empties)
  {
    var i :| 0 <= i < |empties| && DecimalText(i) == txt;
    assert MintedFor(tm[DecimalText(i)], empties[i], i);
  }

  lemma AssembledTempsMinted(tm: TempMap, empties: seq<EmptyParam>, procs: set<Process>, ctx: Context,
                             jobs: map<ProcId, Job>, final: Memo)
    requires MintedMap(tm, empties) && ctx.temps == TempPaths(tm)
    requires JobsFrom(jobs, map[], procs, ctx, final)
    ensures forall id, tp :: id in jobs && (tp in jobs[id].inputTemps || tp in jobs[id].outputTemps) ==>
              MintedPath(tp, empties)
  {
    forall id, tp | id in jobs && (tp in jobs[id].inputTemps || tp in jobs[id].outputTemps)
      ensures MintedPath(tp, empties)
    {
      var q :| q in procs && q.id == id && BuiltFrom(jobs[id], q, ctx, final);
      var output := tp in jobs[id].outputTemps;
      BuiltTempsListed(jobs[id], q, ctx, final, output, tp);
      ListedTempMinted(tm, empties, q, ctx, output, tp);
    }
  }

  /** The temporaries of a job are those its process's token parameters
      stand for. */
  lemma BuiltTempsListed(job: Job, q: Process, ctx: Context, final: Memo, output: bool, tp: TemporaryPath)
    requires BuiltFrom(job, q, ctx, final)
    requires tp in (if output then job.outputTemps else job.inputTemps)
    ensures Listed(q.id, q.params, ctx.st, ctx.temps, output, tp)
  {
    var m :| BuiltWith(job, q, ctx, m, final);
    var b := BuildJob(q, ctx.st, ctx.temps, m, ctx.transfers, ctx.roots);
    assert job == b.job;
  }

  lemma ListedTempMinted(tm: TempMap, empties: seq<EmptyParam>, q: Process, ctx: Context, output: bool, tp: TemporaryPath)
    requires MintedMap(tm, empties) && ctx.temps == TempPaths(tm)
    requires Listed(q.id, q.params, ctx.st, ctx.temps, output, tp)
    ensures MintedPath(tp, empties)
  {
    var j :| 0 <= j < |q.params| && RefersTemp(q.id, q.params[j], ctx.st, ctx.temps, output, tp);
    var txt := DecimalText(ParamValue(q.id, q.params[j], ctx.st).token);
    assert txt in tm && tp == tm[txt].path;
    TokenPathMinted(tm, empties, txt);
  }
}

=== FILE: wrappers.dfy ===
/** Failure-compatible Option and Result types used throughout the model. */
module Wrappers {

  datatype Option<+T> = None | Some(value: T) {
    function GetOr(default: T): T {
      match this
      case Some(v) => v
      case None => default
    }
  }

  datatype Result<+T, +E> = Success(value: T) | Failure(error: E) {
    predicate IsFailure() {
      Failure?
    }

    function PropagateFailure<U>(): Result<U, E>
      requires Failure?
    {
      Failure(error)
    }

    function Extract(): T
      requires Success?
    {
      value
    }
  }
}
